=== FILE: README.md ===
# Hadi Books store front: a Dafny model of its handlers and stores

This project models the pure logic of the React front end of the Hadi Books
store and of the rider-expense pages that live in the same application. The
model uses immutable datatypes and pure functions. It covers:

- the cart and wishlist store (`ShopContext`);
- the catalogue filter, sort and subcategory normaliser (`Collections`);
- the cart, product, product-card and wishlist pages;
- the authentication rules of `AppContext`;
- the one-time-code boxes and step machines of the register, verify and reset pages;
- the login and profile checks;
- both checkout pages, with their payment-method modal and upload gate;
- the order lookups of the account and orders pages;
- the review box, the hero carousel, the newsletter box and the complaint form;
- the rider dashboard, daily records and history pages: billing cycle, salary and penalty, chart data, filters and forms.

Each operation is a function whose contract states what the page or store
promises. Lemmas relate operations to one another: inverses, idempotence,
invariants kept over runs of events, and agreement between pages that
compute the same thing. The third-party validators (`validator.isEmail`,
`isMobilePhone`) are function parameters. The only thing any lemma assumes
about them is that both reject the empty string (`Validators.RejectsEmpty`),
a hypothesis of `RegisterPage.PageThenContext`.
The server, the browser storage and the clock are replaced by explicit
parameters.

Files, one module each:

- `wrappers.dfy`: `Option` and the `Verdict` of a guard (`Proceed` or `Refuse(message)`).
- `js_text.dfy`: `JsText` and `JsNumber`, the JavaScript string and number built-ins the pages rely on (`trim`, ASCII case mapping, `Number()`).
- `seqs.dfy`: `filter`, `slice`, `reduce`, de-duplication and the stable sort.
- `catalogue.dfy`: products and `products.find`.
- `shop.dfy`: the store.
- `collections.dfy`, `cart_page.dfy`, `product_page.dfy`, `product_items.dfy`, `wishlist_page.dfy`: the shop pages.
- `app_context.dfy`, `validators.dfy`, `form_rules.dfy`, `otp.dfy`: the authentication rules.
- `register.dfy`, `email_verify.dfy`, `reset_password.dfy`, `login.dfy`, `manage_account.dfy`: the account forms.
- `checkout.dfy`, `place_order.dfy`, `guest_checkout.dfy`: the checkout pages.
- `order_info.dfy`, `account.dfy`, `orders.dfy`: order display.
- `review.dfy`, `hero.dfy`, `newsletter.dfy`, `complain.dfy`: the components.
- `rider.dfy`, `dashboard.dfy`, `daily_records.dfy`, `history.dfy`: the rider-expense pages.

## Model

| member | source | states |
|---|---|---|
| Catalogue.Find | src/context/ShopContext.jsx:100-104 | `products.find` by id: absent exactly when no product carries the id, otherwise the first product with that id |
| Shop.AddToCart | src/context/ShopContext.jsx:97-173 | fails and leaves the cart unchanged exactly when the product is not in the catalogue. A line with the same (productId, format) grows by exactly `quantity`, with no cap, and nothing else changes. Otherwise exactly one snapshot line is appended at the end |
| Shop.AddToCartKeepsKeysUnique | src/context/ShopContext.jsx:108-157 | adding keeps the invariant "at most one line per (productId, format)" |
| Shop.AddToCartCount | src/context/ShopContext.jsx:334-336 | a successful add raises the item count by exactly the quantity added |
| Shop.AddToCartSubtotal | src/context/ShopContext.jsx:342-351 | a successful add raises the subtotal by the catalogue price times the quantity, whether the line was merged or appended |
| Shop.MergeSubtotal | src/context/ShopContext.jsx:137-142 | raising one line's quantity raises the subtotal by the product price times the increase |
| Shop.SubtotalAppend | src/context/ShopContext.jsx:342-351 | the subtotal fold distributes over appending a line |
| Shop.SubtotalReplace | src/context/ShopContext.jsx:342-351 | replacing one line changes the subtotal by the difference of the two line amounts |
| Shop.RemoveFromCart | src/context/ShopContext.jsx:175-205 | keeps exactly the lines not matching (productId, format), in their original relative order |
| Shop.UpdateCart | src/context/ShopContext.jsx:207-239 | sets the quantity of matching lines only; the length and every other line are unchanged |
| Shop.UpdateCartKeepsKeysUnique | src/context/ShopContext.jsx:212-224 | updating keeps at most one line per key |
| Shop.LinePrice | src/context/ShopContext.jsx:342-351 | the catalogue price when the product is listed, else the line's own price, else 0 |
| Shop.CartTotal | src/context/ShopContext.jsx:8-9 | subtotal plus tax at `TAX_RATE` (0) plus the shipping fee of 99, which is charged even for an empty cart |
| Shop.ToggleGuestWishlist | src/context/ShopContext.jsx:241-261 | an unknown id fails. A present id is removed; an absent one is appended while fewer than 10 are kept and refused at 10. A list within the cap of 10 stays within it |
| Shop.ToggleGuestWishlistTwice | src/context/ShopContext.jsx:253-261 | adding an absent id and toggling it again restores the list |
| Shop.ToggleWishlist | src/context/ShopContext.jsx:269-292 | the signed-in toggle flips membership of the id and leaves every other id as it was |
| Shop.ToggleWishlistHasNoCap | src/context/ShopContext.jsx:269-292 | at 10 or more ids the signed-in toggle still adds while the guest toggle refuses |
| Shop.RemoveFromWishlist | src/context/ShopContext.jsx:300-328 | removes every occurrence of the id, keeps every other id, and keeps order |
| Shop.ToggleFlipsMembership | src/context/ShopContext.jsx:330-332 | after a successful guest toggle, `isInWishlist` answers the opposite of before |
| Collections.CleanSubCategory | src/pages/Collections.jsx:58-66 | "" for a missing or empty value, and "" exactly when the value holds no plain character. The result has no `[`, `]`, `"`, `,` or `_`, no surrounding whitespace, only single plain spaces, and no word starting with a lower-case letter. Every other character is a plain character of the input or its capital. An already tidy value is only capitalised |
| Collections.CleanSubCategoryIdempotent | src/pages/Collections.jsx:58-66 | normalising a normalised value changes nothing |
| Collections.CleanSubCategoryExample | src/pages/Collections.jsx:58-66 | `["new_books"]` normalises to `New Books` |
| Collections.CapitalizeShape | src/pages/Collections.jsx:65 | capitalising at word boundaries keeps a tidy string tidy and leaves no word starting lower-case |
| Collections.CapitalizeIdempotent | src/pages/Collections.jsx:65 | capitalising twice is capitalising once |
| Collections.CollapseSpaces | src/pages/Collections.jsx:63 | collapsing whitespace runs leaves only single plain spaces and introduces no other character |
| Collections.Offered | src/pages/Collections.jsx:68-77 | the offerable values without repeats, in the order of their first appearance in the catalogue |
| Collections.UniqueSubCategories | src/pages/Collections.jsx:68-78 | at most 50 distinct values, each the normalised form of an offerable raw value, in order of first appearance; when fewer than 50, every such value is present; a value kept appears earlier than every value dropped |
| Collections.CutKeepsEarliest | src/pages/Collections.jsx:78 | `slice(0, n)` of the de-duplicated list keeps the values that appear first |
| Collections.CleanedValueMayBeFixed | src/pages/Collections.jsx:74-76 | the fixed-category test runs before normalising, so raw `medical` is offered and shows as the fixed name `Medical` |
| Collections.SubCategoriesFor | src/pages/Collections.jsx:80-108 | defined exactly for the fixed categories; each list has at most 20 distinct values drawn from that category's products, or from all products for "Used & Affordable"; with fewer than 20, every such value is listed; a value kept appears in those products earlier than every value dropped |
| Collections.OfferedFromCategory | src/pages/Collections.jsx:95-106 | a value listed under a category comes from a product of that category |
| Collections.UsedAndAffordableIsPrefix | src/pages/Collections.jsx:83-94 | the "Used & Affordable" list is the first 20 of the overall subcategory list |
| Collections.ToggleFilter | src/pages/Collections.jsx:232-246 | removes every occurrence of a present value or appends an absent one; every other filter key is unchanged |
| Collections.ToggleFilterTwice | src/pages/Collections.jsx:232-246 | toggling an absent value twice restores the filters |
| Collections.ToggleSingle | src/pages/Collections.jsx:248-253 | a single-valued filter becomes null when it equals the value, else the value |
| Collections.ToggleRating | src/pages/Collections.jsx:248-253 | the rating filter toggles and nothing else changes |
| Collections.ToggleAvailability | src/pages/Collections.jsx:248-253 | the availability filter toggles and nothing else changes |
| Collections.SubCategoryClick | src/pages/Collections.jsx:296-304 | the subcategory filter becomes the clicked value alone and nothing else changes |
| Collections.MobileCategoryToggle | src/pages/Collections.jsx:313-327 | opening another category toggles it in the category filter and leaves every other key alone; closing the open one, or any click on the empty category, removes every occurrence of it, keeps the other categories in order, clears the subcategories and leaves the other keys as they were |
| Collections.MobileOpenThenClose | src/pages/Collections.jsx:313-327 | opening an unselected category and closing it again restores the category filter, with the subcategories cleared and nothing open |
| Collections.ApplyFilters | src/pages/Collections.jsx:139-192 | the chain of filters equals one filter of the catalogue by every active test at once, so it keeps order and repeats; a product is shown exactly when it passes every active filter |
| Collections.TextStages | src/pages/Collections.jsx:142-168 | the search, category and subcategory stages together are one filter by the three tests |
| Collections.RangeStages | src/pages/Collections.jsx:170-192 | the price, rating and availability stages together are one filter by the four tests |
| Collections.StageStep | src/pages/Collections.jsx:139-192 | one more `filter` step on a filtered list is a single filter by both tests |
| Collections.Arrange | src/pages/Collections.jsx:194-227 | as written: "price-low", "newest" and "rating" are permutations ordered by price, date or rating; "price-high" leaves the list as it is; "new-books" and "old-books" keep exactly the products with that cleaned subcategory; any other option keeps the list |
| Collections.ArrangeIntended | src/pages/Collections.jsx:194-227 | with the corrected comparator, "price-high" is a permutation in descending price; every other option arranges as written |
| Collections.Visible | src/pages/Collections.jsx:139-229 | every product shown is in the catalogue and passes every active filter; the unsorted options and "price-high" show a subsequence of the catalogue, "price-high" exactly the filtered list |
| Collections.ArrangeKeepsMembers | src/pages/Collections.jsx:194-227 | every arrangement draws only from its input; the sorts keep all of it, the other options keep a subsequence |
| Collections.NewBooksExactly | src/pages/Collections.jsx:207-215 | "new-books" shows a filtered product exactly when one of its subcategories cleans to "New Books" |
| Collections.SortPriceHighAsWritten | src/pages/Collections.jsx:198-200 | the price-high sort as written is a permutation of its input |
| Collections.PriceHighAsWrittenKeepsOrder | src/pages/Collections.jsx:198-200 | with the comparator as written, "price-high" leaves the order unchanged |
| Collections.SortPriceHigh | src/pages/Collections.jsx:198-200 | the corrected sort is a permutation ordered by descending price |
| Collections.PriceHighCounterexample | src/pages/Collections.jsx:198-200 | two products in ascending price order stay ascending as written, and are reversed by the corrected sort |
| CartPage.FirstImage | src/pages/Cart.jsx:48-50 | an image array is reduced to its first entry |
| CartPage.Join | src/pages/Cart.jsx:40-66 | a listed product is shown from the catalogue; otherwise the line's own snapshot is shown, with category "N/A" when it has none |
| CartPage.CartData | src/pages/Cart.jsx:40-66 | one joined entry per cart line, same length and order |
| CartPage.CartDataKeepsLines | src/pages/Cart.jsx:40-66 | the cart lines can be read back from the joined entries |
| CartPage.ImageUrlAsWritten | src/pages/Cart.jsx:86-100 | a line with a string image and no product image falls through to the placeholder |
| CartPage.LineImageIgnored | src/pages/Cart.jsx:95-98 | a product without an image and a line image `cover.jpg` show the placeholder as written and `cover.jpg` as intended |
| CartPage.ImageUrl | src/pages/Cart.jsx:86-100 | the product image first, then the line's image, then the placeholder |
| CartPage.ImageUrlExtends | src/pages/Cart.jsx:86-100 | the corrected lookup agrees with the written one wherever the written one finds an image |
| CartPage.SubtotalAgreesWithStore | src/pages/Cart.jsx:102-108 | when no listed product is priced 0, the page subtotal equals the store's subtotal |
| CartPage.ShippingShown | src/pages/Cart.jsx:400-406 | the shipping row shows 0 for an empty cart and the fee otherwise |
| CartPage.EmptyCartRows | src/pages/Cart.jsx:208-220 | an empty cart shows the summary only while the cart is loading, and then the shipping row shows 0 while the total still includes the fee; once loaded it shows the empty message instead |
| CartPage.QuantityChange | src/pages/Cart.jsx:110-118 | a quantity below 1 or above 10 is refused with its message and no update; otherwise the store update is applied |
| CartPage.QuantityChangeKeepsBounds | src/pages/Cart.jsx:110-118 | a cart whose quantities are all in 1..10 stays so |
| CartPage.AlsoLike | src/pages/Cart.jsx:542-547 | the first four catalogue products not in the cart, in catalogue order: the not-in-cart products of some catalogue prefix, and all of them when fewer than four |
| ProductPage.QuantityChange | src/pages/Product.jsx:107-112 | a step that stays in 1..10 is taken, any other is ignored, and the quantity stays in 1..10 |
| ProductPage.StepsStayInRange | src/pages/Product.jsx:107-112 | any run of steps from a quantity in 1..10 stays in 1..10 |
| ProductPage.QuantityNote | src/pages/Product.jsx:496 | "Max quantity reached" shows exactly at quantity 10 |
| ProductPage.InitialFormat | src/pages/Product.jsx:46 | the first format, or "" when there is none |
| ProductPage.Related | src/pages/Product.jsx:700-713 | the first 5 catalogue products of the same category with a different id, in catalogue order: the related products of some catalogue prefix, and all of them when fewer than 5 |
| ProductPage.NotRelatedToItself | src/pages/Product.jsx:700-713 | a product is never among its own related products |
| ProductCard.InitialFormat | src/components/ProductItems.jsx:22 | the first format when it is non-empty, else none |
| ProductCard.AddToCart | src/components/ProductItems.jsx:31-40 | with formats listed and none selected, the add is refused and the cart untouched; otherwise the store add runs with quantity 1 |
| ProductCard.InitialFormatPassesGate | src/components/ProductItems.jsx:22-37 | the initially selected format always passes the gate |
| ProductCard.ShowsOriginalPrice | src/components/ProductItems.jsx:125 | the original price shows only when present and strictly above the price |
| ProductCard.WishlistFlag | src/components/ProductItems.jsx:57-63 | a successful toggle flips the flag; a failed one keeps it |
| ProductCard.FlagTracksWishlist | src/components/ProductItems.jsx:57-63 | a flag that matched wishlist membership still matches it after a toggle |
| WishlistPage.WishlistProducts | src/pages/Wishlist.jsx:13-15 | exactly the catalogue products whose id is wished for, in catalogue order |
| WishlistPage.WishlistProductsDistinct | src/pages/Wishlist.jsx:13-15 | no product is listed twice, however often its id is wished for |
| WishlistPage.ShowsEmptyState | src/pages/Wishlist.jsx:59 | the empty state follows the raw wishlist count |
| WishlistPage.StaleIdsGiveEmptyGrid | src/pages/Wishlist.jsx:59-84 | ids missing from the catalogue give neither the empty state nor any product |
| WishlistPage.AddToCart | src/pages/Wishlist.jsx:17-18 | the add uses no format and quantity 1, so success raises the item count by one |
| AppContext.RequestUrlAsWritten | src/context/AppContext.jsx:38 | an absolute URL is kept; any other is prefixed by the base URL |
| AppContext.DoubledApiPrefix | src/context/AppContext.jsx:63 | with the default base, `/api/auth/is-auth`-style paths become `/api/api/...` |
| AppContext.DoubledApiPrefixAlways | src/context/AppContext.jsx:17 | with the default base, every `/api/...` path is sent under `/api/api/` |
| AppContext.RequestUrl | src/context/AppContext.jsx:38 | corrected: a path already under the base is sent as it is |
| AppContext.RequestUrlSinglePrefix | src/context/AppContext.jsx:38 | corrected, every `/api/...` path is sent under `/api/` and never under `/api/api/` |
| AppContext.RegisterCheck | src/context/AppContext.jsx:197-233 | registration proceeds exactly when all fields are present, the email is valid, the password has 8+ characters in the allowed set with a letter and a digit, the two passwords match and the names fit 20 characters; the first failing check gives the message |
| AppContext.AcceptedPasswordIsTrimmed | src/context/AppContext.jsx:211-217 | an accepted password has no surrounding whitespace and at least 8 characters |
| AppContext.CredentialsCheck | src/context/AppContext.jsx:250-257 | login and account deletion proceed exactly when both fields are present and the email is valid; missing fields are reported first |
| AppContext.VerifyEmailCheck | src/context/AppContext.jsx:297-300 | only exactly six ASCII digits reach the server |
| AppContext.ResetPasswordCheck | src/context/AppContext.jsx:425-447 | the reset proceeds exactly when all four fields are present, the email is valid, the code is six digits, the password rule holds and both passwords match |
| AppContext.RegisterAndResetAgree | src/context/AppContext.jsx:211-217 | registration and reset accept the same passwords |
| AppContext.SendVerifyOtpCheck | src/context/AppContext.jsx:326-329 | an empty user id is refused |
| AppContext.UploadPaymentProofCheck | src/context/AppContext.jsx:589-595 | a missing order id or file is refused |
| AppContext.Logout | src/context/AppContext.jsx:466-470 | the user and the "user", "localCart" and "localWishlist" keys are cleared; every other key keeps its value |
| AppContext.LogoutIdempotent | src/context/AppContext.jsx:466-470 | logging out twice is logging out once |
| FormRules.PasswordFieldError | src/pages/ResetPassword.jsx:99-105 | the live password message is empty exactly when the value is empty or has 8+ characters obeying the password rule |
| Otp.Change | src/pages/Register.jsx:45-54 | "" or a single digit is stored at the index; anything else leaves the boxes unchanged; well-formed boxes stay well-formed |
| Otp.FocusAfter | src/pages/EmailVerify.jsx:21-23 | focus moves to the next box exactly when a digit was stored and the index is below 5 |
| Otp.Paste | src/pages/Register.jsx:56-65 | the trimmed text replaces the boxes exactly when it is six digits, and the boxes then join to it |
| Otp.JoinedSplit | src/pages/Register.jsx:58-60 | splitting text into boxes and joining them gives the text back |
| Otp.SubmitCheck | src/pages/Register.jsx:161-166 | a code is sent exactly when the joined boxes are six digits |
| Otp.SubmitWhenFull | src/pages/Register.jsx:161-166 | on well-formed boxes the code can be sent exactly when all six boxes are filled |
| Otp.PasteThenSubmit | src/pages/Register.jsx:56-166 | a pasted code can be sent at once |
| RegisterPage.SubmitCheck | src/pages/Register.jsx:73-126 | checks first name, last name when given, email, match and strength, in that order, and refuses with the message of the first check that fails; proceeds exactly when all pass |
| RegisterPage.UpperCasePasswordRefused | src/pages/Register.jsx:112-126 | an upper-case-and-digits password is refused |
| RegisterPage.PageThenContext | src/pages/Register.jsx:73-135 | a form the page accepts with a password in the allowed set also passes the context's check |
| RegisterPage.PageAndContextDiffer | src/pages/Register.jsx:112-120 | a password with a space passes the page's strength rule but not the context's format |
| RegisterPage.AfterRegister | src/pages/Register.jsx:136-150 | success, or an "unverified" reply with a user, moves to verification with the id and a 60-second wait; any other failure changes nothing |
| RegisterPage.AfterResend | src/pages/Register.jsx:182-189 | a resend is attempted only with the timer at 0 and a user id, and success restarts the wait |
| RegisterPage.TicksCount | src/pages/Register.jsx:26-34 | k seconds of countdown lower the timer by k, stopping at 0 |
| RegisterPage.ResendAfterSixty | src/pages/Register.jsx:136-189 | after registering, a new code can be asked for exactly once 60 seconds have passed |
| EmailVerifyPage.Submit | src/pages/EmailVerify.jsx:45-56 | sends exactly when the joined boxes are six digits, with the navigation user id and the joined code |
| EmailVerifyPage.PasteThenSubmit | src/pages/EmailVerify.jsx:27-56 | a pasted code is sent as pasted, without its surrounding whitespace |
| EmailVerifyPage.EmptyIsNotSent | src/pages/EmailVerify.jsx:45-51 | nothing is sent from empty boxes |
| ResetPasswordPage.Next | src/pages/ResetPassword.jsx:20-89 | a step advances by one exactly on a successful reply to its own form, and otherwise stays |
| ResetPasswordPage.NoSkipping | src/pages/ResetPassword.jsx:26-81 | the password form is reached only from the code form, and the code form only from the email form |
| ResetPasswordPage.RunMonotone | src/pages/ResetPassword.jsx:11-81 | over any run of replies the step never goes back and moves at most one step per reply |
| ResetPasswordPage.ChangeNew | src/pages/ResetPassword.jsx:94-112 | over 50 characters only the message changes; otherwise the value is stored, its message is empty exactly when it is empty or valid, and the mismatch follows the confirmation |
| ResetPasswordPage.ChangeConfirm | src/pages/ResetPassword.jsx:113-123 | over 50 characters only the message changes; otherwise the mismatch is set exactly when the value is non-empty and differs |
| ResetPasswordPage.EditsKeepMismatchSound | src/pages/ResetPassword.jsx:94-123 | every edit keeps the mismatch message honest |
| ResetPasswordPage.LengthMessageHidesMismatch | src/pages/ResetPassword.jsx:114-117 | an over-long confirmation edit replaces a mismatch message that still applies |
| ResetPasswordPage.SubmitCheck | src/pages/ResetPassword.jsx:127-140 | length first, then the rule, then equality; proceeds exactly when all hold |
| ResetPasswordPage.PageAgreesWithContext | src/pages/ResetPassword.jsx:127-140 | the page accepts exactly the passwords the context's reset check accepts |
| LoginPage.ValidateForm | src/pages/Login.jsx:22-46 | always passes when logging in; signing up needs a name of at most 20 characters matching the name rule and a valid password |
| LoginPage.NameFieldError | src/pages/Login.jsx:55-60 | the live name message is empty exactly when the name is empty or obeys the rule |
| LoginPage.InputChange | src/pages/Login.jsx:48-81 | an over-long name or password only sets its message; otherwise the value is stored with its message |
| LoginPage.InputChangeKeepsCaps | src/pages/Login.jsx:48-81 | stored values never exceed 20 and 50 characters, and their messages stay current |
| LoginPage.CleanFieldsPass | src/pages/Login.jsx:22-81 | with both fields filled and their messages clear, sign-up validation passes |
| LoginPage.EmploymentType | src/pages/Login.jsx:90-91 | "Part Timer" maps to "PartTimer" and anything else to "FullTimer" |
| ManageAccountPage.ValidateProfile | src/pages/ManageAccount.jsx:64-76 | passes exactly when the name fits 20 characters and a new password is empty or has 8+ |
| ManageAccountPage.ProfilePayload | src/pages/ManageAccount.jsx:92-97 | empty passwords are sent as absent; the other fields as they are |
| ManageAccountPage.ProfilePayloadRoundTrip | src/pages/ManageAccount.jsx:92-97 | the profile is recovered from the payload, reading absent as "" |
| ManageAccountPage.PictureChange | src/pages/ManageAccount.jsx:168-196 | no file changes nothing; a non-image or an over-1-MiB compressed file is refused; an accepted file clears the message |
| ManageAccountPage.AcceptedPictureFits | src/pages/ManageAccount.jsx:190-193 | every accepted picture is an image of at most 1 MiB |
| ManageAccountPage.InitialTab | src/pages/ManageAccount.jsx:13-15 | the "tab" parameter when given, else "updateProfile" |
| Checkout.ProofRefusal | src/pages/PlaceOrder.jsx:149-174 | the type message comes before the size message |
| Checkout.SubstringPasses | src/pages/PlaceOrder.jsx:152-154 | the unanchored type test accepts any name containing "png" |
| Checkout.TrimmedOrAbsent | src/pages/PlaceOrder.jsx:247 | a blank value becomes absent, any other its trimmed form |
| PlaceOrderPage.ChangeMethod | src/pages/PlaceOrder.jsx:132-147 | "online" opens the modal and keeps the option and proof; "cod" clears both and closes it |
| PlaceOrderPage.CloseModal | src/pages/PlaceOrder.jsx:341-351 | confirming only closes; cancelling returns to cash on delivery with option and proof cleared |
| PlaceOrderPage.CancelAfterOnlineIsCod | src/pages/PlaceOrder.jsx:132-351 | opening "online" and cancelling always ends in the cash-on-delivery state |
| PlaceOrderPage.FileChange | src/pages/PlaceOrder.jsx:149-174 | no file keeps the proof; a refused file clears it; an accepted one becomes the proof |
| PlaceOrderPage.KeptProofWasAccepted | src/pages/PlaceOrder.jsx:149-174 | a kept proof always passed the upload gate |
| PlaceOrderPage.Validate | src/pages/PlaceOrder.jsx:176-200 | a field is in error exactly when its check fails; with cash on delivery the payment fields are never in error |
| PlaceOrderPage.ValidateIffComplete | src/pages/PlaceOrder.jsx:176-200 | validation passes exactly when the names, address and city are given, the email and mobile are valid, and "online" has an option and a proof |
| PlaceOrderPage.PostCodeAndCountryIgnored | src/pages/PlaceOrder.jsx:184-185 | postal code and country never affect validation |
| PlaceOrderPage.Items | src/pages/PlaceOrder.jsx:252-255 | one (productId, quantity) item per line, in cart order |
| PlaceOrderPage.Submit | src/pages/PlaceOrder.jsx:202-258 | no user id, then an empty cart, then an invalid form stop the order, in that order; otherwise the payload has the trimmed postal code and the cart's items |
| PlaceOrderPage.CartAfterReply | src/pages/PlaceOrder.jsx:240-323 | success empties the cart; failure restores the cart as it was before submitting |
| PlaceOrderPage.FailedCheckoutResubmits | src/pages/PlaceOrder.jsx:240-323 | after a failed checkout, submitting again sends the same order |
| GuestCheckoutPage.Validate | src/pages/GuestCheckout.jsx:79-94 | a field is in error exactly when its check fails |
| GuestCheckoutPage.CityIsRequired | src/pages/GuestCheckout.jsx:83 | a blank city fails validation |
| GuestCheckoutPage.OptionalFieldsIgnored | src/pages/GuestCheckout.jsx:79-94 | phone, postal code and country never affect validation |
| GuestCheckoutPage.FallbackPrice | src/pages/GuestCheckout.jsx:54-57 | the line's own price unless missing or 0, then the catalogue price, else 0 |
| GuestCheckoutPage.FallbackTotals | src/pages/GuestCheckout.jsx:53-67 | subtotal is the sum of price times quantity; tax at `TAX_RATE`; total is subtotal plus tax plus the shipping fee |
| GuestCheckoutPage.FallbackAgreesWithStore | src/pages/GuestCheckout.jsx:53-67 | when lines carry current non-zero prices, the fallback subtotal equals the store's |
| GuestCheckoutPage.BuildItems | src/pages/GuestCheckout.jsx:96-101 | one item per line in cart order, priced like the fallback |
| GuestCheckoutPage.ItemsAddUpToSubtotal | src/pages/GuestCheckout.jsx:96-101 | the items sent add up to the fallback subtotal |
| GuestCheckoutPage.NormalEmail | src/pages/GuestCheckout.jsx:120 | the trimmed email with ASCII letters lower-cased |
| GuestCheckoutPage.NormalEmailIdempotent | src/pages/GuestCheckout.jsx:120 | the sent email is already normal |
| GuestCheckoutPage.MakePayload | src/pages/GuestCheckout.jsx:116-133 | trimmed name and address, normal email, blank optional fields as null, and the option only for "online" |
| GuestCheckoutPage.Submit | src/pages/GuestCheckout.jsx:103-114 | validation first, then the empty-cart check; otherwise the payload is sent |
| GuestCheckoutPage.ChooseMethod | src/pages/GuestCheckout.jsx:201-210 | "online" only opens the modal; anything else resets to cash on delivery |
| GuestCheckoutPage.CloseModal | src/pages/GuestCheckout.jsx:212-221 | confirming sets "online"; cancelling resets to cash on delivery |
| GuestCheckoutPage.FileChange | src/pages/GuestCheckout.jsx:181-199 | no file clears the proof; otherwise the same gate as the signed-in page |
| GuestCheckoutPage.PagesAgreeOnModal | src/pages/GuestCheckout.jsx:201-221 | both checkout pages reach the same state when "online" is chosen and the modal closed |
| GuestCheckoutPage.PagesAgreeOnPickedFile | src/pages/GuestCheckout.jsx:181-199 | both pages gate a picked file the same way |
| GuestCheckoutPage.RunKeepsMethodKnown | src/pages/GuestCheckout.jsx:181-221 | over any run of events the method is "cod" or "online" and a kept proof passed the gate |
| GuestCheckoutPage.AfterOrderAsWritten | src/pages/GuestCheckout.jsx:143-148 | the stored cart is removed but the in-memory cart is kept |
| GuestCheckoutPage.CartSurvivesGuestOrder | src/pages/GuestCheckout.jsx:15 | as written, a non-empty cart is still there after the order |
| GuestCheckoutPage.AfterOrder | src/pages/GuestCheckout.jsx:143-148 | corrected: both carts are emptied and no other stored key changes |
| GuestCheckoutPage.GuestOrderClearsLikeSignedIn | src/pages/GuestCheckout.jsx:143-148 | corrected, a guest order leaves the cart as a signed-in order does |
| OrderInfo.ParseName | src/pages/Account.jsx:155-180 | every known status is recognised by its own name |
| OrderInfo.Description | src/pages/Account.jsx:155-180 | the unknown-status text is given exactly for an unknown status |
| OrderInfo.BadgeClasses | src/pages/Account.jsx:182-207 | a background class and a text class without spaces; gray for an unknown status |
| OrderInfo.SecondTokenIsTextClass | src/pages/Account.jsx:1207 | the second token of the colour string is the badge's text class |
| OrderInfo.StatusLabel | src/pages/Account.jsx:1198 | every `_` becomes a space and the other characters are upper-cased |
| OrderInfo.ShipmentInfo | src/pages/Account.jsx:209-260 | a link exactly for the five couriers; the name "Unknown" exactly for a missing or unknown method |
| OrderInfo.MethodInfo | src/pages/Orders.jsx:138-190 | a link exactly for a known method other than "other" |
| OrderInfo.ImageSrc | src/pages/Account.jsx:1232-1234 | the first array entry, a non-empty URL, or the placeholder |
| OrderInfo.TrackOrderClick | src/pages/Account.jsx:270-278 | the dialog opens on the order exactly when it has a tracking id and a method |
| OrderInfo.OpenedDialogHasMethod | src/pages/Orders.jsx:199-207 | an opened dialog for a known courier has a link |
| OrderInfo.OrderPreview | src/pages/Account.jsx:1226-1270 | the first two items, and "+(n-2) more" when there are more than two |
| OrderInfo.PreviewAccountsForAll | src/pages/Orders.jsx:438-476 | items shown plus the count in the note is the number of items |
| AccountPage.PasswordChange | src/pages/Account.jsx:380-388 | a mismatch is reported before a short password; only equal passwords of 8+ proceed |
| AccountPage.AccountDelete | src/pages/Account.jsx:413-421 | needs a password and the text "DELETE"; a missing password is reported first |
| AccountPage.ProfileChange | src/pages/Account.jsx:280-285 | email edits are ignored; any other field takes the value and nothing else changes |
| AccountPage.PictureChange | src/pages/Account.jsx:297-316 | a file of at most 250 KiB with an allowed type is selected; anything else keeps the selection |
| AccountPage.SelectedPictureAllowed | src/pages/Account.jsx:297-316 | over any run of picks the selection always passed the gate |
| AccountPage.CaptionAsWritten | src/pages/Account.jsx:1659-1662 | as written, the caption is that of a missing method |
| AccountPage.CaptionAlwaysUnknown | src/pages/Account.jsx:1661 | for a TCS order the link is shown but the caption reads "Unknown" |
| AccountPage.Caption | src/pages/Account.jsx:1650-1662 | corrected: the name of the courier whose link is shown, "Unknown" exactly for an unknown method |
| AccountPage.ItemRow | src/pages/Account.jsx:1226-1234 | the catalogue product, else the snapshot, else nothing drawn |
| AccountPage.PagesAgreeOnSnapshotName | src/pages/Account.jsx:1226-1234 | for an item gone from the catalogue both pages draw the snapshot's name |
| OrdersPage.ItemRow | src/pages/Orders.jsx:438-445 | the name comes from the catalogue or snapshot; the image always from the snapshot |
| OrdersPage.ImageIgnoresCatalogue | src/pages/Orders.jsx:443-445 | the image does not depend on the catalogue |
| OrdersPage.CardRows | src/pages/Orders.jsx:438 | one row for each of at most two previewed items |
| ReviewBox.SubmitCheck | src/components/Review.jsx:62-73 | refused when signed out, then for a rating outside 1..5, then without a user id |
| ReviewBox.Fetched | src/components/Review.jsx:28-35 | append concatenates after the existing reviews, otherwise replaces them; more pages remain exactly when the page is below the page count |
| ReviewBox.LoadMore | src/components/Review.jsx:105-109 | the page grows by exactly one and the reply is appended |
| ReviewBox.Submitted | src/components/Review.jsx:83-88 | rating 0, empty comment, and the first page reloaded |
| ReviewBox.SubmittedNeedsNewRating | src/components/Review.jsx:66-88 | after a submission, a new one is refused until a rating is chosen |
| ReviewBox.SubmitKeepsPageCounter | src/components/Review.jsx:83-109 | submitting does not reset the page counter, so "load more" then asks for page 3 |
| ReviewBox.LoadPagesAppends | src/components/Review.jsx:105-109 | loading pages one after another builds the list in page order |
| HeroCarousel.Display | src/components/Hero.jsx:66-78 | the fetched images, or the two fallbacks when none; never empty |
| HeroCarousel.ArrowsWithoutImages | src/components/Hero.jsx:161 | with nothing fetched the arrows are shown while autoplay is off |
| HeroCarousel.NextAsWritten | src/components/Hero.jsx:56-58 | NaN when nothing was fetched; in range otherwise |
| HeroCarousel.PreviousAsWritten | src/components/Hero.jsx:50-54 | in range when images were fetched |
| HeroCarousel.Shown | src/components/Hero.jsx:142 | the image at the index when there is one, else the first fallback |
| HeroCarousel.SecondFallbackUnreachable | src/components/Hero.jsx:50-58 | with nothing fetched, one press of either arrow, or "previous" then "next", leaves the first fallback on screen |
| HeroCarousel.PressesStayLow | src/components/Hero.jsx:50-58 | with nothing fetched, every index reached from one at most 0 is NaN or at most 0 |
| HeroCarousel.FallbackAfterAnyPresses | src/components/Hero.jsx:50-58 | with nothing fetched, after any run of arrow presses from the first image the first fallback is on screen and the second never is |
| HeroCarousel.Next | src/components/Hero.jsx:56-58 | corrected: stays within the images on screen |
| HeroCarousel.Previous | src/components/Hero.jsx:50-54 | corrected: stays within the images on screen |
| HeroCarousel.NextPreviousInverse | src/components/Hero.jsx:50-58 | the two arrows undo each other |
| HeroCarousel.IntendedAgreesWhenFetched | src/components/Hero.jsx:50-58 | with images fetched, the corrected steps equal the written ones |
| HeroCarousel.IntendedReachesBothFallbacks | src/components/Hero.jsx:161 | corrected, the arrows reach both fallbacks |
| NewsletterBox.MatchIsNotBlank | src/components/NewsLetterBox.jsx:11 | a pattern match already implies a non-blank address |
| NewsletterBox.BlankIsRefused | src/components/NewsLetterBox.jsx:11 | whitespace-only input is refused |
| NewsletterBox.ShortestAccepted | src/components/NewsLetterBox.jsx:11 | `a@b.c` shapes are accepted |
| NewsletterBox.SurroundingTextAccepted | src/components/NewsLetterBox.jsx:11 | without anchors, text around an address is accepted |
| NewsletterBox.Submit | src/components/NewsLetterBox.jsx:9-17 | accepted addresses clear the field; refused ones keep it |
| ComplainPage.Validate | src/pages/Complain.jsx:15-21 | a field is in error exactly when it is blank after trimming |
| ComplainPage.Submit | src/pages/Complain.jsx:24-43 | an invalid form keeps its text; a valid one opens the mail with subject and message, clears both and ends not submitting |
| ComplainPage.ResubmitAfterSuccessRefused | src/pages/Complain.jsx:24-43 | a cleared form submitted again is refused on both fields |
| ComplainPage.InputChange | src/pages/Complain.jsx:46-51 | "subject" sets the subject, anything else the message; only that field's error is cleared |
| Rider.MakeDate | src/pages/Dashboard.jsx:73-81 | `new Date(year, month, day)` normalises the month into 0..11 and keeps the month index |
| Rider.KeyIsCalendarOrder | src/pages/Dashboard.jsx:268-270 | date order is year, then month, then day |
| Rider.BillingCycle | src/pages/Dashboard.jsx:66-87 | starts on the 21st, ends on the 20th of the following month, and contains today |
| Rider.CycleOfDayInCycle | src/pages/DailyRecords.jsx:39-60 | every day of a cycle has that same cycle |
| Rider.ByDate | src/pages/Dashboard.jsx:268-270 | a permutation of the records in ascending date order |
| Rider.EarningsPoints | src/pages/Dashboard.jsx:277 | one point per record: deliveries times 45 plus tips |
| Rider.IncomeSplits | src/pages/History.jsx:251-258 | delivery income plus tips equals the sum of daily earnings |
| DashboardPage.Change | src/pages/Dashboard.jsx:134-146 | the edited field, whichever it is, takes the value and every other field keeps its own; its error clears; a work status also sets the quality to "Average" for "On" and null otherwise |
| DashboardPage.ChangeLastWins | src/pages/Dashboard.jsx:134-146 | editing a field twice keeps only the last value |
| DashboardPage.Validate | src/pages/Dashboard.jsx:148-174 | a field is in error exactly when its check fails; with a date, any non-empty status other than "On", not only "Off", passes |
| DashboardPage.DayOffChecksDateAndStatus | src/pages/Dashboard.jsx:148-174 | on a day off only the date is checked |
| DashboardPage.TextPassesAmountCheck | src/pages/Dashboard.jsx:154-159 | a non-blank amount holding a letter no JavaScript number contains, such as "hello", passes the amount check; a number input never delivers one, so this takes a value set by a script |
| DashboardPage.ExponentAmounts | src/pages/Dashboard.jsx:154-159 | "-1e3" fails the amount check and "1e3" passes it |
| DashboardPage.Submit | src/pages/Dashboard.jsx:191-198 | amounts are `Number()` of the inputs on a working day and 0 otherwise |
| DashboardPage.BaseSalary | src/pages/Dashboard.jsx:261 | 37000 for a full-timer, 18500 otherwise |
| DashboardPage.PenaltyPerDay | src/pages/Dashboard.jsx:262 | 1170 for a full-timer, 585 otherwise |
| DashboardPage.Deduction | src/pages/Dashboard.jsx:263-266 | never negative; 0 up to four days off; beyond that, 1170 per extra day for a full-timer and 585 otherwise |
| DashboardPage.AdjustedSalary | src/pages/Dashboard.jsx:263-266 | never above the base salary; the base less the deduction |
| DashboardPage.SalaryNonIncreasing | src/pages/Dashboard.jsx:263-266 | more days off never raise the salary |
| DashboardPage.SalaryHasNoFloor | src/pages/Dashboard.jsx:263-266 | enough days off bring the salary below any amount, zero included |
| DashboardPage.FlipFilter | src/pages/Dashboard.jsx:246-251 | exactly the named filter flips |
| DashboardPage.ResetFilters | src/pages/Dashboard.jsx:253-259 | every slice shown again |
| DashboardPage.PieData | src/pages/Dashboard.jsx:314-324 | with the salary slice on, the slices are the adjusted salary and the deduction, (days off - 4) times the rate beyond four days and 0 otherwise, adding up to the base salary; deliveries at 45 each and tips; each slice 0 when its filter is off |
| DashboardPage.EarningsSeries | src/pages/Dashboard.jsx:268-277 | one earnings point per record in ascending date order |
| DashboardPage.SeriesTotal | src/pages/Dashboard.jsx:268-277 | the series adds up to delivery income plus tips |
| DailyRecordsPage.Displayed | src/pages/DailyRecords.jsx:124-137 | an order-preserving subsequence: the days off, all records, or those of the chosen qualities |
| DailyRecordsPage.ToggleFilter | src/pages/DailyRecords.jsx:139-146 | no change while days off are shown; otherwise the quality's membership flips and no other changes |
| DailyRecordsPage.ToggleTwice | src/pages/DailyRecords.jsx:139-146 | toggling twice restores membership |
| DailyRecordsPage.ToggleDaysOff | src/pages/DailyRecords.jsx:153-156 | flips the flag and empties the quality filters |
| DailyRecordsPage.ResetFilters | src/pages/DailyRecords.jsx:148-151 | clears both |
| DailyRecordsPage.ResetShowsAll | src/pages/DailyRecords.jsx:124-151 | after a reset every record is shown |
| DailyRecordsPage.QualityOrAverage | src/pages/DailyRecords.jsx:165 | a missing quality reads "Average" |
| DailyRecordsPage.Open | src/pages/DailyRecords.jsx:158-182 | the record's fields with a default quality; view is not editing, edit is; no errors |
| DailyRecordsPage.ViewAndEditDifferOnlyInEditing | src/pages/DailyRecords.jsx:158-182 | view and edit differ only in the editing flag |
| DailyRecordsPage.Close | src/pages/DailyRecords.jsx:206-210 | nothing selected, not editing, no errors |
| DailyRecordsPage.InputChange | src/pages/DailyRecords.jsx:216-228 | amounts store `Number(value)` with NaN as 0; status and quality verbatim; only that field's error clears |
| DailyRecordsPage.TextBecomesZero | src/pages/DailyRecords.jsx:225 | an amount holding a letter no JavaScript number contains is stored as 0 |
| DailyRecordsPage.ExponentStored | src/pages/DailyRecords.jsx:225 | the amount "1e3" is stored as 1000 |
| DailyRecordsPage.Validate | src/pages/DailyRecords.jsx:230-257 | a field is in error exactly when its check fails; a passing form has status "On" or "Off", and "Off" always passes |
| DailyRecordsPage.MakeUpdate | src/pages/DailyRecords.jsx:268-276 | a day off sends zeros and no quality; otherwise the form's values |
| DailyRecordsPage.Submit | src/pages/DailyRecords.jsx:259-276 | an invalid form sends nothing and records its errors; otherwise the update |
| DailyRecordsPage.AcceptedUpdateIsWellFormed | src/pages/DailyRecords.jsx:259-276 | an accepted update is a day off with zeros or a working day with non-negative amounts and a known quality |
| HistoryPage.ValidateDates | src/pages/History.jsx:86-111 | a missing date is required; with a known creation date, a later failing check replaces an earlier message |
| HistoryPage.ValidateDatesIff | src/pages/History.jsx:86-111 | passes exactly when both dates are given and, with a known creation date, both are real dates with creation <= start <= end <= today |
| HistoryPage.WorkingDays | src/pages/History.jsx:177-187 | empty without both dates; otherwise exactly the "On" records, in ascending date order |
| HistoryPage.EveryWorkingDayPlotted | src/pages/History.jsx:177-187 | every "On" record is a working day once dates are chosen |
| HistoryPage.EarningsLine | src/pages/History.jsx:202-204 | one point per working day, its deliveries at 45 each plus its tips, or a single 0 when there are none |
| HistoryPage.FlipFilter | src/pages/History.jsx:169-171 | exactly the named filter flips |
| HistoryPage.ResetFilters | src/pages/History.jsx:173-175 | both filters on |
| HistoryPage.PieData | src/pages/History.jsx:245-260 | 0 and 0 without working days; each slice 0 when its filter is off, otherwise the delivery income or the tips of the working days |
| HistoryPage.PieMatchesLine | src/pages/History.jsx:245-260 | with both slices on, the pie adds up to the earnings line |
| JsText.Trim | src/components/NewsLetterBox.jsx:11 | `trim()`: no surrounding whitespace, the inner text kept, and only whitespace removed on either side |
| JsNumber.ToNumber | src/pages/DailyRecords.jsx:225 | `Number(v)` on decimal literals with an optional sign and exponent: 0 for a blank string; a run of digits, signed or not, is its value; only a literal with a leading minus is negative |
| JsNumber.DecimalValue | src/pages/DailyRecords.jsx:225 | a literal `w.f` reads as w + f / 10^\|f\| |
| JsNumber.ExponentValue | src/pages/DailyRecords.jsx:225 | digits w, then `e`, then digits x, read as w times 10 to the x |
| JsNumber.NegativeExponentValue | src/pages/DailyRecords.jsx:225 | a minus, digits w, `e`, digits x read as minus w times 10 to the x |
| JsNumber.OneEThree | src/pages/DailyRecords.jsx:225 | "1e3" reads as 1000 |
| JsNumber.MinusOneEThree | src/pages/DailyRecords.jsx:225 | "-1e3" reads as -1000 |
| JsNumber.LetterIsNaN | src/pages/DailyRecords.jsx:225 | a string holding a letter no JavaScript numeric string contains (not a hexadecimal digit, not the x or o of a radix prefix, not a letter of `Infinity`) is NaN |
| JsNumber.NumberOrZero | src/pages/DailyRecords.jsx:225 | `Number(v) \|\| 0`: 0 for a blank string and for one holding such a letter; a run of digits is its value |

## Left out

- Network and async: `apiRequest`/axios calls, fetch effects, `Promise.all`, the Google sign-in redirect and cart sync, and the History 401 retry with back-off. Server replies are parameters.
- Browser storage: localStorage persistence and the deferred writes in `ShopContext`. The guest cart and wishlist are in-memory sequences. `logout` also clears a sessionStorage flag that the model does not include.
- React aliasing and stale state: `ShopContext` mutates a line object shared with the rollback copy (src/context/ShopContext.jsx:140-141), and `PlaceOrder` reads stale `errors` (src/pages/PlaceOrder.jsx:227). Immutable values cannot reproduce either.
- Floats and formatting: amounts are exact `real`s. `toFixed`, `Math.round`, percentages and Chart.js options are not modelled.
- Time zones: `setUTCHours` on local dates is not modelled. Dates are (year, month, day) triples.
- Date-string parsing: the History inputs arrive already classified as empty, unparsable or a date.
- Third-party behaviour: `validator.isEmail`, `isMobilePhone`, `isLength` and `matches`, image compression, FileReader, and the `encodeURIComponent` mail links. The validators are opaque parameters. The compressed size is an input.
- JsNumber.ToNumber: reads optionally signed decimal literals with an optional exponent. Hexadecimal, binary, octal and `Infinity` forms are read as NaN; a number input never delivers them, since the browser sanitises its value to a floating-point literal. A huge exponent gives a finite real here where JavaScript gives `Infinity`.
- JsText.ToLower: case mapping is ASCII-only.
- OrderInfo.StatusLabel: built on the ASCII-only `JsText.ToUpper`, so a non-ASCII letter in a status is left as it is, where `toUpperCase()` (src/pages/Account.jsx:1198) would map it; "ß" even becomes "SS" there, so the equal-length promise holds only for the ASCII mapping. `Capitalize` in the subcategory normaliser is unaffected: `/\b\w/g` has no `u` flag and matches ASCII word characters only.
- Lengths: `|s|` counts code points, while JavaScript's `.length` counts UTF-16 code units. A character outside the Basic Multilingual Plane counts 2 in the source and 1 here. This shifts the 20 and 50 caps of `LoginPage.InputChange`, the 50 cap of the reset-password fields, and the at-least-8 checks of the register page's strength rule and of the profile and account password changes: `"😀😀😀a1"` is 5 long here and 8 long in the browser.
- Collections.Arrange: a product's `date` is a whole number here. In the source a missing or unparsable date makes `new Date(..)` NaN (src/pages/Collections.jsx:202), the comparator returns NaN, and the sort treats the pair as equal, so "newest" is then not the date order stated here.
- Collections.CleanSubCategory: a subcategory is a string or missing. A non-string value, on which `sub.trim()` throws (src/pages/Collections.jsx:73), cannot be expressed.
- Presentation-only files (navigation bar, search bar, footer, static pages, routing) and the image-compression script `compress_images.py` are not part of this model.
- The `item.quantity || 0` default of the cart count: a cart line always carries a quantity here.
- An invalid `account_created_at` in History: a creation date is either known or absent.
- The Dashboard sign-in guard before submitting, and the empty-summary case of its pie beyond `summary` being absent.
- Module linking: src/context/AppContext.jsx:7 exports only `AppContext`, while eleven files import `AppContent` from it: src/App.jsx:3, src/pages/Login.jsx:4, src/pages/EmailVerify.jsx:5, src/pages/ResetPassword.jsx:5, src/pages/ManageAccount.jsx:3, src/pages/Complain.jsx:3, src/pages/Dashboard.jsx:3, src/pages/DailyRecords.jsx:3, src/pages/History.jsx:3, src/components/Header.jsx:3 and src/components/ThemeToggle.jsx:2. As given, the app, rooted at src/App.jsx, cannot link. Every handler here is modelled as if the import resolved to the context.
- CartPage.ImageUrlAsWritten: states only the case where it differs from the intended lookup. CartPage.ImageUrlExtends covers the rest.
- ProductCard.ShowsOriginalPrice: the converse is stated only for a non-negative price.
- OrderInfo.Description: states only which text the unknown statuses get. The wording of each known status is not restated.
- OrderInfo.BadgeClasses: states the shape of the classes and the gray default, not each status's colour.
- Checkout.ProofRefusal: states only the type message, not the size message.
- AccountPage.CaptionAlwaysUnknown: shown for the "tcs" method, the one the dialog links to first. AccountPage.CaptionAsWritten covers every order.
- HistoryPage.ValidateDates: states the required, future and before-start messages individually. Which message wins when several later checks fail follows the order of the source.
- Review does not reset its page counter after a submission. ReviewBox.SubmitKeepsPageCounter records this; it is not corrected.
- The Orders page reads the image from `item.product` even when the catalogue product is found, and throws for an item that has no snapshot. OrdersPage.ItemRow records this.

## Findings

| source | as written | input that shows it | evidently intended | confidence | as-written member | corrected member |
|---|---|---|---|---|---|---|
| src/pages/Collections.jsx:198-200 | the "price-high" comparator is `b.price - b.price`, always 0 | two products priced 5 and 10, in that order, stay 5 then 10 | `b.price - a.price`, descending price | not executed | Collections.PriceHighCounterexample | Collections.ArrangeIntended |
| src/context/AppContext.jsx:38 | prefixes the default base `/api` to callers' `/api/...` paths | `/api/auth/login` is sent to `/api/api/auth/login` | one `/api` prefix | not executed; holds when `VITE_API_URL` is unset | AppContext.DoubledApiPrefixAlways | AppContext.RequestUrlSinglePrefix |
| src/pages/Cart.jsx:96 | the line-image branch tests `typeof image`, a name out of scope there | a line with image `cover.jpg` whose product has no image shows the placeholder | test `typeof item.image` | not executed | CartPage.LineImageIgnored | CartPage.ImageUrl |
| src/pages/GuestCheckout.jsx:145 | calls `setCartItems`, which the page never takes from the context (line 15) | any successful guest order; the error is caught and the in-memory cart survives | clear the in-memory cart too | not executed | GuestCheckoutPage.CartSurvivesGuestOrder | GuestCheckoutPage.AfterOrder |
| src/components/Hero.jsx:57 | the steps use the number fetched, while the arrows show for the two fallbacks (line 161) | nothing fetched: "next" gives NaN and "previous" gives -1, and no run of presses ever shows the second fallback | step over the images on screen | not executed | HeroCarousel.FallbackAfterAnyPresses | HeroCarousel.NextPreviousInverse |
| src/pages/Account.jsx:1661 | the caption reads `clearpingMethod`, a field no order has | a "tcs" order with a tracking id: link to TCS, caption "Unknown" | `shippingMethod` | not executed | AccountPage.CaptionAlwaysUnknown | AccountPage.Caption |

=== FILE: account.dfy ===
/** The account page (`Account`): the password-change and delete-account
    guards, the profile edits, the profile-picture gate, the tracking
    dialog's caption and the order card rows. The status and courier lookups
    are those of `OrderInfo`. */
module AccountPage {
  import opened Wrappers
  import opened Catalogue
  import opened OrderInfo
  import Checkout
  import OrdersPage

  /** `handlePasswordChange`: a mismatch is reported before a short
      password. */
  function PasswordChange(newPassword: string, confirm: string): (r: Verdict)
    ensures r == Proceed <==> newPassword == confirm && |newPassword| >= 8
    ensures newPassword != confirm ==> r == Refuse("Passwords don't match!")
    ensures newPassword == confirm && |newPassword| < 8 ==> r == Refuse("Password must be at least 8 characters long")
  {
    if newPassword != confirm then Refuse("Passwords don't match!")
    else if |newPassword| < 8 then Refuse("Password must be at least 8 characters long")
    else Proceed
  }

  /** `handleAccountDelete`: a password must be given and the confirmation
      must read exactly "DELETE". */
  function AccountDelete(password: string, confirmText: string): (r: Verdict)
    ensures r == Proceed <==> password != "" && confirmText == "DELETE"
    ensures password == "" ==> r == Refuse("Please enter your password")
  {
    if password == "" then Refuse("Please enter your password")
    else if confirmText != "DELETE" then Refuse("Please type \"DELETE\" to confirm account deletion")
    else Proceed
  }

  datatype Profile = Profile(name: string, lastName: string, email: string, mobileNumber: string)

  datatype ProfileField = Name | LastName | Email | MobileNumber

  function Get(p: Profile, k: ProfileField): string {
    match k
    case Name => p.name
    case LastName => p.lastName
    case Email => p.email
    case MobileNumber => p.mobileNumber
  }

  /** `handleProfileChange`: edits to the email are ignored, any other field
      takes the new value. */
  function ProfileChange(p: Profile, k: ProfileField, value: string): (r: Profile)
    ensures r.email == p.email
    ensures k != Email ==> Get(r, k) == value
    ensures forall j :: j != k ==> Get(r, j) == Get(p, j)
  {
    match k
    case Name => p.(name := value)
    case LastName => p.(lastName := value)
    case Email => p
    case MobileNumber => p.(mobileNumber := value)
  }

  /** The profile picture types the page accepts. */
  const PictureTypes: set<string> := {"image/jpeg", "image/jpg", "image/png", "image/webp"}

  /** `handleProfilePictureChange`: a file over 250 KiB or of another type
      leaves the selection as it was. */
  function PictureChange(current: Option<Checkout.FileInfo>, picked: Option<Checkout.FileInfo>): (r: Option<Checkout.FileInfo>)
    ensures picked.Some? && picked.value.size <= Checkout.MaxProofBytes && picked.value.mimeType in PictureTypes
            ==> r == picked
    ensures !(picked.Some? && picked.value.size <= Checkout.MaxProofBytes && picked.value.mimeType in PictureTypes)
            ==> r == current
  {
    match picked
    case None => current
    case Some(f) =>
      if f.size > Checkout.MaxProofBytes then current
      else if f.mimeType !in PictureTypes then current
      else picked
  }

  /** A selected picture always passed the gate, if the first one did. */
  lemma {:induction false} SelectedPictureAllowed(current: Option<Checkout.FileInfo>, picks: seq<Option<Checkout.FileInfo>>)
    requires current.Some? ==> current.value.mimeType in PictureTypes && current.value.size <= Checkout.MaxProofBytes
    ensures var r := Pictures(current, picks);
      r.Some? ==> r.value.mimeType in PictureTypes && r.value.size <= Checkout.MaxProofBytes
    decreases |picks|
  {
    if picks != [] {
      SelectedPictureAllowed(PictureChange(current, picks[0]), picks[1..]);
    }
  }

  function Pictures(current: Option<Checkout.FileInfo>, picks: seq<Option<Checkout.FileInfo>>): Option<Checkout.FileInfo>
    decreases |picks|
  {
    if picks == [] then current else Pictures(PictureChange(current, picks[0]), picks[1..])
  }

  /** The caption of the tracking dialog's link, as written: it looks the
      courier up by `clearpingMethod`, a field orders do not have, so the
      lookup always takes its `default` branch. */
  function CaptionAsWritten(o: Order): (name: string)
    ensures name == ShipmentInfo(None).name
  {
    ShipmentInfo(None).name
  }

  /** Even for a known courier, whose link the dialog does show, the caption
      reads "Unknown". */
  lemma CaptionAlwaysUnknown(o: Order)
    requires o.shippingMethod == "tcs"
    ensures ShipmentInfo(Some(o.shippingMethod)).link != ""
    ensures CaptionAsWritten(o) == "Unknown"
    ensures ShipmentInfo(Some(o.shippingMethod)).name == "TCS"
  {
  }

  /** The caption as intended: the name of the courier whose link is
      shown. */
  function Caption(o: Order): (name: string)
    ensures name == ShipmentInfo(Some(o.shippingMethod)).name
    ensures name == "Unknown" <==> MethodOf(o.shippingMethod).None?
  {
    ShipmentInfo(Some(o.shippingMethod)).name
  }

  /** `PLACEHOLDER_IMAGE`: an inline SVG picture frame. */
  const Placeholder: string := "data:image/svg+xml,%3Csvg xmlns='http://www.w3.org/2000/svg' viewBox='0 0 24 24' fill='none' stroke='%23A1A1AA' stroke-width='2' stroke-linecap='round' stroke-linejoin='round'%3E%3Crect x='3' y='3' width='18' height='18' rx='2' ry='2'/%3E%3Ccircle cx='8.5' cy='8.5' r='1.5'/%3E%3Cpolyline points='21 15 16 10 5 21'/%3E%3C/svg%3E"

  /** An order card row: the catalogue product, else the item's snapshot,
      gives both the name and the image. */
  datatype Row = Skipped | Drawn(name: string, image: Option<string>)

  function ItemRow(products: seq<Product>, item: OrderItem): (r: Row)
    ensures r.Skipped? <==> !HasId(products, item.productId) && item.product.None?
    ensures HasId(products, item.productId) ==> r == Drawn(Find(products, item.productId).value.name,
                                                          ImageSrc(Find(products, item.productId).value.image, Placeholder))
    ensures !HasId(products, item.productId) && item.product.Some? ==>
      r == Drawn(item.product.value.name, ImageSrc(item.product.value.image, Placeholder))
  {
    match Find(products, item.productId)
    case Some(p) => Drawn(p.name, ImageSrc(p.image, Placeholder))
    case None =>
      match item.product
      case Some(ip) => Drawn(ip.name, ImageSrc(ip.image, Placeholder))
      case None => Skipped
  }

  /** For an item whose product has left the catalogue, the account page and
      the orders page draw the same name from the item's snapshot. */
  lemma PagesAgreeOnSnapshotName(products: seq<Product>, item: OrderItem)
    requires !HasId(products, item.productId) && item.product.Some?
    ensures ItemRow(products, item).Drawn? && OrdersPage.ItemRow(products, item).Drawn?
    ensures ItemRow(products, item).name == OrdersPage.ItemRow(products, item).name
  {
  }
}

=== FILE: app_context.dfy ===
/** The application context (`AppContext`): how `apiRequest` composes request
    URLs, the local checks each authentication call makes before it reaches
    the server, and what `logout` clears. */
module AppContext {
  import opened Wrappers
  import opened JsText
  import opened Validators
  import opened FormRules

  // ---------------------------------------------------------------------
  // Request URLs

  /** `import.meta.env.VITE_API_URL || "/api"` when no variable is set. */
  const DefaultApiUrl: string := "/api"

  /** The URL `apiRequest` hands to the HTTP client, as written: absolute
      URLs pass through, anything else is prefixed with the API base. */
  function RequestUrlAsWritten(apiUrl: string, url: string): (r: string)
    ensures StartsWith(url, "http") ==> r == url
    ensures !StartsWith(url, "http") ==> StartsWith(r, apiUrl) && r[|apiUrl|..] == url
  {
    if StartsWith(url, "http") then url else apiUrl + url
  }

  /** The callers already write paths as "/api/auth/...", so with the default
      base the prefix appears twice. */
  lemma DoubledApiPrefix()
    ensures RequestUrlAsWritten(DefaultApiUrl, "/api/auth/login") == "/api/api/auth/login"
  {
    var url := "/api/auth/login";
    assert !StartsWith(url, "http") by { assert url[0] == '/'; }
  }

  /** More generally: with the default base, every "/api/..." path the callers
      use is sent with a doubled prefix. */
  lemma {:induction false} DoubledApiPrefixAlways(url: string)
    requires StartsWith(url, "/api/")
    ensures StartsWith(RequestUrlAsWritten(DefaultApiUrl, url), "/api/api/")
  {
    var r := RequestUrlAsWritten(DefaultApiUrl, url);
    assert !StartsWith(url, "http") by { assert url[0] == '/'; }
    assert r == "/api" + url;
    assert r[..9] == "/api" + url[..5];
  }

  /** The composition as evidently intended: a path that already carries the
      base is not prefixed again. */
  function RequestUrl(apiUrl: string, url: string): (r: string)
    ensures StartsWith(url, "http") ==> r == url
    ensures !StartsWith(url, "http") && !StartsWith(url, apiUrl + "/") ==> r == apiUrl + url
    ensures StartsWith(url, apiUrl + "/") ==> r == url
  {
    if StartsWith(url, "http") || StartsWith(url, apiUrl + "/") then url else apiUrl + url
  }

  /** With the default base, a relative path is sent under "/api/" exactly
      once, whether or not the caller wrote the prefix. */
  lemma {:induction false} RequestUrlSinglePrefix(url: string)
    requires StartsWith(url, "/") && !StartsWith(url, "/api/api/")
    ensures StartsWith(RequestUrl(DefaultApiUrl, url), "/api/")
    ensures !StartsWith(RequestUrl(DefaultApiUrl, url), "/api/api/")
  {
    var r := RequestUrl(DefaultApiUrl, url);
    assert !StartsWith(url, "http") by { assert url[0] == '/'; }
    if !StartsWith(url, "/api/") {
      assert r == "/api" + url;
      assert r[..5] == "/api" + url[..1];
      if |url| >= 5 {
        assert r[..9][4..] == url[..5] != "/api/";
        assert r[..9] != "/api/api/" by {
          assert "/api/api/"[4..] == "/api/";
        }
      }
    }
  }

  // ---------------------------------------------------------------------
  // Local checks before a request

  /** The four fields `register` requires are all given. */
  predicate Present(name: string, email: string, password: string, confirm: string) {
    name != "" && email != "" && password != "" && confirm != ""
  }

  /** `register(userData)` up to the request. Missing fields are "". */
  function RegisterCheck(v: Validators, name: string, lastName: string, email: string,
                         password: string, confirm: string): (r: Verdict)
    ensures r == Proceed <==>
      && name != "" && email != "" && password != "" && confirm != ""
      && v.isEmail(email) && PasswordFormat(password) && password == confirm
      && |name| <= 20 && |lastName| <= 20
    ensures name == "" || email == "" || password == "" || confirm == "" ==>
      r == Refuse("Name, email, password, and confirm password are required")
    ensures name != "" && email != "" && password != "" && confirm != "" && !v.isEmail(email) ==>
      r == Refuse("Invalid email format")
    ensures Present(name, email, password, confirm) && v.isEmail(email) && !PasswordFormat(password) ==>
      r == Refuse("Invalid password format")
    ensures (Present(name, email, password, confirm) && v.isEmail(email) && PasswordFormat(password)
      && password != confirm) ==> r == Refuse("Passwords do not match")
    ensures (Present(name, email, password, confirm) && v.isEmail(email) && PasswordFormat(password)
      && password == confirm && |name| > 20) ==> r == Refuse("Name must not exceed 20 characters")
    ensures (Present(name, email, password, confirm) && v.isEmail(email) && PasswordFormat(password)
      && password == confirm && |name| <= 20 && lastName != "" && |lastName| > 20) ==>
      r == Refuse("Last name must not exceed 20 characters")
  {
    if name == "" || email == "" || password == "" || confirm == "" then
      Refuse("Name, email, password, and confirm password are required")
    else if !v.isEmail(email) then Refuse("Invalid email format")
    else if |password| < 8 || !PasswordRule(password) then Refuse("Invalid password format")
    else if password != confirm then Refuse("Passwords do not match")
    else if |name| > 20 then Refuse("Name must not exceed 20 characters")
    else if lastName != "" && |lastName| > 20 then Refuse("Last name must not exceed 20 characters")
    else Proceed
  }

  /** The shared check of `login` and `deleteAccount`: both fields present,
      then the email format. */
  function CredentialsCheck(v: Validators, email: string, password: string): (r: Verdict)
    ensures r == Proceed <==> email != "" && password != "" && v.isEmail(email)
    ensures email == "" || password == "" ==> r == Refuse("Email and password are required")
  {
    if email == "" || password == "" then Refuse("Email and password are required")
    else if !v.isEmail(email) then Refuse("Invalid email format")
    else Proceed
  }

  /** `verifyEmail(otp)`: only six ASCII digits reach the server. */
  function VerifyEmailCheck(otp: string): (r: Verdict)
    ensures r == Proceed <==> SixDigits(otp)
    ensures r != Proceed ==> r == Refuse("Invalid OTP format")
  {
    if otp == "" || !SixDigits(otp) then Refuse("Invalid OTP format") else Proceed
  }

  /** `resetPassword(email, otp, newPassword, confirmPassword)` up to the request. */
  function ResetPasswordCheck(v: Validators, email: string, otp: string,
                              newPassword: string, confirm: string): (r: Verdict)
    ensures r == Proceed <==>
      && email != "" && otp != "" && newPassword != "" && confirm != ""
      && v.isEmail(email) && SixDigits(otp) && PasswordFormat(newPassword) && newPassword == confirm
    ensures email == "" || otp == "" || newPassword == "" || confirm == "" ==>
      r == Refuse("All fields are required")
  {
    if email == "" || otp == "" || newPassword == "" || confirm == "" then Refuse("All fields are required")
    else if !v.isEmail(email) then Refuse("Invalid email format")
    else if !SixDigits(otp) then Refuse("Invalid OTP format")
    else if |newPassword| < 8 || !PasswordRule(newPassword) then Refuse("Invalid password format")
    else if newPassword != confirm then Refuse("Passwords do not match")
    else Proceed
  }

  /** Registration and reset enforce one password format: a password
      accepted at registration is accepted by a reset with a well-formed
      code, and one a reset accepts is accepted at registration. */
  lemma RegisterAndResetAgree(v: Validators, name: string, email: string, otp: string,
                              password: string)
    requires name != "" && |name| <= 20 && v.isEmail(email) && SixDigits(otp)
    ensures RegisterCheck(v, name, "", email, password, password) == Proceed
        <==> ResetPasswordCheck(v, email, otp, password, password) == Proceed
  {
  }

  /** `sendVerifyOtp(userId)`: an empty id is refused. */
  function SendVerifyOtpCheck(userId: string): (r: Verdict)
    ensures r == Proceed <==> userId != ""
    ensures r != Proceed ==> r == Refuse("User ID is required")
  {
    if userId == "" then Refuse("User ID is required") else Proceed
  }

  /** `uploadPaymentProof(orderId, file)`: both must be present. */
  function UploadPaymentProofCheck(orderId: string, hasFile: bool): (r: Verdict)
    ensures r == Proceed <==> orderId != "" && hasFile
    ensures r != Proceed ==> r == Refuse("Order ID and proof file are required")
  {
    if orderId == "" || !hasFile then Refuse("Order ID and proof file are required") else Proceed
  }

  /** An accepted password never has surrounding whitespace, so no later
      trimming changes it. */
  lemma AcceptedPasswordIsTrimmed(v: Validators, name: string, lastName: string, email: string,
                                  password: string, confirm: string)
    requires RegisterCheck(v, name, lastName, email, password, confirm) == Proceed
    ensures Trim(password) == password && |password| >= 8
  {
    PasswordRuleHasNoSpace(password);
  }

  // ---------------------------------------------------------------------
  // Session

  /** The keys the session keeps in the browser's storage. */
  const SessionKeys: set<string> := {"user", "localCart", "localWishlist"}

  /** The signed-in user (reduced to an id) and the browser's storage. */
  datatype Session = Session(user: Option<string>, storage: map<string, string>)

  /** `logout()` before its request: the user and the three session keys are
      cleared whatever the server then answers; every other key stays. */
  function Logout(s: Session): (r: Session)
    ensures r.user.None?
    ensures forall k :: k in SessionKeys ==> k !in r.storage
    ensures forall k :: k !in SessionKeys ==> (k in r.storage <==> k in s.storage)
    ensures forall k :: k in r.storage ==> r.storage[k] == s.storage[k]
  {
    Session(None, s.storage - SessionKeys)
  }

  /** Logging out twice is logging out once. */
  lemma LogoutIdempotent(s: Session)
    ensures Logout(Logout(s)) == Logout(s)
  {
    assert (s.storage - SessionKeys) - SessionKeys == s.storage - SessionKeys;
  }
}

=== FILE: cart_page.dfy ===
/** The cart page (`Cart`): the join of cart lines with the catalogue, the
    image each line shows, the subtotal and shipping it displays, the
    quantity buttons, and the "You might also like" strip. */
module CartPage {
  import opened Wrappers
  import opened JsText
  import opened Catalogue
  import Seqs
  import Shop

  /** The product fields a joined line shows. */
  datatype Shown = Shown(name: string, image: Image, price: Option<real>,
                         originalPrice: Option<real>, category: string)

  /** A cart line with the product it shows. */
  datatype Entry = Entry(line: Shop.Line, product: Shown)

  /** `Array.isArray(image) ? image[0] : image`; the first element of an
      empty array is `undefined`. */
  function FirstImage(img: Image): (r: Image)
    ensures !r.Urls?
  {
    match img
    case Urls(u) => if |u| > 0 then Url(u[0]) else NoImage
    case _ => img
  }

  /** What a line shows: the catalogue product when it is still listed (its
      image reduced to the first), else the line's own snapshot with the
      category defaulting to "N/A". */
  function Join(products: seq<Product>, l: Shop.Line): (e: Entry)
    ensures e.line == l
    ensures HasId(products, l.productId) ==>
      var p := Find(products, l.productId).value;
      e.product == Shown(p.name, FirstImage(p.image), Some(p.price), p.originalPrice, p.category)
    ensures !HasId(products, l.productId) ==>
      e.product.name == l.name && e.product.image == l.image && e.product.price == l.price
      && e.product.originalPrice == l.originalPrice
      && e.product.category == (if l.category.Some? && l.category.value != "" then l.category.value else "N/A")
  {
    match Find(products, l.productId)
    case Some(p) => Entry(l, Shown(p.name, FirstImage(p.image), Some(p.price), p.originalPrice, p.category))
    case None =>
      Entry(l, Shown(l.name, l.image, l.price, l.originalPrice,
                     if l.category.Some? && l.category.value != "" then l.category.value else "N/A"))
  }

  /** `cartData`: one entry per line, in cart order. */
  function CartData(products: seq<Product>, cart: seq<Shop.Line>): (r: seq<Entry>)
    ensures |r| == |cart|
    ensures forall i :: 0 <= i < |cart| ==> r[i] == Join(products, cart[i])
  {
    seq(|cart|, i requires 0 <= i < |cart| => Join(products, cart[i]))
  }

  /** The lines can be read back from the joined entries. */
  lemma CartDataKeepsLines(products: seq<Product>, cart: seq<Shop.Line>)
    ensures var d := CartData(products, cart);
      seq(|d|, i requires 0 <= i < |d| => d[i].line) == cart
  {
  }

  // ---------------------------------------------------------------------
  // Images

  const Placeholder: string := "https://placehold.co/300x300?text=Book+Image"

  /** A JavaScript-truthy image value: a non-empty string or any array. */
  predicate Truthy(img: Image) {
    match img
    case NoImage => false
    case Url(s) => s != ""
    case Urls(_) => true
  }

  /** A string image that is not blank. */
  predicate Usable(img: Image) {
    img.Url? && !Blank(img.url)
  }

  /** `getImageUrl(item)` as written. Its second block tests `typeof image`,
      a name only declared inside the first block, so a string image on the
      line itself is never returned. */
  function ImageUrlAsWritten(e: Entry): (r: string)
    ensures !Truthy(e.product.image) && e.line.image.Url? ==> r == Placeholder
  {
    var p := e.product.image;
    if Truthy(p) && p.Urls? && |p.urls| > 0 then p.urls[0]
    else if Truthy(p) && p.Url? && !Blank(p.url) then p.url
    else if Truthy(e.line.image) && e.line.image.Urls? && |e.line.image.urls| > 0 then e.line.image.urls[0]
    else Placeholder
  }

  /** `getImageUrl(item)` as evidently intended: the second block tests the
      line's own image. */
  function ImageUrl(e: Entry): (r: string)
    ensures Usable(e.product.image) ==> r == e.product.image.url
    ensures !Truthy(e.product.image) && Usable(e.line.image) ==> r == e.line.image.url
    ensures !Truthy(e.product.image) && !Truthy(e.line.image) ==> r == Placeholder
  {
    var p := e.product.image;
    var l := e.line.image;
    if Truthy(p) && p.Urls? && |p.urls| > 0 then p.urls[0]
    else if Truthy(p) && p.Url? && !Blank(p.url) then p.url
    else if Truthy(l) && l.Urls? && |l.urls| > 0 then l.urls[0]
    else if Truthy(l) && l.Url? && !Blank(l.url) then l.url
    else Placeholder
  }

  /** A listed product without an image whose cart line kept a string image:
      the written lookup shows the placeholder, the intended one the line's
      image. */
  lemma LineImageIgnored(e: Entry)
    requires e.product.image == NoImage
    requires e.line.image == Url("cover.jpg")
    ensures ImageUrlAsWritten(e) == Placeholder
    ensures ImageUrl(e) == "cover.jpg"
  {
    assert !IsSpace("cover.jpg"[0]);
  }

  /** The two lookups differ only in that case: whenever the written one
      finds an image, the intended one finds the same. */
  lemma ImageUrlExtends(e: Entry)
    requires ImageUrlAsWritten(e) != Placeholder
    ensures ImageUrl(e) == ImageUrlAsWritten(e)
  {
  }

  // ---------------------------------------------------------------------
  // Amounts

  /** `item.product?.price || item.price || 0`: a zero or missing price
      falls through to the next. */
  function EntryPrice(e: Entry): real {
    if e.product.price.Some? && e.product.price.value != 0.0 then e.product.price.value
    else if e.line.price.Some? && e.line.price.value != 0.0 then e.line.price.value
    else 0.0
  }

  function EntryAmounts(d: seq<Entry>): (a: seq<real>)
    ensures |a| == |d| && forall i :: 0 <= i < |d| ==> a[i] == EntryPrice(d[i]) * d[i].line.quantity as real
  {
    seq(|d|, i requires 0 <= i < |d| => EntryPrice(d[i]) * d[i].line.quantity as real)
  }

  /** `calculateSubtotal()` before formatting. */
  function CalculateSubtotal(d: seq<Entry>): real {
    Seqs.SumReal(EntryAmounts(d))
  }

  /** The page subtotal agrees with the store's subtotal line by line as long
      as no listed product is priced at zero (for such a product the page
      falls back to the line's stored price and the store does not). */
  lemma SubtotalAgreesWithStore(products: seq<Product>, cart: seq<Shop.Line>)
    requires forall p :: p in products ==> p.price != 0.0
    ensures CalculateSubtotal(CartData(products, cart)) == Shop.Subtotal(products, cart)
  {
    var d := CartData(products, cart);
    forall i | 0 <= i < |cart| ensures EntryAmounts(d)[i] == Shop.LineAmounts(products, cart)[i] {
      if HasId(products, cart[i].productId) {
        assert Find(products, cart[i].productId).value in products;
      }
    }
    assert EntryAmounts(d) == Shop.LineAmounts(products, cart);
  }

  /** The shipping row: the fee for a non-empty cart, zero for an empty one. */
  function ShippingShown(d: seq<Entry>): (r: real)
    ensures d == [] ==> r == 0.0
    ensures d != [] ==> r == Shop.ShippingFee
  {
    if |d| > 0 then Shop.ShippingFee else 0.0
  }

  /** The summary with the shipping and total rows is the other branch of
      `!loading && cartData.length === 0`: it is drawn while the cart loads,
      and afterwards only for a non-empty cart. */
  predicate SummaryShown(loading: bool, d: seq<Entry>) {
    loading || |d| > 0
  }

  /** An empty cart shows both rows only while it is loading, and then they
      disagree: shipping reads zero while the total, taken from the store,
      still includes the fee. Once loaded, an empty cart shows the empty
      message instead. */
  lemma EmptyCartRows(products: seq<Product>)
    ensures SummaryShown(true, CartData(products, []))
    ensures !SummaryShown(false, CartData(products, []))
    ensures ShippingShown(CartData(products, [])) == 0.0
    ensures Shop.CartTotal(products, []) == Shop.ShippingFee
  {
  }

  // ---------------------------------------------------------------------
  // Quantity buttons

  /** `handleQuantityChange(productId, format, newQuantity)`: a quantity
      outside 1..10 is refused without touching the cart; any other is passed
      to the store's update. */
  function QuantityChange(cart: seq<Shop.Line>, id: string, format: Option<string>, n: int)
    : (r: (Verdict, seq<Shop.Line>))
    ensures n < 1 ==> r == (Refuse("Quantity cannot be less than 1"), cart)
    ensures n > 10 ==> r == (Refuse("Maximum quantity is 10"), cart)
    ensures 1 <= n <= 10 ==> r == (Proceed, Shop.UpdateCart(cart, id, format, n))
  {
    if n < 1 || n > 10 then
      (Refuse(if n < 1 then "Quantity cannot be less than 1" else "Maximum quantity is 10"), cart)
    else (Proceed, Shop.UpdateCart(cart, id, format, n))
  }

  /** The buttons keep every quantity in 1..10 once it is there. */
  lemma QuantityChangeKeepsBounds(cart: seq<Shop.Line>, id: string, format: Option<string>, n: int)
    requires forall l :: l in cart ==> 1 <= l.quantity <= 10
    ensures forall l :: l in QuantityChange(cart, id, format, n).1 ==> 1 <= l.quantity <= 10
  {
    var r := QuantityChange(cart, id, format, n).1;
    forall l | l in r ensures 1 <= l.quantity <= 10 {
      var i :| 0 <= i < |r| && r[i] == l;
      assert cart[i] in cart;
    }
  }

  // ---------------------------------------------------------------------
  // Suggestions

  /** A product none of whose lines is in the cart. */
  predicate NotInCart(d: seq<Entry>, p: Product) {
    forall i :: 0 <= i < |d| ==> d[i].line.productId != p.id
  }

  function OutOfCart(d: seq<Entry>): Product -> bool {
    (p: Product) => NotInCart(d, p)
  }

  /** The "You might also like" strip: the first four catalogue products not
      in the cart, in catalogue order. */
  function AlsoLike(products: seq<Product>, d: seq<Entry>): (r: seq<Product>)
    ensures |r| <= 4
    ensures Seqs.IsSubseq(r, products)
    ensures forall p :: p in r ==> NotInCart(d, p)
    ensures |r| < 4 ==> forall p :: p in products && NotInCart(d, p) ==> p in r
    ensures Seqs.FirstMatching(r, products, OutOfCart(d), 4)
  {
    var rest := Seqs.Filter(products, OutOfCart(d));
    var r := Seqs.Take(rest, 4);
    Seqs.SubseqTransitive(r, rest, products);
    Seqs.SubseqLength(r, rest);
    Seqs.TakeFilterFirst(products, OutOfCart(d), 4);
    r
  }
}

=== FILE: catalogue.dfy ===
/** The product records the store fetches from the server, as every page
    reads them, and the `products.find(p => p.id === id)` lookup. */
module Catalogue {
  import opened Wrappers

  /** `product.image`: absent, a single URL, or an array of URLs. */
  datatype Image = NoImage | Url(url: string) | Urls(urls: seq<string>)

  /** One catalogue entry. Fields the server may omit are `Option`s; a
      subcategory entry that is `null` or not a string is `None`. */
  datatype Product = Product(
    id: string,
    name: string,
    price: real,
    originalPrice: Option<real>,
    image: Image,
    category: string,
    subCategories: seq<Option<string>>,
    sizes: seq<string>,
    rating: Option<real>,
    inStock: Option<bool>,
    bestseller: bool,
    date: int,
    description: Option<string>
  )

  predicate HasId(products: seq<Product>, id: string) {
    exists i :: 0 <= i < |products| && products[i].id == id
  }

  /** Position of the first product carrying `id`, or `|products|` when
      there is none. */
  function IndexOf(products: seq<Product>, id: string): (k: nat)
    ensures k <= |products|
    ensures forall j :: 0 <= j < k ==> products[j].id != id
    ensures k < |products| ==> products[k].id == id
  {
    if products == [] || products[0].id == id then 0
    else 1 + IndexOf(products[1..], id)
  }

  /** `products.find(p => p.id === id)`: the first product carrying `id`. */
  function Find(products: seq<Product>, id: string): (r: Option<Product>)
    ensures r.None? <==> !HasId(products, id)
    ensures r.Some? ==> r.value in products && r.value.id == id
    ensures r.Some? ==> r.value == products[IndexOf(products, id)]
  {
    var k := IndexOf(products, id);
    if k < |products| then Some(products[k]) else None
  }
}

=== FILE: checkout.dfy ===
/** What the two checkout pages (`PlaceOrder` and `GuestCheckout`) share: the
    payment-proof upload gate, the payment-method state with its modal, and
    the "trimmed, or left out when blank" rule for optional payload
    fields. */
module Checkout {
  import opened Wrappers
  import opened JsText

  /** A picked file: its name, its MIME type and its size in bytes. */
  datatype FileInfo = FileInfo(name: string, mimeType: string, size: int)

  /** The largest payment proof accepted: 250 KiB. */
  const MaxProofBytes: int := 250 * 1024

  /** `/jpeg|jpg|png|webp/.test(s)`: the pattern has no anchors, so it
      matches when any of the four words occurs anywhere in `s`. */
  predicate ImageWord(s: string) {
    Contains(s, "jpeg") || Contains(s, "jpg") || Contains(s, "png") || Contains(s, "webp")
  }

  /** The test `handleFileChange` applies to a picked file: the lower-cased
      name and the MIME type both match the pattern, and the size is at most
      250 KiB. */
  predicate ProofAcceptable(f: FileInfo) {
    ImageWord(ToLower(f.name)) && ImageWord(f.mimeType) && f.size <= MaxProofBytes
  }

  /** The message shown for a refused file; the type test comes first. */
  function ProofRefusal(f: FileInfo): (m: string)
    requires !ProofAcceptable(f)
    ensures m == "Please upload an image (jpeg, jpg, png, or webp)"
        <==> !(ImageWord(ToLower(f.name)) && ImageWord(f.mimeType))
  {
    if !(ImageWord(ToLower(f.name)) && ImageWord(f.mimeType)) then
      "Please upload an image (jpeg, jpg, png, or webp)"
    else
      "File size must be less than 250KB"
  }

  /** The test is on substrings only: a name such as "png-list.pdf" with the
      MIME type "application/x-png" passes it. */
  lemma SubstringPasses(prefix: string, suffix: string, mimePrefix: string, size: int)
    requires 0 <= size <= MaxProofBytes
    requires ToLower(prefix) == prefix && ToLower(suffix) == suffix
    ensures ProofAcceptable(FileInfo(prefix + "png" + suffix, mimePrefix + "png", size))
  {
    var name := prefix + "png" + suffix;
    assert ToLower(name) == name;
    assert OccursAt(name, "png", |prefix|) by {
      assert name[|prefix|..|prefix| + 3] == "png";
    }
    var m := mimePrefix + "png";
    assert OccursAt(m, "png", |mimePrefix|) by {
      assert m[|mimePrefix|..|mimePrefix| + 3] == "png";
    }
  }

  /** The payment part of a checkout form: the payment method ("cod" or "online"),
      the online option picked in the modal, the proof file, and whether the
      modal is open. */
  datatype Payment = Payment(paymentMethod: string, option: string, proof: Option<FileInfo>, modalOpen: bool)

  /** Falling back to cash on delivery: option and proof cleared, modal
      closed. */
  const CashOnDelivery: Payment := Payment("cod", "", None, false)

  /** `value?.trim() || undefined` (or `|| null`): the trimmed value, or
      nothing when it is blank. */
  function TrimmedOrAbsent(s: string): (r: Option<string>)
    ensures r.None? <==> Blank(s)
    ensures r.Some? ==> r.value == Trim(s) && !IsSpace(r.value[0])
  {
    if Trim(s) == [] then None else Some(Trim(s))
  }
}

=== FILE: collections.dfy ===
/** The catalogue page (`Collections`): the subcategory normaliser, the
    subcategory lists offered as filters, the filter state and its toggles,
    and the filter-then-sort pipeline that decides which products are shown
    and in what order. */
module Collections {
  import opened Wrappers
  import opened JsText
  import opened Catalogue
  import Seqs

  /** The eighteen top-level categories, in menu order. */
  const FixedCategories: seq<string> := [
    "Govt School", "Private School", "College & University", "Competitive Exam",
    "Past Papers", "Religious & Spiritual", "Urdu Novels", "Urdu Poetry",
    "Urdu Literature", "English Novels", "English Literature",
    "Children & Young Reader", "Medical", "Engineering", "Business", "History",
    "General Interest", "Used & Affordable"
  ]

  /** The category whose subcategory list draws on the whole catalogue. */
  const UsedAndAffordable: string := "Used & Affordable"

  // ---------------------------------------------------------------------
  // cleanSubCategory

  /** The characters the first replacement deletes: `[`, `]`, `"` and `,`. */
  predicate Stripped(c: char) { c == '[' || c == ']' || c == '"' || c == ',' }

  /** The characters the first replacement keeps. */
  predicate Kept(c: char) { !Stripped(c) }

  /** Whitespace is only ever a single plain space, and never two in a row. */
  predicate SingleSpaced(s: string) {
    && (forall i :: 0 <= i < |s| && IsSpace(s[i]) ==> s[i] == ' ')
    && (forall i :: 0 <= i < |s| - 1 ==> !(IsSpace(s[i]) && IsSpace(s[i + 1])))
  }

  /** `s.replace(/\s+/g, " ")`, scanning left to right; `inRun` says the
      previous character was whitespace already replaced by a space. */
  function CollapseSpaces(s: string, inRun: bool): (r: string)
    ensures SingleSpaced(r)
    ensures inRun && r != [] ==> !IsSpace(r[0])
    ensures forall c :: c in r ==> c == ' ' || (c in s && !IsSpace(c))
    ensures forall c :: c in s && !IsSpace(c) ==> c in r
  {
    if s == [] then []
    else if IsSpace(s[0]) then
      if inRun then CollapseSpaces(s[1..], true)
      else [' '] + CollapseSpaces(s[1..], true)
    else
      var rest := CollapseSpaces(s[1..], false);
      assert forall c :: c in rest ==> c == ' ' || (c in s && !IsSpace(c)) by {
        forall c | c in rest ensures c == ' ' || (c in s && !IsSpace(c)) {
          if c != ' ' { assert c in s[1..]; }
        }
      }
      [s[0]] + rest
  }

  /** On a string that is already single-spaced the collapse changes nothing. */
  lemma {:induction false} CollapseSingleSpaced(s: string, inRun: bool)
    requires SingleSpaced(s)
    requires inRun && s != [] ==> !IsSpace(s[0])
    ensures CollapseSpaces(s, inRun) == s
  {
    if s != [] {
      assert SingleSpaced(s[1..]) by {
        forall i | 0 <= i < |s[1..]| - 1 ensures !(IsSpace(s[1..][i]) && IsSpace(s[1..][i + 1])) {
          assert s[1..][i] == s[i + 1] && s[1..][i + 1] == s[i + 2];
        }
      }
      if IsSpace(s[0]) {
        CollapseSingleSpaced(s[1..], true);
      } else {
        CollapseSingleSpaced(s[1..], false);
      }
    }
  }

  /** `\b\w` matches at `i`: a word character not preceded by one. */
  predicate StartsWord(s: string, i: int)
    requires 0 <= i < |s|
  {
    IsWordChar(s[i]) && (i == 0 || !IsWordChar(s[i - 1]))
  }

  /** `s.replace(/\b\w/g, c => c.toUpperCase())` */
  function Capitalize(s: string): (r: string)
    ensures |r| == |s|
    ensures forall i :: 0 <= i < |s| ==> r[i] == if StartsWord(s, i) then UpperChar(s[i]) else s[i]
  {
    seq(|s|, i requires 0 <= i < |s| => if StartsWord(s, i) then UpperChar(s[i]) else s[i])
  }

  /** No bracket, quote, comma or underscore. */
  predicate NoMarks(s: string) {
    forall i :: 0 <= i < |s| ==> !Stripped(s[i]) && s[i] != '_'
  }

  /** The shape of a normalised value: no marks, single spaces only, and no
      whitespace at either end. */
  predicate Tidied(s: string) {
    NoMarks(s) && SingleSpaced(s) && (s != [] ==> !IsSpace(s[0]) && !IsSpace(s[|s| - 1]))
  }

  /** The first two replacements: delete `[`, `]`, `"`, `,` and turn `_` into a space. */
  function Unmark(sub: string): (r: string)
    ensures NoMarks(r)
  {
    var a := Seqs.Filter(sub, Kept);
    var r := ReplaceChar(a, '_', ' ');
    assert forall i :: 0 <= i < |r| ==> r[i] == ' ' || r[i] in a;
    r
  }

  /** The part of the normaliser before capitalisation. */
  function Tidy(sub: string): (t: string)
    ensures Tidied(t)
  {
    var d := CollapseSpaces(Unmark(sub), false);
    CollapseKeepsNoMarks(Unmark(sub));
    TrimKeepsTidy(d);
    Trim(d)
  }

  lemma CollapseKeepsNoMarks(b: string)
    requires NoMarks(b)
    ensures NoMarks(CollapseSpaces(b, false))
  {
    var d := CollapseSpaces(b, false);
    forall i | 0 <= i < |d| ensures !Stripped(d[i]) && d[i] != '_' {
      assert d[i] in d;
      if d[i] != ' ' {
        var j :| 0 <= j < |b| && b[j] == d[i];
      }
    }
  }

  /** Trimming a single-spaced string without marks yields a tidy one. */
  lemma TrimKeepsTidy(d: string)
    requires NoMarks(d) && SingleSpaced(d)
    ensures Tidied(Trim(d))
  {
    var t := Trim(d);
    var n := LeadingSpaces(d);
    forall i | 0 <= i < |t| ensures t[i] == d[n + i] && !Stripped(t[i]) && t[i] != '_' {
      TrimAt(d, i);
    }
    forall i | 0 <= i < |t| - 1 ensures !(IsSpace(t[i]) && IsSpace(t[i + 1])) {
      TrimAt(d, i);
      TrimAt(d, i + 1);
    }
  }

  /** A character that survives normalisation: not whitespace and not one of
      the marks the first two replacements remove. */
  predicate Plain(c: char) { !IsSpace(c) && !Stripped(c) && c != '_' }

  /** `ch` is a plain character of `s`, upper-cased or not. */
  ghost predicate FromPlain(s: string, ch: char) {
    exists c :: c in s && Plain(c) && (ch == c || ch == UpperChar(c))
  }

  /** The marks replacements keep exactly the plain characters, and every
      other character they leave is whitespace. */
  lemma UnmarkChars(s: string)
    ensures forall c :: c in Unmark(s) && !IsSpace(c) ==> c in s && Plain(c)
    ensures forall c :: c in s && Plain(c) ==> c in Unmark(s)
  {
    var a := Seqs.Filter(s, Kept);
    var r := Unmark(s);
    forall c | c in r && !IsSpace(c) ensures c in s && Plain(c) {
      var i :| 0 <= i < |r| && r[i] == c;
      assert a[i] in a;
    }
    forall c | c in s && Plain(c) ensures c in r {
      assert c in a;
      var i :| 0 <= i < |a| && a[i] == c;
      assert r[i] == c;
    }
  }

  /** Trimming keeps every character that is not whitespace. */
  lemma TrimChars(d: string)
    ensures forall c :: c in Trim(d) ==> c in d
    ensures forall c :: c in d && !IsSpace(c) ==> c in Trim(d)
  {
    var t := Trim(d);
    var n := LeadingSpaces(d);
    forall c | c in t ensures c in d {
      var i :| 0 <= i < |t| && t[i] == c;
      TrimAt(d, i);
    }
    forall c | c in d && !IsSpace(c) ensures c in t {
      var j :| 0 <= j < |d| && d[j] == c;
      assert n <= j < n + |t|;
      TrimAt(d, j - n);
    }
  }

  /** The characters of `Tidy(s)` other than spaces are exactly the plain
      characters of `s`. */
  lemma TidyChars(s: string)
    ensures forall c :: c in Tidy(s) && !IsSpace(c) ==> c in s && Plain(c)
    ensures forall c :: c in s && Plain(c) ==> c in Tidy(s)
  {
    UnmarkChars(s);
    TrimChars(CollapseSpaces(Unmark(s), false));
  }

  /** `cleanSubCategory(sub)`: "" for a missing, non-string or empty value;
      otherwise the value with brackets, quotes and commas deleted,
      underscores turned into spaces, whitespace runs collapsed to one
      space, the ends trimmed and the first letter of each word upper-cased.
      The result is empty exactly when nothing plain is left; every other
      character comes from the value, upper-cased at most; and a value
      already in normal shape is only capitalised. */
  function CleanSubCategory(sub: Option<string>): (r: string)
    ensures sub.None? || sub == Some("") ==> r == ""
    ensures Tidied(r) && Capitalized(r)
    ensures sub.Some? ==> (r == "" <==> forall i :: 0 <= i < |sub.value| ==> !Plain(sub.value[i]))
    ensures sub.Some? ==> forall i :: 0 <= i < |r| && !IsSpace(r[i]) ==>
      FromPlain(sub.value, r[i])
    ensures sub.Some? && sub.value != "" && Tidied(sub.value) ==> r == Capitalize(sub.value)
  {
    match sub
    case None => ""
    case Some(s) =>
      if s == "" then ""
      else
        CleanFacts(s, Tidy(s), Capitalize(Tidy(s)));
        Capitalize(Tidy(s))
  }

  /** The contract of `CleanSubCategory` for a non-empty value. */
  lemma CleanFacts(s: string, t: string, r: string)
    requires t == Tidy(s) && r == Capitalize(t)
    ensures Tidied(r) && Capitalized(r)
    ensures r == "" <==> forall i :: 0 <= i < |s| ==> !Plain(s[i])
    ensures forall i :: 0 <= i < |r| && !IsSpace(r[i]) ==>
      FromPlain(s, r[i])
    ensures Tidied(s) ==> r == Capitalize(s)
  {
    CapitalizeShape(t);
    TidyChars(s);
    CapitalizeChars(s, t);
    if Tidied(s) { TidyOfTidy(s); }
  }

  /** The character facts of `CleanSubCategory`, for any `t` whose
      characters other than spaces are exactly the plain ones of `s`. */
  lemma CapitalizeChars(s: string, t: string)
    requires forall c :: c in t && !IsSpace(c) ==> c in s && Plain(c)
    requires forall c :: c in s && Plain(c) ==> c in t
    requires t != [] ==> !IsSpace(t[0])
    ensures Capitalize(t) == "" <==> forall i :: 0 <= i < |s| ==> !Plain(s[i])
    ensures forall i :: 0 <= i < |Capitalize(t)| && !IsSpace(Capitalize(t)[i]) ==>
      FromPlain(s, Capitalize(t)[i])
  {
    var r := Capitalize(t);
    if exists i :: 0 <= i < |s| && Plain(s[i]) {
      var i :| 0 <= i < |s| && Plain(s[i]);
      assert s[i] in s;
    }
    if t != [] {
      assert t[0] in t;
    }
    forall i | 0 <= i < |r| && !IsSpace(r[i])
      ensures FromPlain(s, r[i])
    {
      UpperCharClass(t[i]);
      assert t[i] in t;
    }
  }


  /** Upper-casing an ASCII letter leaves a word character a word character
      and anything else as it was. */
  lemma UpperCharClass(c: char)
    ensures IsWordChar(UpperChar(c)) == IsWordChar(c)
    ensures IsSpace(UpperChar(c)) == IsSpace(c)
    ensures !Stripped(c) && c != '_' ==> !Stripped(UpperChar(c)) && UpperChar(c) != '_'
    ensures !IsLower(UpperChar(c))
    ensures !IsLower(c) ==> UpperChar(c) == c
  {
  }

  /** No word starts with a lower-case letter. */
  predicate Capitalized(s: string) {
    forall i :: 0 <= i < |s| && StartsWord(s, i) ==> !IsLower(s[i])
  }

  /** Capitalising keeps a tidy string tidy and leaves no word starting with
      a lower-case letter. */
  lemma CapitalizeShape(t: string)
    requires Tidied(t)
    ensures Tidied(Capitalize(t))
    ensures Capitalized(Capitalize(t))
  {
    var r := Capitalize(t);
    forall i | 0 <= i < |t|
      ensures IsWordChar(r[i]) == IsWordChar(t[i]) && IsSpace(r[i]) == IsSpace(t[i])
      ensures !Stripped(r[i]) && r[i] != '_'
    {
      UpperCharClass(t[i]);
    }
    forall i | 0 <= i < |r| && StartsWord(r, i) ensures !IsLower(r[i]) {
      assert i > 0 ==> IsWordChar(t[i - 1]) == IsWordChar(r[i - 1]);
      UpperCharClass(t[i]);
    }
    forall i | 0 <= i < |r| - 1 ensures !(IsSpace(r[i]) && IsSpace(r[i + 1])) {
      assert IsSpace(r[i + 1]) == IsSpace(t[i + 1]);
    }
    forall i | 0 <= i < |r| && IsSpace(r[i]) ensures r[i] == ' ' {
      UpperCharClass(t[i]);
    }
  }

  /** Capitalisation keeps every character's class, so the capitalised form is
      capitalised already. */
  lemma CapitalizeIdempotent(s: string)
    ensures Capitalize(Capitalize(s)) == Capitalize(s)
  {
    var r := Capitalize(s);
    forall i | 0 <= i < |s| ensures Capitalize(r)[i] == r[i] {
      UpperCharClass(s[i]);
      if i > 0 { UpperCharClass(s[i - 1]); }
      assert i > 0 ==> IsWordChar(r[i - 1]) == IsWordChar(s[i - 1]);
      if StartsWord(r, i) {
        UpperCharClass(UpperChar(s[i]));
      }
    }
  }

  /** Each step of the normaliser leaves an already-tidy string alone. */
  lemma TidyOfTidy(t: string)
    requires Tidied(t)
    ensures Unmark(t) == t
    ensures Tidy(t) == t
  {
    Seqs.FilterAll(t, Kept);
    assert Unmark(t) == t;
    CollapseSingleSpaced(t, false);
  }

  /** Normalising twice is normalising once. */
  lemma CleanSubCategoryIdempotent(sub: Option<string>)
    ensures CleanSubCategory(Some(CleanSubCategory(sub))) == CleanSubCategory(sub)
  {
    var r := CleanSubCategory(sub);
    if r != "" {
      var t := Tidy(sub.value);
      CapitalizeShape(t);
      TidyOfTidy(r);
      CapitalizeIdempotent(t);
    }
  }

  /** A value wrapped in brackets and quotes with an underscore between words
      normalises to the plain title. */
  lemma CleanSubCategoryExample()
    ensures CleanSubCategory(Some("[\"new_books\"]")) == "New Books"
  {
    NewBooksUnmarked();
    NewBooksTidied();
    TidyOfTidy("new books");
    NewBooksCapitalized();
  }

  lemma NewBooksUnmarked()
    ensures Unmark("[\"new_books\"]") == "new books"
  {
    NewBooksFiltered();
    NewBooksReplaced();
  }

  lemma NewBooksFiltered()
    ensures Seqs.Filter("[\"new_books\"]", Kept) == "new_books"
  {
    NewBooksParts();
    NewBooksKept();
    Seqs.FilterAppend("[\"" + "new_books", "\"]", Kept);
    Seqs.FilterAppend("[\"", "new_books", Kept);
  }

  lemma NewBooksKept()
    ensures Seqs.Filter("new_books", Kept) == "new_books"
  {
    var w := "new_books";
    forall x | x in w ensures Kept(x) {
      var i :| 0 <= i < |w| && w[i] == x;
    }
    Seqs.FilterAll(w, Kept);
  }

  lemma NewBooksParts()
    ensures "[\"new_books\"]" == "[\"" + "new_books" + "\"]"
  {
  }

  lemma NewBooksReplaced()
    ensures ReplaceChar("new_books", '_', ' ') == "new books"
  {
    var r := ReplaceChar("new_books", '_', ' ');
    forall i | 0 <= i < 9 ensures r[i] == "new books"[i] { }
  }

  lemma NewBooksTidied()
    ensures Tidied("new books")
  {
    var t := "new books";
    forall i | 0 <= i < |t| ensures !IsSpace(t[i]) <==> i != 3 { }
  }

  lemma NewBooksCapitalized()
    ensures Capitalize("new books") == "New Books"
  {
    var t := "new books";
    assert StartsWord(t, 0) && StartsWord(t, 4);
    forall i | 0 <= i < 9 && i != 0 && i != 4 ensures !StartsWord(t, i) { }
    assert Capitalize(t)[0] == 'N' && Capitalize(t)[4] == 'B';
  }

  // ---------------------------------------------------------------------
  // Subcategory lists

  /** `sub` is one of the raw subcategories of some product. */
  predicate ListedSub(products: seq<Product>, sub: Option<string>) {
    exists i :: 0 <= i < |products| && sub in products[i].subCategories
  }

  /** `products.flatMap(p => p.subCategories || [])` */
  function AllSubCategories(products: seq<Product>): (r: seq<Option<string>>)
    ensures forall x :: x in r <==> ListedSub(products, x)
  {
    if products == [] then []
    else
      var rest := AllSubCategories(products[1..]);
      ListedSubSplit(products);
      products[0].subCategories + rest
  }

  lemma ListedSubSplit(products: seq<Product>)
    requires products != []
    ensures forall x :: ListedSub(products, x) <==>
      x in products[0].subCategories || ListedSub(products[1..], x)
  {
    forall x ensures ListedSub(products, x) <==>
      x in products[0].subCategories || ListedSub(products[1..], x)
    {
      if ListedSub(products[1..], x) {
        var i :| 0 <= i < |products[1..]| && x in products[1..][i].subCategories;
        assert x in products[i + 1].subCategories;
      }
      if ListedSub(products, x) && x !in products[0].subCategories {
        var i :| 0 <= i < |products| && x in products[i].subCategories;
        assert x in products[1..][i - 1].subCategories;
      }
    }
  }

  /** The filter applied before normalising: a non-empty string that is not
      blank and is not, as written, one of the fixed category names. */
  predicate Offerable(sub: Option<string>) {
    sub.Some? && sub.value != "" && sub.value !in FixedCategories && !Blank(sub.value)
  }

  /** `.map(cleanSubCategory)` */
  function CleanAll(subs: seq<Option<string>>): (r: seq<string>)
    ensures |r| == |subs| && forall i :: 0 <= i < |subs| ==> r[i] == CleanSubCategory(subs[i])
  {
    seq(|subs|, i requires 0 <= i < |subs| => CleanSubCategory(subs[i]))
  }

  /** `x` is the normalised form of an offerable raw subcategory of `products`. */
  ghost predicate OfferedFrom(products: seq<Product>, x: string) {
    exists sub :: ListedSub(products, sub) && Offerable(sub) && x == CleanSubCategory(sub)
  }

  /** `products.flatMap(...).filter(...).map(cleanSubCategory)`: the
      normalised offerable subcategories, repeats included, in catalogue
      order. */
  function Cleaned(products: seq<Product>): (r: seq<string>)
    ensures forall x :: x in r <==> OfferedFrom(products, x)
  {
    var subs := Seqs.Filter(AllSubCategories(products), Offerable);
    CleanAllMembers(products, subs);
    CleanAll(subs)
  }

  /** `[...new Set(cleaned)]`: the normalised offerable subcategories of
      `products`, once each, in order of first appearance, before any length
      cut. */
  function Offered(products: seq<Product>): (r: seq<string>)
    ensures Seqs.Distinct(r)
    ensures forall x :: x in r <==> OfferedFrom(products, x)
    ensures forall i, j :: 0 <= i < j < |r| ==>
      Seqs.FirstIndex(Cleaned(products), r[i]) < Seqs.FirstIndex(Cleaned(products), r[j])
  {
    Seqs.Dedupe(Cleaned(products))
  }

  /** `[...new Set(cleaned)].slice(0, n)`: the values kept are listed in
      order of first appearance and each appears before every value cut. */
  lemma CutKeepsEarliest(products: seq<Product>, n: nat)
    ensures forall i, j :: 0 <= i < j < |Seqs.Take(Offered(products), n)| ==>
      Seqs.FirstIndex(Cleaned(products), Seqs.Take(Offered(products), n)[i])
        < Seqs.FirstIndex(Cleaned(products), Seqs.Take(Offered(products), n)[j])
    ensures forall x, y ::
      x in Seqs.Take(Offered(products), n) && OfferedFrom(products, y) && y !in Seqs.Take(Offered(products), n) ==>
      Seqs.FirstIndex(Cleaned(products), x) < Seqs.FirstIndex(Cleaned(products), y)
  {
  }

  lemma CleanAllMembers(products: seq<Product>, subs: seq<Option<string>>)
    requires subs == Seqs.Filter(AllSubCategories(products), Offerable)
    ensures forall x :: x in CleanAll(subs) <==> OfferedFrom(products, x)
  {
    var cleaned := CleanAll(subs);
    forall x ensures x in cleaned <==> OfferedFrom(products, x) {
      if x in cleaned {
        var i :| 0 <= i < |cleaned| && cleaned[i] == x;
        assert subs[i] in subs;
      }
      if OfferedFrom(products, x) {
        var sub :| ListedSub(products, sub) && Offerable(sub) && x == CleanSubCategory(sub);
        assert sub in subs;
        var i := Seqs.Position(subs, sub);
        assert cleaned[i] == x;
      }
    }
  }

  /** `uniqueSubCategories`: at most fifty distinct normalised values, each
      coming from an offerable raw subcategory of some product; when more
      exist, the fifty that appear first, in order of first appearance. */
  function UniqueSubCategories(products: seq<Product>): (r: seq<string>)
    ensures |r| <= 50
    ensures Seqs.Distinct(r)
    ensures forall x :: x in r ==> OfferedFrom(products, x)
    ensures |r| < 50 ==> forall x :: OfferedFrom(products, x) ==> x in r
    ensures forall i, j :: 0 <= i < j < |r| ==>
      Seqs.FirstIndex(Cleaned(products), r[i]) < Seqs.FirstIndex(Cleaned(products), r[j])
    ensures forall x, y :: x in r && OfferedFrom(products, y) && y !in r ==>
      Seqs.FirstIndex(Cleaned(products), x) < Seqs.FirstIndex(Cleaned(products), y)
  {
    var all := Offered(products);
    Seqs.SubseqLength(Seqs.Take(all, 50), all);
    Seqs.TakeDistinct(all, 50);
    CutKeepsEarliest(products, 50);
    Seqs.Take(all, 50)
  }

  /** The raw-value test runs before normalisation, so a raw value that is
      not a fixed name can still normalise to one: "medical" is offered and
      shows up as "Medical". */
  lemma CleanedValueMayBeFixed()
    ensures Offerable(Some("medical"))
    ensures CleanSubCategory(Some("medical")) == "Medical"
    ensures "Medical" in FixedCategories
  {
    MedicalOfferable();
    MedicalCleaned();
  }

  lemma MedicalOfferable()
    ensures Offerable(Some("medical"))
  {
    MedicalNotFixed();
    assert !IsSpace("medical"[0]);
  }

  lemma MedicalCleaned()
    ensures CleanSubCategory(Some("medical")) == "Medical"
  {
    MedicalTidied();
    TidyOfTidy("medical");
    MedicalCapitalized();
  }

  lemma MedicalNotFixed()
    ensures "medical" !in FixedCategories
  {
    forall i | 0 <= i < |FixedCategories| ensures FixedCategories[i][0] != 'm' { }
  }

  lemma MedicalTidied()
    ensures Tidied("medical")
  {
  }

  lemma MedicalCapitalized()
    ensures Capitalize("medical") == "Medical"
  {
    var s := "medical";
    assert StartsWord(s, 0);
    forall i | 1 <= i < 7 ensures !StartsWord(s, i) { }
    assert Capitalize(s)[0] == 'M';
  }

  /** The test `p => p.category === cat`. */
  function InCategory(cat: string): Product -> bool {
    (p: Product) => p.category == cat
  }

  /** `subCategoriesByCategory[cat]`: undefined for a name that is not a fixed
      category; for "Used & Affordable" drawn from every product, for the
      others only from that category's products; at most twenty entries. */
  function SubCategoriesFor(products: seq<Product>, cat: string): (r: Option<seq<string>>)
    ensures r.Some? <==> cat in FixedCategories
    ensures r.Some? ==> |r.value| <= 20 && Seqs.Distinct(r.value)
    ensures r.Some? ==> forall x :: x in r.value ==> OfferedFrom(SourceFor(products, cat), x)
    ensures r.Some? && |r.value| < 20 ==>
      forall x :: OfferedFrom(SourceFor(products, cat), x) ==> x in r.value
    ensures r.Some? ==> forall x, y :: x in r.value && OfferedFrom(SourceFor(products, cat), y) && y !in r.value ==>
      Seqs.FirstIndex(Cleaned(SourceFor(products, cat)), x) < Seqs.FirstIndex(Cleaned(SourceFor(products, cat)), y)
  {
    if cat !in FixedCategories then None
    else
      var all := Offered(SourceFor(products, cat));
      Seqs.SubseqLength(Seqs.Take(all, 20), all);
      Seqs.TakeDistinct(all, 20);
      CutKeepsEarliest(SourceFor(products, cat), 20);
      Some(Seqs.Take(all, 20))
  }

  /** The products a category's list draws on: all of them for "Used &
      Affordable", otherwise `products.filter(p => p.category === cat)`. */
  function SourceFor(products: seq<Product>, cat: string): (r: seq<Product>)
    ensures cat == UsedAndAffordable ==> r == products
    ensures cat != UsedAndAffordable ==> forall p :: p in r <==> p in products && p.category == cat
  {
    if cat == UsedAndAffordable then products else Seqs.Filter(products, InCategory(cat))
  }

  /** `x` is the normalised form of an offerable raw subcategory of `p`. */
  ghost predicate OffersIn(p: Product, x: string) {
    exists sub :: sub in p.subCategories && Offerable(sub) && x == CleanSubCategory(sub)
  }

  /** A value offered under a category comes from a product of that category. */
  lemma OfferedFromCategory(products: seq<Product>, cat: string, x: string)
    requires cat in FixedCategories && cat != UsedAndAffordable
    requires x in SubCategoriesFor(products, cat).value
    ensures exists p :: p in products && p.category == cat && OffersIn(p, x)
  {
    var own := SourceFor(products, cat);
    var sub :| ListedSub(own, sub) && Offerable(sub) && x == CleanSubCategory(sub);
    var j :| 0 <= j < |own| && sub in own[j].subCategories;
    var q := own[j];
    assert q in own;
    assert q in products && InCategory(cat)(q);
    assert OffersIn(q, x);
  }

  /** The "Used & Affordable" list is the first twenty of the overall list. */
  lemma UsedAndAffordableIsPrefix(products: seq<Product>)
    ensures SubCategoriesFor(products, UsedAndAffordable)
         == Some(Seqs.Take(UniqueSubCategories(products), 20))
  {
    assert UsedAndAffordable == FixedCategories[17];
    var all := Offered(products);
    if |all| > 50 {
      assert all[..50][..20] == all[..20];
    }
  }

  // ---------------------------------------------------------------------
  // Filter state

  /** `activeFilters`. `rating` and `availability` are `null` when unset. */
  datatype Filters = Filters(
    category: seq<string>,
    subCategory: seq<string>,
    priceLow: real,
    priceHigh: real,
    rating: Option<real>,
    availability: Option<string>,
    searchQuery: string
  )

  /** The state the page starts from. */
  const InitialFilters: Filters := Filters([], [], 0.0, 100.0, None, Some("all"), "")

  /** The list-valued filter keys `toggleFilter` is called with. */
  datatype ListKey = CategoryKey | SubCategoryKey

  function ListOf(f: Filters, key: ListKey): seq<string> {
    match key
    case CategoryKey => f.category
    case SubCategoryKey => f.subCategory
  }

  function WithList(f: Filters, key: ListKey, l: seq<string>): (g: Filters)
    ensures ListOf(g, key) == l
  {
    match key
    case CategoryKey => f.(category := l)
    case SubCategoryKey => f.(subCategory := l)
  }

  /** The test `x => x !== value` that removes a value from a list. */
  function Other(value: string): string -> bool {
    x => x != value
  }

  /** Removes every occurrence of a present value, or appends an absent one. */
  function Toggle(l: seq<string>, value: string): (r: seq<string>)
    ensures value in l ==> value !in r && forall x :: x != value ==> (x in r <==> x in l)
    ensures value !in l ==> r == l + [value]
  {
    if value in l then Seqs.Filter(l, Other(value)) else l + [value]
  }

  /** `toggleFilter(filterType, value)`: toggles one list and leaves every
      other key as it was. */
  function ToggleFilter(f: Filters, key: ListKey, value: string): (g: Filters)
    ensures ListOf(g, key) == Toggle(ListOf(f, key), value)
    ensures key == CategoryKey ==> g.subCategory == f.subCategory
    ensures key == SubCategoryKey ==> g.category == f.category
    ensures g.priceLow == f.priceLow && g.priceHigh == f.priceHigh && g.rating == f.rating
    ensures g.availability == f.availability && g.searchQuery == f.searchQuery
  {
    WithList(f, key, Toggle(ListOf(f, key), value))
  }

  /** Toggling a value that is absent twice restores the filters. */
  lemma ToggleFilterTwice(f: Filters, key: ListKey, value: string)
    requires value !in ListOf(f, key)
    ensures ToggleFilter(ToggleFilter(f, key, value), key, value) == f
  {
    var l := ListOf(f, key);
    Seqs.FilterAppend(l, [value], Other(value));
    Seqs.FilterAll(l, Other(value));
  }

  /** `prev[filterType] === value ? null : value` */
  function ToggleSingle<T(==)>(current: Option<T>, value: T): (r: Option<T>)
    ensures current == Some(value) ==> r.None?
    ensures current != Some(value) ==> r == Some(value)
  {
    if current == Some(value) then None else Some(value)
  }

  /** `toggleSingleFilter("rating", value)` */
  function ToggleRating(f: Filters, value: real): (g: Filters)
    ensures g.rating == (if f.rating == Some(value) then None else Some(value))
    ensures g == f.(rating := g.rating)
  {
    f.(rating := ToggleSingle(f.rating, value))
  }

  /** `toggleSingleFilter("availability", value)` */
  function ToggleAvailability(f: Filters, value: string): (g: Filters)
    ensures g.availability == (if f.availability == Some(value) then None else Some(value))
    ensures g == f.(availability := g.availability)
  {
    f.(availability := ToggleSingle(f.availability, value))
  }

  /** `handleSubCategoryClick(subCategory)`: the clicked value becomes the
      only subcategory filter. */
  function SubCategoryClick(f: Filters, sub: string): (g: Filters)
    ensures g.subCategory == [sub]
    ensures g == f.(subCategory := [sub])
  {
    f.(subCategory := [sub])
  }

  /** `toggleMobileCategory(category)`: opening a category toggles it in the
      category filter; closing the open one removes it and clears the
      subcategory filter. The second component is the open category. The
      empty category is falsy, so it takes the closing branch even when it
      was not open. */
  function MobileCategoryToggle(f: Filters, open: Option<string>, cat: string): (r: (Filters, Option<string>))
    ensures open == Some(cat) ==> r.1.None? && cat !in r.0.category && r.0.subCategory == []
    ensures open != Some(cat) && cat != "" ==> r == (ToggleFilter(f, CategoryKey, cat), Some(cat))
    ensures open == Some(cat) || cat == "" ==>
      r == (f.(category := Seqs.Filter(f.category, Other(cat)), subCategory := []), ToggleSingle(open, cat))
    ensures open == Some(cat) || cat == "" ==>
      forall c :: c in r.0.category <==> c in f.category && c != cat
    ensures open == Some(cat) || cat == "" ==>
      r.0.priceLow == f.priceLow && r.0.priceHigh == f.priceHigh && r.0.rating == f.rating
      && r.0.availability == f.availability && r.0.searchQuery == f.searchQuery
  {
    var next := ToggleSingle(open, cat);
    if next.Some? && next.value != "" then (ToggleFilter(f, CategoryKey, cat), next)
    else (f.(category := Seqs.Filter(f.category, Other(cat)), subCategory := []), next)
  }

  /** Opening a category that was not selected and closing it again gives
      back the category filter, with the subcategory filter cleared and
      nothing open. */
  lemma MobileOpenThenClose(f: Filters, open: Option<string>, cat: string)
    requires cat != "" && open != Some(cat) && cat !in f.category
    ensures var r := MobileCategoryToggle(f, open, cat);
            MobileCategoryToggle(r.0, r.1, cat) == (f.(subCategory := []), None)
  {
    var g := ToggleFilter(f, CategoryKey, cat);
    assert g == f.(category := f.category + [cat]);
    Seqs.FilterAppend(f.category, [cat], Other(cat));
    Seqs.FilterAll(f.category, Other(cat));
    assert Seqs.Filter([cat], Other(cat)) == [];
    assert Seqs.Filter(g.category, Other(cat)) == f.category;
  }

  // ---------------------------------------------------------------------
  // Filtering and sorting

  predicate SomeSub(p: Product, ok: string -> bool) {
    exists i :: 0 <= i < |p.subCategories| && ok(CleanSubCategory(p.subCategories[i]))
  }

  /** The search test: the lower-cased query occurs in the lower-cased name,
      category, a normalised subcategory or the description. */
  predicate MatchesSearch(p: Product, query: string) {
    var q := ToLower(query);
    || Contains(ToLower(p.name), q)
    || Contains(ToLower(p.category), q)
    || SomeSub(p, sub => Contains(ToLower(sub), q))
    || (p.description.Some? && p.description.value != "" && Contains(ToLower(p.description.value), q))
  }

  /** `product.rating || 4`: a missing or zero rating counts as 4. */
  function RatingOrFour(p: Product): real {
    if p.rating.None? || p.rating.value == 0.0 then 4.0 else p.rating.value
  }

  /** `product.rating || 0` */
  function RatingOrZero(p: Product): real {
    if p.rating.None? then 0.0 else p.rating.value
  }

  /** The rating threshold, `activeFilters.rating`, read as a number. */
  function MinRating(f: Filters): real { f.rating.GetOr(0.0) }

  predicate SearchActive(f: Filters) { f.searchQuery != "" }
  predicate RatingActive(f: Filters) { f.rating.Some? && f.rating.value != 0.0 }

  /** Every test the filter effect applies, each only when its filter is set. */
  predicate Admits(f: Filters, p: Product) {
    TextAdmits(f, p) && RangeAdmits(f, p)
  }

  /** The search, category and subcategory tests. */
  predicate TextAdmits(f: Filters, p: Product) {
    && (SearchActive(f) ==> MatchesSearch(p, f.searchQuery))
    && (|f.category| > 0 ==> p.category in f.category)
    && (|f.subCategory| > 0 ==> SomeSub(p, sub => sub in f.subCategory))
  }

  /** The price, rating and availability tests. */
  predicate RangeAdmits(f: Filters, p: Product) {
    && f.priceLow <= p.price <= f.priceHigh
    && (RatingActive(f) ==> RatingOrFour(p) >= MinRating(f))
    && (f.availability == Some("in-stock") ==> p.inStock != Some(false))
    && (f.availability == Some("bestseller") ==> p.bestseller)
  }

  /** One `if (...) result = result.filter(...)` step: keeps the order and
      drops exactly the elements failing an active test. */
  function Stage(s: seq<Product>, active: bool, test: Product -> bool): (r: seq<Product>)
    ensures Seqs.IsSubseq(r, s)
    ensures forall p :: p in r <==> p in s && (active ==> test(p))
  {
    if active then Seqs.Filter(s, test)
    else
      Seqs.FilterAll(s, (p: Product) => true);
      s
  }

  /** The test a stage applies: its own when active, none otherwise. */
  function Guard(active: bool, test: Product -> bool): Product -> bool {
    (p: Product) => active ==> test(p)
  }

  /** A stage run on what the test `pre` kept is one filter by `pre` and the
      stage's test together. */
  lemma StageStep(base: seq<Product>, pre: Product -> bool, s: seq<Product>,
                  active: bool, test: Product -> bool, post: Product -> bool)
    requires s == Seqs.Filter(base, pre)
    requires forall p :: post(p) == (pre(p) && (active ==> test(p)))
    ensures Stage(s, active, test) == Seqs.Filter(base, post)
  {
    Seqs.FilterFilter(base, pre, Guard(active, test), post);
    if active {
      Seqs.FilterSame(s, test, Guard(active, test));
    } else {
      Seqs.FilterAll(s, Guard(active, test));
    }
  }

  function SearchTest(f: Filters): Product -> bool {
    (p: Product) => MatchesSearch(p, f.searchQuery)
  }

  function CategoryTest(f: Filters): Product -> bool {
    (p: Product) => p.category in f.category
  }

  function SubCategoryTest(f: Filters): Product -> bool {
    (p: Product) => SomeSub(p, sub => sub in f.subCategory)
  }

  function PriceTest(f: Filters): Product -> bool {
    (p: Product) => f.priceLow <= p.price <= f.priceHigh
  }

  function RatingTest(f: Filters): Product -> bool {
    (p: Product) => RatingOrFour(p) >= MinRating(f)
  }

  function InStockTest(f: Filters): Product -> bool {
    (p: Product) => p.inStock != Some(false)
  }

  function BestsellerTest(f: Filters): Product -> bool {
    (p: Product) => p.bestseller
  }

  /** The filtering half of the effect, as written: the search, category,
      subcategory, price, rating and availability filters in a row. The
      chain keeps exactly what a single filter by all the tests at once
      keeps, duplicates and order included. */
  function ApplyFilters(products: seq<Product>, f: Filters): (r: seq<Product>)
    ensures Seqs.IsSubseq(r, products)
    ensures forall p :: p in r <==> p in products && Admits(f, p)
    ensures r == Seqs.Filter(products, (p: Product) => Admits(f, p))
  {
    var s3 := TextStages(products, f);
    var s7 := RangeStages(s3, f);
    Seqs.SubseqTransitive(s7, s3, products);
    Seqs.FilterFilter(products, (p: Product) => TextAdmits(f, p), (p: Product) => RangeAdmits(f, p),
                      (p: Product) => Admits(f, p));
    s7
  }

  function TextStages(products: seq<Product>, f: Filters): (r: seq<Product>)
    ensures Seqs.IsSubseq(r, products)
    ensures forall p :: p in r <==> p in products && TextAdmits(f, p)
    ensures r == Seqs.Filter(products, (p: Product) => TextAdmits(f, p))
  {
    var s1 := Stage(products, SearchActive(f), SearchTest(f));
    var s2 := Stage(s1, |f.category| > 0, CategoryTest(f));
    var s3 := Stage(s2, |f.subCategory| > 0, SubCategoryTest(f));
    Seqs.SubseqTransitive(s2, s1, products);
    Seqs.SubseqTransitive(s3, s2, products);
    TextChain(products, f);
    s3
  }

  lemma TextChain(products: seq<Product>, f: Filters)
    ensures Stage(Stage(Stage(products, SearchActive(f), SearchTest(f)), |f.category| > 0, CategoryTest(f)),
                  |f.subCategory| > 0, SubCategoryTest(f))
         == Seqs.Filter(products, (p: Product) => TextAdmits(f, p))
  {
    var all := (p: Product) => true;
    var c1 := Guard(SearchActive(f), SearchTest(f));
    var c2 := (p: Product) => c1(p) && (|f.category| > 0 ==> CategoryTest(f)(p));
    Seqs.FilterAll(products, all);
    StageStep(products, all, products, SearchActive(f), SearchTest(f), c1);
    var s1 := Stage(products, SearchActive(f), SearchTest(f));
    StageStep(products, c1, s1, |f.category| > 0, CategoryTest(f), c2);
    var s2 := Stage(s1, |f.category| > 0, CategoryTest(f));
    StageStep(products, c2, s2, |f.subCategory| > 0, SubCategoryTest(f), (p: Product) => TextAdmits(f, p));
  }

  function RangeStages(s3: seq<Product>, f: Filters): (r: seq<Product>)
    ensures Seqs.IsSubseq(r, s3)
    ensures forall p :: p in r <==> p in s3 && RangeAdmits(f, p)
    ensures r == Seqs.Filter(s3, (p: Product) => RangeAdmits(f, p))
  {
    var s4 := Stage(s3, true, PriceTest(f));
    var s5 := Stage(s4, RatingActive(f), RatingTest(f));
    var s6 := Stage(s5, f.availability == Some("in-stock"), InStockTest(f));
    var s7 := Stage(s6, f.availability == Some("bestseller"), BestsellerTest(f));
    Seqs.SubseqTransitive(s5, s4, s3);
    Seqs.SubseqTransitive(s6, s5, s3);
    Seqs.SubseqTransitive(s7, s6, s3);
    RangeChain(s3, f);
    s7
  }

  lemma RangeChain(s3: seq<Product>, f: Filters)
    ensures Stage(Stage(Stage(Stage(s3, true, PriceTest(f)), RatingActive(f), RatingTest(f)),
                        f.availability == Some("in-stock"), InStockTest(f)),
                  f.availability == Some("bestseller"), BestsellerTest(f))
         == Seqs.Filter(s3, (p: Product) => RangeAdmits(f, p))
  {
    var all := (p: Product) => true;
    var c4 := Guard(true, PriceTest(f));
    var c5 := (p: Product) => c4(p) && (RatingActive(f) ==> RatingTest(f)(p));
    var c6 := (p: Product) => c5(p) && (f.availability == Some("in-stock") ==> InStockTest(f)(p));
    Seqs.FilterAll(s3, all);
    StageStep(s3, all, s3, true, PriceTest(f), c4);
    var s4 := Stage(s3, true, PriceTest(f));
    StageStep(s3, c4, s4, RatingActive(f), RatingTest(f), c5);
    var s5 := Stage(s4, RatingActive(f), RatingTest(f));
    StageStep(s3, c5, s5, f.availability == Some("in-stock"), InStockTest(f), c6);
    var s6 := Stage(s5, f.availability == Some("in-stock"), InStockTest(f));
    StageStep(s3, c6, s6, f.availability == Some("bestseller"), BestsellerTest(f), (p: Product) => RangeAdmits(f, p));
  }

  /** The price-high comparator as written, `(a, b) => b.price - b.price`:
      it compares `b` with itself, so it is 0 for every pair. */
  function PriceHighAsWritten(a: Product, b: Product): real {
    b.price - b.price
  }

  /** The stable sort with the comparator as written: since every comparison
      is 0, the sort is the key sort with one key for all products. */
  function SortPriceHighAsWritten(s: seq<Product>): (r: seq<Product>)
    ensures multiset(r) == multiset(s)
  {
    Seqs.SortBy(s, (p: Product) => 0.0)
  }

  /** Choosing "price-high" therefore leaves the order as it was: the
      cheapest product may well be listed first. */
  lemma PriceHighAsWrittenKeepsOrder(s: seq<Product>)
    ensures SortPriceHighAsWritten(s) == s
  {
    Seqs.SortBySorted(s, (p: Product) => 0.0);
  }

  /** "price-high" as evidently intended, `(a, b) => b.price - a.price`:
      most expensive first. */
  function SortPriceHigh(s: seq<Product>): (r: seq<Product>)
    ensures multiset(r) == multiset(s)
    ensures forall i, j :: 0 <= i < j < |r| ==> r[i].price >= r[j].price
  {
    var r := Seqs.SortBy(s, (p: Product) => -p.price);
    assert forall i, j :: 0 <= i < j < |r| ==> -r[i].price <= -r[j].price;
    r
  }

  /** Two listed products with different prices in ascending order show the
      difference: the intended sort swaps them, the written one does not. */
  lemma PriceHighCounterexample(cheap: Product, dear: Product)
    requires cheap.price < dear.price
    ensures SortPriceHighAsWritten([cheap, dear]) == [cheap, dear]
    ensures SortPriceHigh([cheap, dear]) == [dear, cheap]
  {
    PriceHighAsWrittenKeepsOrder([cheap, dear]);
    var r := SortPriceHigh([cheap, dear]);
    assert multiset(r) == multiset{cheap, dear};
    assert r[0] in multiset(r) && r[1] in multiset(r);
    assert cheap in multiset(r) && dear in multiset(r);
  }

  /** Some normalised subcategory of `p` equals `name`. */
  predicate HasCleanSub(p: Product, name: string) {
    SomeSub(p, sub => sub == name)
  }

  /** The `switch (sortOption)` of the effect, as written: "price-high"
      uses the zero comparator and so keeps the filtered order. Any value not
      named below leaves the order as filtered too. */
  function Arrange(s: seq<Product>, sortOption: string): (r: seq<Product>)
    ensures sortOption in {"price-low", "price-high", "newest", "rating"} ==> multiset(r) == multiset(s)
    ensures sortOption == "price-low" ==> forall i, j :: 0 <= i < j < |r| ==> r[i].price <= r[j].price
    ensures sortOption == "price-high" ==> r == s
    ensures sortOption == "newest" ==> forall i, j :: 0 <= i < j < |r| ==> r[i].date >= r[j].date
    ensures sortOption == "rating" ==> forall i, j :: 0 <= i < j < |r| ==> RatingOrZero(r[i]) >= RatingOrZero(r[j])
    ensures sortOption == "new-books" ==> r == Seqs.Filter(s, (p: Product) => HasCleanSub(p, "New Books"))
    ensures sortOption == "old-books" ==> r == Seqs.Filter(s, (p: Product) => HasCleanSub(p, "Old Books"))
    ensures sortOption !in {"price-low", "price-high", "newest", "rating", "new-books", "old-books"} ==> r == s
  {
    if sortOption == "price-low" then
      Seqs.SortBy(s, (p: Product) => p.price)
    else if sortOption == "price-high" then
      PriceHighAsWrittenKeepsOrder(s);
      SortPriceHighAsWritten(s)
    else if sortOption == "newest" then
      var r := Seqs.SortBy(s, (p: Product) => -(p.date as real));
      assert forall i, j :: 0 <= i < j < |r| ==> -(r[i].date as real) <= -(r[j].date as real);
      r
    else if sortOption == "rating" then
      var r := Seqs.SortBy(s, (p: Product) => -RatingOrZero(p));
      assert forall i, j :: 0 <= i < j < |r| ==> -RatingOrZero(r[i]) <= -RatingOrZero(r[j]);
      r
    else if sortOption == "new-books" then
      Seqs.Filter(s, (p: Product) => HasCleanSub(p, "New Books"))
    else if sortOption == "old-books" then
      Seqs.Filter(s, (p: Product) => HasCleanSub(p, "Old Books"))
    else s
  }

  /** The switch with "price-high" as evidently intended: most expensive
      first; every other option as written. */
  function ArrangeIntended(s: seq<Product>, sortOption: string): (r: seq<Product>)
    ensures sortOption == "price-high" ==> multiset(r) == multiset(s)
    ensures sortOption == "price-high" ==> forall i, j :: 0 <= i < j < |r| ==> r[i].price >= r[j].price
    ensures sortOption != "price-high" ==> r == Arrange(s, sortOption)
  {
    if sortOption == "price-high" then SortPriceHigh(s) else Arrange(s, sortOption)
  }

  /** The list the page shows: every product shown passes every active filter
      and comes from the catalogue; "price-low", "newest" and "rating"
      reorder the filtered products, and every other option, "price-high"
      included, keeps catalogue order. */
  function Visible(products: seq<Product>, f: Filters, sortOption: string): (r: seq<Product>)
    ensures forall p :: p in r ==> p in products && Admits(f, p)
    ensures sortOption in {"price-low", "price-high", "newest", "rating", "featured"} ==>
      forall p :: p in r <==> p in products && Admits(f, p)
    ensures sortOption !in {"price-low", "newest", "rating"} ==> Seqs.IsSubseq(r, products)
    ensures sortOption == "price-high" ==> r == ApplyFilters(products, f)
  {
    var filtered := ApplyFilters(products, f);
    ArrangeKeepsMembers(filtered, products, sortOption);
    Arrange(filtered, sortOption)
  }

  /** Every arrangement draws its elements from its input; the ones that do
      not reorder keep the input's order. */
  lemma ArrangeKeepsMembers(s: seq<Product>, products: seq<Product>, sortOption: string)
    requires Seqs.IsSubseq(s, products)
    ensures forall p :: p in Arrange(s, sortOption) ==> p in s
    ensures sortOption in {"price-low", "price-high", "newest", "rating"} ==>
      forall p :: p in s ==> p in Arrange(s, sortOption)
    ensures sortOption !in {"price-low", "newest", "rating"} ==>
      Seqs.IsSubseq(Arrange(s, sortOption), products)
  {
    var r := Arrange(s, sortOption);
    if sortOption in {"price-low", "newest", "rating"} {
      forall p | p in r ensures p in s { assert p in multiset(r); }
      forall p | p in s ensures p in r { assert p in multiset(s); }
    } else if sortOption in {"new-books", "old-books"} {
      Seqs.SubseqTransitive(r, s, products);
    }
  }

  /** "new-books" keeps exactly the filtered products having a subcategory
      that normalises to "New Books". */
  lemma NewBooksExactly(products: seq<Product>, f: Filters, p: Product)
    ensures p in Visible(products, f, "new-books") <==>
      p in products && Admits(f, p) && HasCleanSub(p, "New Books")
  {
  }
}

=== FILE: complain.dfy ===
/** The complaint form (`Complain`): validation, submission and field
    edits. */
module ComplainPage {
  import opened Wrappers
  import opened JsText

  datatype Field = Subject | Message

  datatype Form = Form(subject: string, message: string, errors: set<Field>, isSubmitting: bool)

  /** `validateForm()`: a field is in error when it is blank once trimmed. */
  function Validate(subject: string, message: string): (e: set<Field>)
    ensures Subject in e <==> Blank(subject)
    ensures Message in e <==> Blank(message)
  {
    (if Blank(subject) then {Subject} else {}) + (if Blank(message) then {Message} else {})
  }

  /** `handleSubmit`: an invalid form records its errors and keeps its text
      without opening the mail link; a valid one opens the link with the
      subject and message and clears both. */
  function Submit(f: Form): (r: (Form, Option<(string, string)>))
    ensures r.1.Some? <==> !Blank(f.subject) && !Blank(f.message)
    ensures r.1.Some? ==> r.1.value == (f.subject, f.message)
    ensures r.1.None? ==> r.0.subject == f.subject && r.0.message == f.message
    ensures r.1.Some? ==> r.0.subject == "" && r.0.message == ""
    ensures r.0.errors == Validate(f.subject, f.message)
    ensures r.1.Some? ==> !r.0.isSubmitting
    ensures r.1.None? ==> r.0.isSubmitting == f.isSubmitting
  {
    var e := Validate(f.subject, f.message);
    if e != {} then (f.(errors := e), None)
    else (Form("", "", e, false), Some((f.subject, f.message)))
  }

  /** A cleared form submitted again is refused on both fields. */
  lemma ResubmitAfterSuccessRefused(f: Form)
    requires Submit(f).1.Some?
    ensures Submit(Submit(f).0).1.None?
    ensures Submit(Submit(f).0).0.errors == {Subject, Message}
  {
  }

  /** `handleInputChange`: the field named "subject" sets the subject, any
      other name the message; only the edited field's error is cleared. */
  function InputChange(f: Form, name: string, value: string): (r: Form)
    ensures name == "subject" ==> r.subject == value && r.message == f.message
    ensures name != "subject" ==> r.message == value && r.subject == f.subject
    ensures name == "subject" ==> r.errors == f.errors - {Subject}
    ensures name == "message" ==> r.errors == f.errors - {Message}
    ensures name != "subject" && name != "message" ==> r.errors == f.errors
  {
    var cleared := if name == "subject" then {Subject} else if name == "message" then {Message} else {};
    if name == "subject" then f.(subject := value, errors := f.errors - cleared)
    else f.(message := value, errors := f.errors - cleared)
  }
}

=== FILE: daily_records.dfy ===
/** The rider's record list for the current billing cycle
    (`DailyRecords`): the quality and day-off filters, the detail dialog and
    the edit form. */
module DailyRecordsPage {
  import opened Wrappers
  import opened JsNumber
  import opened Rider
  import opened Seqs

  // ---------------------------------------------------------------------
  // Filters

  predicate IsOff(r: DayRecord) { r.workStatus == "Off" }

  /** `activeFilters.includes(record.day_quality)`: a record without a
      rating never matches. */
  predicate QualityIn(r: DayRecord, active: seq<string>) {
    r.dayQuality.Some? && r.dayQuality.value in active
  }

  /** The list shown: days off only while that switch is on, otherwise the
      records rated with one of the active qualities, or all of them when
      none is active. */
  function Displayed(records: seq<DayRecord>, showDaysOff: bool, active: seq<string>): (r: seq<DayRecord>)
    ensures IsSubseq(r, records)
    ensures showDaysOff ==> forall x :: x in r <==> x in records && IsOff(x)
    ensures !showDaysOff && active == [] ==> r == records
    ensures !showDaysOff && active != [] ==> forall x :: x in r <==> x in records && QualityIn(x, active)
  {
    if showDaysOff then Filter(records, IsOff)
    else if active == [] then SubseqRefl(records); records
    else Filter(records, (x: DayRecord) => QualityIn(x, active))
  }

  /** `toggleFilter(quality)`: ignored while days off are shown; otherwise
      the quality is removed when active and appended when not. */
  function ToggleFilter(active: seq<string>, showDaysOff: bool, quality: string): (r: seq<string>)
    ensures showDaysOff ==> r == active
    ensures !showDaysOff ==> (quality in r <==> quality !in active)
    ensures forall q :: q != quality ==> (q in r <==> q in active)
  {
    if showDaysOff then active
    else if quality in active then Filter(active, (q: string) => q != quality)
    else active + [quality]
  }

  /** Toggling the same quality twice gives back the same set of active
      qualities. */
  lemma ToggleTwice(active: seq<string>, quality: string)
    ensures forall q :: q in ToggleFilter(ToggleFilter(active, false, quality), false, quality) <==> q in active
  {
  }

  /** `toggleDaysOff()` and `resetFilters()`: both clear the active
      qualities; the first flips the day-off switch, the second turns it
      off. */
  function ToggleDaysOff(showDaysOff: bool, active: seq<string>): (r: (bool, seq<string>))
    ensures r.0 == !showDaysOff && r.1 == []
  {
    (!showDaysOff, [])
  }

  function ResetFilters(showDaysOff: bool, active: seq<string>): (r: (bool, seq<string>))
    ensures r.0 == false && r.1 == []
  {
    (false, [])
  }

  /** After a reset the whole cycle is listed. */
  lemma ResetShowsAll(records: seq<DayRecord>, showDaysOff: bool, active: seq<string>)
    ensures var (s, a) := ResetFilters(showDaysOff, active); Displayed(records, s, a) == records
  {
  }

  // ---------------------------------------------------------------------
  // The detail dialog and its edit form

  /** The edit form: the amounts are numbers here. */
  datatype Form = Form(workStatus: string, deliveries: real, tips: real, expenses: real, dayQuality: string)

  datatype Field = WorkStatus | Deliveries | Tips | Expenses | DayQuality

  /** The dialog: the record opened, the form, whether it is editable, and
      the fields in error. */
  datatype Dialog = Dialog(selected: Option<DayRecord>, form: Form, isEditing: bool, errors: set<Field>)

  /** `record.day_quality || "Average"` */
  function QualityOrAverage(q: Option<string>): (s: string)
    ensures q.Some? && q.value != "" ==> s == q.value
    ensures q.None? || q.value == "" ==> s == "Average"
  {
    if q.Some? && q.value != "" then q.value else "Average"
  }

  function FormOf(r: DayRecord): Form {
    Form(r.workStatus, r.deliveries, r.tips, r.expenses, QualityOrAverage(r.dayQuality))
  }

  /** `handleViewDetails(record)` and `handleEdit(record)`. */
  function Open(r: DayRecord, editing: bool): (d: Dialog)
    ensures d.selected == Some(r) && d.isEditing == editing && d.errors == {}
    ensures d.form.workStatus == r.workStatus && d.form.deliveries == r.deliveries
         && d.form.tips == r.tips && d.form.expenses == r.expenses
    ensures r.dayQuality.Some? && r.dayQuality.value != "" ==> d.form.dayQuality == r.dayQuality.value
    ensures r.dayQuality.None? ==> d.form.dayQuality == "Average"
  {
    Dialog(Some(r), FormOf(r), editing, {})
  }

  /** Viewing and editing a record fill the dialog alike; only whether it
      is editable differs. */
  lemma ViewAndEditDifferOnlyInEditing(r: DayRecord)
    ensures Open(r, true) == Open(r, false).(isEditing := true)
  {
  }

  /** `handleCloseDetails()` */
  function Close(d: Dialog): (r: Dialog)
    ensures r.selected.None? && !r.isEditing && r.errors == {} && r.form == d.form
  {
    d.(selected := None, isEditing := false, errors := {})
  }

  /** `handleInputChange`: the status and the rating take the text as it
      is; an amount takes `Number(value) || 0`. The field's error is
      cleared. */
  function InputChange(d: Dialog, k: Field, value: string): (r: Dialog)
    ensures r.errors == d.errors - {k}
    ensures r.selected == d.selected && r.isEditing == d.isEditing
    ensures k == Deliveries ==> r.form == d.form.(deliveries := NumberOrZero(value))
    ensures k == Tips ==> r.form == d.form.(tips := NumberOrZero(value))
    ensures k == Expenses ==> r.form == d.form.(expenses := NumberOrZero(value))
    ensures k == WorkStatus ==> r.form == d.form.(workStatus := value)
    ensures k == DayQuality ==> r.form == d.form.(dayQuality := value)
  {
    var f := match k
      case WorkStatus => d.form.(workStatus := value)
      case Deliveries => d.form.(deliveries := NumberOrZero(value))
      case Tips => d.form.(tips := NumberOrZero(value))
      case Expenses => d.form.(expenses := NumberOrZero(value))
      case DayQuality => d.form.(dayQuality := value);
    d.(form := f, errors := d.errors - {k})
  }

  /** An amount that is no number at all is stored as 0, never NaN: for
      instance "hello". A number input delivers no such text, so on the
      page this takes a value set from a script. */
  lemma TextBecomesZero(d: Dialog, value: string)
    requires exists i :: 0 <= i < |JsText.Trim(value)| && ForeignLetter(JsText.Trim(value)[i])
    ensures InputChange(d, Tips, value).form.tips == 0.0
  {
    LetterIsNaN(value);
  }

  /** An exponent a number input may hold is read as its value: "1e3" is
      stored as 1000. */
  lemma ExponentStored(d: Dialog)
    ensures InputChange(d, Tips, "1e3").form.tips == 1000.0
  {
    OneEThree();
  }

  /** The test `validateForm()` applies to each field. */
  predicate Fails(f: Form, k: Field) {
    match k
    case WorkStatus => f.workStatus != "On" && f.workStatus != "Off"
    case Deliveries => f.workStatus == "On" && f.deliveries < 0.0
    case Tips => f.workStatus == "On" && f.tips < 0.0
    case Expenses => f.workStatus == "On" && f.expenses < 0.0
    case DayQuality => f.workStatus == "On" && f.dayQuality !in Qualities
  }

  const AllFields: set<Field> := {WorkStatus, Deliveries, Tips, Expenses, DayQuality}

  /** `validateForm()`: the fields in error. Unlike the dashboard form, the
      status must be "On" or "Off", and a day off is never in error. */
  function Validate(f: Form): (e: set<Field>)
    ensures forall k :: k in e <==> Fails(f, k)
    ensures e == {} ==> f.workStatus == "On" || f.workStatus == "Off"
    ensures f.workStatus == "Off" ==> e == {}
  {
    var e := set k | k in AllFields && Fails(f, k);
    assert Fails(f, WorkStatus) ==> WorkStatus in e;
    e
  }

  /** The update sent: on a day off the amounts are 0 and the rating
      `null`. */
  datatype Update = Update(date: Date, workStatus: string, deliveries: real, tips: real,
                           expenses: real, dayQuality: Option<string>)

  function MakeUpdate(selected: DayRecord, f: Form): (u: Update)
    ensures u.date == selected.date && u.workStatus == f.workStatus
    ensures f.workStatus == "Off" ==> u.deliveries == 0.0 && u.tips == 0.0 && u.expenses == 0.0 && u.dayQuality.None?
    ensures f.workStatus != "Off" ==>
              u.deliveries == f.deliveries && u.tips == f.tips && u.expenses == f.expenses
              && u.dayQuality == Some(f.dayQuality)
  {
    if f.workStatus == "Off" then Update(selected.date, f.workStatus, 0.0, 0.0, 0.0, None)
    else Update(selected.date, f.workStatus, f.deliveries, f.tips, f.expenses, Some(f.dayQuality))
  }

  datatype Submission = Invalid(errors: set<Field>) | Send(update: Update)

  /** `handleSubmit`: an update is sent only for a form without errors. */
  function Submit(d: Dialog): (r: Submission)
    requires d.selected.Some?
    ensures r.Invalid? <==> Validate(d.form) != {}
    ensures r.Invalid? ==> r.errors == Validate(d.form)
    ensures r.Send? ==> r.update == MakeUpdate(d.selected.value, d.form)
  {
    var e := Validate(d.form);
    if e != {} then Invalid(e) else Send(MakeUpdate(d.selected.value, d.form))
  }

  /** What an accepted edit sends is a well-formed record: "On" or "Off",
      no negative amount, and a known rating exactly on a working day. */
  lemma AcceptedUpdateIsWellFormed(d: Dialog)
    requires d.selected.Some? && Submit(d).Send?
    ensures var u := Submit(d).update;
      && (u.workStatus == "On" || u.workStatus == "Off")
      && u.deliveries >= 0.0 && u.tips >= 0.0 && u.expenses >= 0.0
      && (u.workStatus == "On" <==> u.dayQuality.Some?)
      && (u.dayQuality.Some? ==> u.dayQuality.value in Qualities)
  {
    var f := d.form;
    assert !Fails(f, WorkStatus) && !Fails(f, Deliveries) && !Fails(f, Tips);
    assert !Fails(f, Expenses) && !Fails(f, DayQuality);
  }
}

=== FILE: dashboard.dfy ===
/** The rider dashboard (`Dashboard`): the daily entry form, the salary
    with its days-off penalty, and the chart data. */
module DashboardPage {
  import opened Wrappers
  import opened JsText
  import opened JsNumber
  import opened Rider

  // ---------------------------------------------------------------------
  // The daily entry form

  /** The form as the inputs hold it: numbers are still strings. */
  datatype Form = Form(
    date: string, workStatus: string, deliveries: string, tips: string,
    expenses: string, dayQuality: Option<string>)

  datatype Field = DateField | WorkStatus | Deliveries | Tips | Expenses | DayQuality

  /** `handleChange`: the field takes the value; choosing a work status also
      sets the rating, to "Average" for "On" and to `null` otherwise. The
      edited field's error is cleared. */
  function Change(f: Form, errors: set<Field>, k: Field, value: string): (r: (Form, set<Field>))
    ensures r.1 == errors - {k}
    ensures k == WorkStatus ==> r.0 == f.(workStatus := value,
                                         dayQuality := if value == "On" then Some("Average") else None)
    ensures k == DayQuality ==> r.0 == f.(dayQuality := Some(value))
    ensures k == DateField ==> r.0 == f.(date := value)
    ensures k == Deliveries ==> r.0 == f.(deliveries := value)
    ensures k == Tips ==> r.0 == f.(tips := value)
    ensures k == Expenses ==> r.0 == f.(expenses := value)
    ensures k != WorkStatus ==> Value(r.0, k) == Some(value)
    ensures forall j :: j != k && !(k == WorkStatus && j == DayQuality) ==> Value(r.0, j) == Value(f, j)
  {
    var g := match k
      case DateField => f.(date := value)
      case WorkStatus => f.(workStatus := value, dayQuality := if value == "On" then Some("Average") else None)
      case Deliveries => f.(deliveries := value)
      case Tips => f.(tips := value)
      case Expenses => f.(expenses := value)
      case DayQuality => f.(dayQuality := Some(value));
    (g, errors - {k})
  }

  /** Editing a field other than the work status twice keeps only the last
      value. */
  lemma ChangeLastWins(f: Form, errors: set<Field>, k: Field, a: string, b: string)
    requires k != WorkStatus
    ensures Change(Change(f, errors, k, a).0, errors, k, b) == Change(f, errors, k, b)
  {
  }

  /** The value a field holds, `null` being absent. */
  function Value(f: Form, k: Field): Option<string> {
    match k
    case DateField => Some(f.date)
    case WorkStatus => Some(f.workStatus)
    case Deliveries => Some(f.deliveries)
    case Tips => Some(f.tips)
    case Expenses => Some(f.expenses)
    case DayQuality => f.dayQuality
  }

  /** `!value || Number(value) < 0`: missing, or a number below zero. A
      string that is not a number is NaN, which is not below zero. */
  predicate BadAmount(value: string) {
    value == "" || (ToNumber(value).Finite? && ToNumber(value).value < 0.0)
  }

  /** The test `validateForm()` applies to each field. */
  predicate Fails(f: Form, k: Field) {
    match k
    case DateField => f.date == ""
    case WorkStatus => f.workStatus == ""
    case Deliveries => f.workStatus == "On" && BadAmount(f.deliveries)
    case Tips => f.workStatus == "On" && BadAmount(f.tips)
    case Expenses => f.workStatus == "On" && BadAmount(f.expenses)
    case DayQuality => f.workStatus == "On" && (f.dayQuality.None? || f.dayQuality.value !in Qualities)
  }

  const AllFields: set<Field> := {DateField, WorkStatus, Deliveries, Tips, Expenses, DayQuality}

  /** `validateForm()`: the fields in error. Only a status of exactly "On"
      brings the amounts and the rating into play, so any other non-empty
      status, "Off" or not, passes with a date. */
  function Validate(f: Form): (e: set<Field>)
    ensures forall k :: k in e <==> Fails(f, k)
    ensures f.workStatus != "On" ==> e <= {DateField, WorkStatus}
    ensures f.date != "" && f.workStatus != "" && f.workStatus != "On" ==> e == {}
  {
    set k | k in AllFields && Fails(f, k)
  }

  /** A day off is checked for its date and status only. */
  lemma DayOffChecksDateAndStatus(f: Form)
    requires f.workStatus == "Off"
    ensures Validate(f) == (if f.date == "" then {DateField} else {})
  {
    var e := Validate(f);
    assert WorkStatus !in e && Deliveries !in e && Tips !in e && Expenses !in e && DayQuality !in e;
    if f.date == "" {
      assert DateField in e;
      forall k | k in e ensures k == DateField {}
    } else {
      forall k | k in e ensures false {}
    }
  }

  /** An empty amount is refused, but text that is no number at all passes
      the check: for instance "hello". A number input delivers no such
      text, so on the page this takes a value set from a script. */
  lemma TextPassesAmountCheck(value: string)
    requires exists i :: 0 <= i < |Trim(value)| && ForeignLetter(Trim(value)[i])
    ensures !BadAmount(value)
  {
    LetterIsNaN(value);
    var i :| 0 <= i < |Trim(value)| && ForeignLetter(Trim(value)[i]);
    assert |value| > 0;
  }

  /** A number input may hold an exponent: "-1e3" is below zero and is
      refused, while "1e3" passes. */
  lemma ExponentAmounts()
    ensures BadAmount("-1e3")
    ensures !BadAmount("1e3")
  {
    MinusOneEThree();
    OneEThree();
  }

  /** The record sent: the amounts are `Number()` of the inputs on a working
      day, and 0 on a day off. */
  datatype Submission = Submission(
    date: string, workStatus: string, deliveries: Num, tips: Num, expenses: Num,
    dayQuality: Option<string>)

  function Submit(f: Form): (s: Submission)
    ensures f.workStatus == "On" ==>
              s.deliveries == ToNumber(f.deliveries) && s.tips == ToNumber(f.tips) && s.expenses == ToNumber(f.expenses)
    ensures f.workStatus != "On" ==>
              s.deliveries == Finite(0.0) && s.tips == Finite(0.0) && s.expenses == Finite(0.0)
    ensures s.date == f.date && s.workStatus == f.workStatus && s.dayQuality == f.dayQuality
  {
    var on := f.workStatus == "On";
    Submission(f.date, f.workStatus,
               if on then ToNumber(f.deliveries) else Finite(0.0),
               if on then ToNumber(f.tips) else Finite(0.0),
               if on then ToNumber(f.expenses) else Finite(0.0),
               f.dayQuality)
  }

  // ---------------------------------------------------------------------
  // Salary

  /** The monthly fixed salary: 37000 for a full-timer, 18500 otherwise. */
  function BaseSalary(employmentType: string): (b: int)
    ensures employmentType == "FullTimer" ==> b == 37000
    ensures employmentType != "FullTimer" ==> b == 18500
  {
    if employmentType == "FullTimer" then 37000 else 18500
  }

  /** The deduction per day off beyond the fourth: 1170 or 585. */
  function PenaltyPerDay(employmentType: string): (p: int)
    ensures p == 1170 || p == 585
    ensures BaseSalary(employmentType) == 37000 <==> p == 1170
  {
    if employmentType == "FullTimer" then 1170 else 585
  }

  /** The monthly summary the server returns. */
  datatype Summary = Summary(daysOff: int, totalDeliveries: real, totalTips: real)

  /** The penalty deducted: `(days_off - 4) * penalty` beyond four days off. */
  function Deduction(employmentType: string, summary: Option<Summary>): (d: int)
    ensures d >= 0
    ensures summary.None? || summary.value.daysOff <= 4 ==> d == 0
    ensures summary.Some? && summary.value.daysOff > 4 ==>
      d == (summary.value.daysOff - 4) * PenaltyPerDay(employmentType)
    ensures summary.Some? && summary.value.daysOff > 4 ==>
      d == (summary.value.daysOff - 4) * (if employmentType == "FullTimer" then 1170 else 585)
  {
    if summary.Some? && summary.value.daysOff > 4
    then (summary.value.daysOff - 4) * PenaltyPerDay(employmentType)
    else 0
  }

  /** `adjustedFixedSalary` */
  function AdjustedSalary(employmentType: string, summary: Option<Summary>): (s: int)
    ensures s <= BaseSalary(employmentType)
    ensures s == BaseSalary(employmentType) - Deduction(employmentType, summary)
  {
    BaseSalary(employmentType) - Deduction(employmentType, summary)
  }

  /** More days off never raise the salary. */
  lemma SalaryNonIncreasing(employmentType: string, a: Summary, b: Summary)
    requires a.daysOff <= b.daysOff
    ensures AdjustedSalary(employmentType, Some(b)) <= AdjustedSalary(employmentType, Some(a))
  {
    var p := PenaltyPerDay(employmentType);
    if a.daysOff > 4 {
      assert (b.daysOff - 4) * p >= (a.daysOff - 4) * p;
    }
  }

  /** Nothing stops the salary from going below any given amount, zero
      included. */
  lemma SalaryHasNoFloor(employmentType: string, floor: int) returns (daysOff: int)
    ensures AdjustedSalary(employmentType, Some(Summary(daysOff, 0.0, 0.0))) < floor
  {
    var base := BaseSalary(employmentType);
    var extra := if base - floor + 1 > 0 then base - floor + 1 else 1;
    daysOff := 4 + extra;
    var p := PenaltyPerDay(employmentType);
    assert extra * p >= extra;
  }

  // ---------------------------------------------------------------------
  // Chart data

  /** Which slices the pie chart includes. */
  datatype Filters = Filters(fixedSalary: bool, deliveries: bool, tips: bool)

  datatype FilterKey = FixedSalaryKey | DeliveriesKey | TipsKey

  function Get(f: Filters, k: FilterKey): bool {
    match k
    case FixedSalaryKey => f.fixedSalary
    case DeliveriesKey => f.deliveries
    case TipsKey => f.tips
  }

  /** `handleFilterChange(name)`: exactly the named filter flips. */
  function FlipFilter(f: Filters, k: FilterKey): (r: Filters)
    ensures Get(r, k) == !Get(f, k)
    ensures forall j :: j != k ==> Get(r, j) == Get(f, j)
  {
    match k
    case FixedSalaryKey => f.(fixedSalary := !f.fixedSalary)
    case DeliveriesKey => f.(deliveries := !f.deliveries)
    case TipsKey => f.(tips := !f.tips)
  }

  /** `resetFilters()`: every slice shown again. */
  function ResetFilters(): (r: Filters)
    ensures forall k :: Get(r, k)
  {
    Filters(true, true, true)
  }

  /** The four pie slices: salary after deduction, the deduction, delivery
      income, and tips. */
  datatype Pie = Pie(salary: int, penalty: int, deliveries: real, tips: real)

  function PieData(employmentType: string, summary: Option<Summary>, f: Filters): (p: Pie)
    ensures f.fixedSalary ==> p.salary + p.penalty == BaseSalary(employmentType)
    ensures f.fixedSalary ==> p.salary == AdjustedSalary(employmentType, summary)
                              && p.penalty == Deduction(employmentType, summary)
    ensures f.fixedSalary && summary.Some? && summary.value.daysOff > 4 ==>
      p.penalty == (summary.value.daysOff - 4) * PenaltyPerDay(employmentType)
    ensures f.fixedSalary && (summary.None? || summary.value.daysOff <= 4) ==>
      p.salary == BaseSalary(employmentType) && p.penalty == 0
    ensures !f.fixedSalary ==> p.salary == 0 && p.penalty == 0
    ensures f.deliveries && summary.Some? ==> p.deliveries == summary.value.totalDeliveries * RatePerDelivery
    ensures !(f.deliveries && summary.Some?) ==> p.deliveries == 0.0
    ensures f.tips && summary.Some? ==> p.tips == summary.value.totalTips
    ensures !(f.tips && summary.Some?) ==> p.tips == 0.0
  {
    Pie(if f.fixedSalary then AdjustedSalary(employmentType, summary) else 0,
        if f.fixedSalary then Deduction(employmentType, summary) else 0,
        if f.deliveries && summary.Some? then summary.value.totalDeliveries * RatePerDelivery else 0.0,
        if f.tips && summary.Some? then summary.value.totalTips else 0.0)
  }

  /** The earnings line: one point per record in ascending date order. */
  function EarningsSeries(records: seq<DayRecord>): (p: seq<real>)
    ensures |p| == |records|
    ensures forall i :: 0 <= i < |p| ==> p[i] == Earnings(ByDate(records)[i])
  {
    EarningsPoints(ByDate(records))
  }

  /** The line adds up to the delivery income and tips of all the records,
      whatever their order. */
  lemma SeriesTotal(records: seq<DayRecord>)
    ensures Seqs.SumReal(EarningsSeries(records)) == DeliveriesIncome(ByDate(records)) + TipsTotal(ByDate(records))
  {
    IncomeSplits(ByDate(records));
  }
}

=== FILE: email_verify.dfy ===
/** The stand-alone verification page (`EmailVerify`): its code boxes are
    the shared `Otp` model; this module states what the submit sends. */
module EmailVerifyPage {
  import opened Wrappers
  import opened JsText
  import Otp

  /** The body posted to the verification endpoint: the user id the page
      was navigated with (possibly absent) and the joined code. */
  datatype Payload = Payload(userId: Option<string>, otp: string)

  /** `handleSubmit`: nothing is sent unless the joined boxes are six
      digits; otherwise the navigation-state user id and the joined code. */
  function Submit(userId: Option<string>, otp: seq<string>): (r: Option<Payload>)
    ensures r.Some? <==> SixDigits(Otp.Joined(otp))
    ensures r.Some? ==> r.value.userId == userId && r.value.otp == Otp.Joined(otp)
  {
    if Otp.SubmitCheck(otp) == Proceed then Some(Payload(userId, Otp.Joined(otp))) else None
  }

  /** A pasted six-digit code is sent as pasted, without its surrounding
      whitespace. */
  lemma PasteThenSubmit(userId: Option<string>, otp: seq<string>, text: string)
    requires SixDigits(Trim(text))
    ensures Submit(userId, Otp.Paste(otp, text)) == Some(Payload(userId, Trim(text)))
  {
  }

  /** From the empty boxes nothing can be sent. */
  lemma EmptyIsNotSent(userId: Option<string>)
    ensures Submit(userId, Otp.Empty).None?
  {
    Otp.SubmitWhenFull(Otp.Empty);
  }
}

=== FILE: form_rules.dfy ===
/** The password rules and live-field messages several forms share, each
    written out the same way in the login, reset and context code. */
module FormRules {
  import opened JsText

  /** At least eight characters, and the letter-and-digit rule over the
      allowed characters. */
  predicate PasswordFormat(p: string) {
    |p| >= 8 && PasswordRule(p)
  }

  const TooLong: string := "Password cannot exceed 50 characters"
  const TooShort: string := "Password must be at least 8 characters"
  const NeedsLetterAndDigit: string := "Password must contain at least one alphabet and one number"

  /** The live message under a password field for a value of at most fifty
      characters: none for an empty value, else the length and then the
      character rule. */
  function PasswordFieldError(value: string): (e: string)
    ensures e == "" <==> value == "" || PasswordFormat(value)
    ensures e != "" ==> e == TooShort || e == NeedsLetterAndDigit
  {
    if value != "" && |value| < 8 then TooShort
    else if value != "" && !PasswordRule(value) then NeedsLetterAndDigit
    else ""
  }
}

=== FILE: guest_checkout.dfy ===
/** The guest checkout page (`GuestCheckout`): validation, the totals it
    falls back to when the server cannot price the cart, the order payload,
    the payment-method transitions and what a successful order clears. */
module GuestCheckoutPage {
  import opened Wrappers
  import opened JsText
  import opened Catalogue
  import opened Validators
  import opened Checkout
  import Seqs
  import Shop
  import PlaceOrderPage

  datatype Form = Form(
    name: string, email: string, phone: string, address: string,
    city: string, postCode: string, country: string, payment: Payment)

  // ---------------------------------------------------------------------
  // Validation

  datatype Field = GuestName | GuestEmail | Address | City | OnlinePaymentOption | PaymentProof

  const AllFields: set<Field> := {GuestName, GuestEmail, Address, City, OnlinePaymentOption, PaymentProof}

  /** The test `validate()` applies to each field: the text fields must not
      be blank once trimmed, and the email test sees the untrimmed value. */
  predicate Fails(v: Validators, f: Form, k: Field) {
    match k
    case GuestName => Blank(f.name)
    case GuestEmail => Blank(f.email) || !v.isEmail(f.email)
    case Address => Blank(f.address)
    case City => Blank(f.city)
    case OnlinePaymentOption => f.payment.paymentMethod == "online" && f.payment.option == ""
    case PaymentProof => f.payment.paymentMethod == "online" && f.payment.proof.None?
  }

  /** `validate()`: the fields in error. */
  function Validate(v: Validators, f: Form): (e: set<Field>)
    ensures forall k :: k in e <==> Fails(v, f, k)
  {
    set k | k in AllFields && Fails(v, f, k)
  }

  /** The city is required, although the page labels it optional. */
  lemma CityIsRequired(v: Validators, f: Form)
    requires Blank(f.city)
    ensures Validate(v, f) != {}
  {
    assert City in Validate(v, f);
  }

  /** Phone, postal code and country are never checked. */
  lemma OptionalFieldsIgnored(v: Validators, f: Form, phone: string, postCode: string, country: string)
    ensures Validate(v, f.(phone := phone, postCode := postCode, country := country)) == Validate(v, f)
  {
  }

  // ---------------------------------------------------------------------
  // Fallback totals and the items payload

  /** `Number(ci.price || product?.price || 0)`: the line's own price unless it
      is missing or zero, then the catalogue price unless it is missing or
      zero, then 0. */
  function FallbackPrice(products: seq<Product>, l: Shop.Line): (price: real)
    ensures l.price.Some? && l.price.value != 0.0 ==> price == l.price.value
    ensures (l.price.None? || l.price.value == 0.0) && HasId(products, l.productId)
            ==> price == Find(products, l.productId).value.price
    ensures (l.price.None? || l.price.value == 0.0) && !HasId(products, l.productId) ==> price == 0.0
  {
    if l.price.Some? && l.price.value != 0.0 then l.price.value
    else match Find(products, l.productId)
      case Some(p) => if p.price != 0.0 then p.price else 0.0
      case None => 0.0
  }

  function FallbackAmounts(products: seq<Product>, cart: seq<Shop.Line>): (a: seq<real>)
    ensures |a| == |cart|
    ensures forall i :: 0 <= i < |cart| ==> a[i] == FallbackPrice(products, cart[i]) * cart[i].quantity as real
  {
    seq(|cart|, i requires 0 <= i < |cart| => FallbackPrice(products, cart[i]) * cart[i].quantity as real)
  }

  datatype Totals = Totals(subtotal: real, taxes: real, shippingFee: real, total: real)

  /** The local calculation used when the server does not price the cart. */
  function FallbackTotals(products: seq<Product>, cart: seq<Shop.Line>): (t: Totals)
    ensures t.subtotal == Seqs.SumReal(FallbackAmounts(products, cart))
    ensures t.taxes == t.subtotal * Shop.TaxRate
    ensures t.shippingFee == Shop.ShippingFee
    ensures t.total == t.subtotal + t.taxes + t.shippingFee
  {
    var subtotal := Seqs.SumReal(FallbackAmounts(products, cart));
    var taxes := subtotal * Shop.TaxRate;
    Totals(subtotal, taxes, Shop.ShippingFee, subtotal + taxes + Shop.ShippingFee)
  }

  /** When every line of a listed product carries that product's current
      price, the page's fallback subtotal is the store's subtotal: the page
      prefers the line's price and the store the catalogue's, and here they
      are the same. */
  lemma FallbackAgreesWithStore(products: seq<Product>, cart: seq<Shop.Line>)
    requires forall i :: 0 <= i < |cart| && HasId(products, cart[i].productId) ==>
      cart[i].price == Some(Find(products, cart[i].productId).value.price)
    ensures FallbackTotals(products, cart).subtotal == Shop.Subtotal(products, cart)
  {
    forall i | 0 <= i < |cart|
      ensures FallbackAmounts(products, cart)[i] == Shop.LineAmounts(products, cart)[i]
    {
      assert FallbackPrice(products, cart[i]) == Shop.LinePrice(products, cart[i]);
    }
    assert FallbackAmounts(products, cart) == Shop.LineAmounts(products, cart);
  }

  datatype Item = Item(productId: string, quantity: int, price: real)

  /** `buildItemsPayload()`: one item per line, in cart order, priced like the
      fallback totals. */
  function BuildItems(products: seq<Product>, cart: seq<Shop.Line>): (items: seq<Item>)
    ensures |items| == |cart|
    ensures forall i :: 0 <= i < |cart| ==>
      items[i] == Item(cart[i].productId, cart[i].quantity, FallbackPrice(products, cart[i]))
  {
    seq(|cart|, i requires 0 <= i < |cart| =>
      Item(cart[i].productId, cart[i].quantity, FallbackPrice(products, cart[i])))
  }

  function ItemAmounts(items: seq<Item>): (a: seq<real>)
    ensures |a| == |items| && forall i :: 0 <= i < |items| ==> a[i] == items[i].price * items[i].quantity as real
  {
    seq(|items|, i requires 0 <= i < |items| => items[i].price * items[i].quantity as real)
  }

  /** The items sent add up to the fallback subtotal. */
  lemma ItemsAddUpToSubtotal(products: seq<Product>, cart: seq<Shop.Line>)
    ensures Seqs.SumReal(ItemAmounts(BuildItems(products, cart))) == FallbackTotals(products, cart).subtotal
  {
    var items := BuildItems(products, cart);
    forall i | 0 <= i < |cart| ensures ItemAmounts(items)[i] == FallbackAmounts(products, cart)[i] {
      assert items[i].price == FallbackPrice(products, cart[i]) && items[i].quantity == cart[i].quantity;
    }
    assert ItemAmounts(items) == FallbackAmounts(products, cart);
  }

  // ---------------------------------------------------------------------
  // The order payload

  datatype Payload = Payload(
    guestName: string, guestEmail: string, guestPhone: Option<string>,
    shippingAddress: string, city: Option<string>, postCode: Option<string>,
    country: Option<string>, items: seq<Item>, totalPrice: real,
    paymentMethod: string, onlinePaymentOption: Option<string>,
    taxes: real, shippingFee: real)

  /** `guestEmail.trim().toLowerCase()` */
  function NormalEmail(email: string): (r: string)
    ensures |r| == |Trim(email)|
    ensures forall i :: 0 <= i < |r| ==> r[i] == LowerChar(Trim(email)[i])
  {
    ToLower(Trim(email))
  }

  /** The sent email is already normal: normalising it again changes
      nothing. */
  lemma NormalEmailIdempotent(email: string)
    ensures NormalEmail(NormalEmail(email)) == NormalEmail(email)
  {
    var t := Trim(email);
    TrimIdempotent(email);
    ToLowerKeepsTrimmed(t);
    ToLowerIdempotent(t);
  }

  function MakePayload(products: seq<Product>, cart: seq<Shop.Line>, f: Form, t: Totals): (p: Payload)
    ensures p.guestName == Trim(f.name) && p.shippingAddress == Trim(f.address)
    ensures p.guestEmail == NormalEmail(f.email)
    ensures p.guestPhone == TrimmedOrAbsent(f.phone) && p.city == TrimmedOrAbsent(f.city)
    ensures p.postCode == TrimmedOrAbsent(f.postCode) && p.country == TrimmedOrAbsent(f.country)
    ensures p.onlinePaymentOption.Some? <==> f.payment.paymentMethod == "online"
    ensures p.onlinePaymentOption.Some? ==> p.onlinePaymentOption.value == f.payment.option
    ensures p.items == BuildItems(products, cart) && p.totalPrice == t.total
  {
    Payload(Trim(f.name), NormalEmail(f.email), TrimmedOrAbsent(f.phone), Trim(f.address),
            TrimmedOrAbsent(f.city), TrimmedOrAbsent(f.postCode), TrimmedOrAbsent(f.country),
            BuildItems(products, cart), t.total, f.payment.paymentMethod,
            if f.payment.paymentMethod == "online" then Some(f.payment.option) else None,
            t.taxes, t.shippingFee)
  }

  datatype Submission = Refused(message: string) | Send(payload: Payload)

  /** `handlePlaceOrder`: validation first, then the empty-cart check. */
  function Submit(v: Validators, products: seq<Product>, cart: seq<Shop.Line>, f: Form, t: Totals): (r: Submission)
    ensures Validate(v, f) != {} ==> r == Refused("Please fill all required fields correctly")
    ensures Validate(v, f) == {} && cart == [] ==> r == Refused("Your cart is empty")
    ensures r.Send? <==> Validate(v, f) == {} && cart != []
    ensures r.Send? ==> r.payload == MakePayload(products, cart, f, t)
  {
    if Validate(v, f) != {} then Refused("Please fill all required fields correctly")
    else if |BuildItems(products, cart)| == 0 then Refused("Your cart is empty")
    else Send(MakePayload(products, cart, f, t))
  }

  // ---------------------------------------------------------------------
  // Payment method and modal

  /** `handlePaymentMethodChange(value)`: "online" only opens the modal; any
      other value falls back to cash on delivery. */
  function ChooseMethod(s: Payment, value: string): (r: Payment)
    ensures value == "online" ==> r.modalOpen && r.paymentMethod == s.paymentMethod
    ensures value == "online" ==> r.option == s.option && r.proof == s.proof
    ensures value != "online" ==> r == CashOnDelivery
  {
    if value == "online" then s.(modalOpen := true) else CashOnDelivery
  }

  /** `handleOnlinePaymentModalClose(confirm)`: confirming sets "online";
      cancelling falls back to cash on delivery. */
  function CloseModal(s: Payment, confirm: bool): (r: Payment)
    ensures !r.modalOpen
    ensures confirm ==> r == s.(paymentMethod := "online", modalOpen := false)
    ensures !confirm ==> r == CashOnDelivery
  {
    if confirm then s.(paymentMethod := "online", modalOpen := false) else CashOnDelivery
  }

  /** `handleFileChange`: unlike the signed-in page, no file clears the
      proof. */
  function FileChange(s: Payment, picked: Option<FileInfo>): (r: Payment)
    ensures picked.None? ==> r == s.(proof := None)
    ensures picked.Some? && ProofAcceptable(picked.value) ==> r == s.(proof := picked)
    ensures picked.Some? && !ProofAcceptable(picked.value) ==> r == s.(proof := None)
  {
    match picked
    case None => s.(proof := None)
    case Some(f) => if ProofAcceptable(f) then s.(proof := picked) else s.(proof := None)
  }

  /** Both checkout pages reach the same payment state when "online" is
      chosen and the modal then closed, whichever way it closes, though
      only the signed-in page records "online" before the modal closes. */
  lemma PagesAgreeOnModal(s: Payment, confirm: bool)
    ensures CloseModal(ChooseMethod(s, "online"), confirm)
         == PlaceOrderPage.CloseModal(PlaceOrderPage.ChangeMethod(s, "online"), confirm)
  {
  }

  /** Both pages gate a picked file the same way. */
  lemma PagesAgreeOnPickedFile(s: Payment, f: FileInfo)
    ensures FileChange(s, Some(f)) == PlaceOrderPage.FileChange(s, Some(f))
  {
  }

  /** The events the payment part of the page reacts to. */
  datatype Event = Choose(value: string) | Close(confirm: bool) | Pick(file: Option<FileInfo>) | SelectOption(option: string)

  function Step(s: Payment, e: Event): Payment {
    match e
    case Choose(value) => ChooseMethod(s, value)
    case Close(confirm) => CloseModal(s, confirm)
    case Pick(file) => FileChange(s, file)
    case SelectOption(option) => s.(option := option)
  }

  function Run(s: Payment, es: seq<Event>): Payment
    decreases |es|
  {
    if es == [] then s else Run(Step(s, es[0]), es[1..])
  }

  predicate KnownMethod(s: Payment) {
    s.paymentMethod == "cod" || s.paymentMethod == "online"
  }

  /** Whatever the visitor does, the payment method is "cod" or "online", and
      a kept proof passed the upload gate. */
  lemma {:induction false} RunKeepsMethodKnown(s: Payment, es: seq<Event>)
    requires KnownMethod(s) && (s.proof.Some? ==> ProofAcceptable(s.proof.value))
    ensures KnownMethod(Run(s, es))
    ensures Run(s, es).proof.Some? ==> ProofAcceptable(Run(s, es).proof.value)
    decreases |es|
  {
    if es != [] {
      RunKeepsMethodKnown(Step(s, es[0]), es[1..]);
    }
  }

  // ---------------------------------------------------------------------
  // After a successful order

  /** The success branch as written: `localStorage.removeItem("localCart")`
      runs, then `setCartItems([])` throws a ReferenceError because the page
      never takes `setCartItems` from the store. The error is caught, so the
      stored cart is gone while the cart in memory stays as it was. */
  function AfterOrderAsWritten(cart: seq<Shop.Line>, storage: map<string, string>): (r: (seq<Shop.Line>, map<string, string>))
    ensures "localCart" !in r.1
    ensures r.0 == cart
  {
    (cart, storage - {"localCart"})
  }

  /** The items ordered are still in the cart after the order is placed. */
  lemma CartSurvivesGuestOrder(cart: seq<Shop.Line>, storage: map<string, string>)
    requires cart != []
    ensures AfterOrderAsWritten(cart, storage).0 != []
    ensures AfterOrderAsWritten(cart, storage).0 == cart
  {
  }

  /** The success branch as intended: both the stored and the in-memory
      cart are emptied, and nothing else in storage changes. */
  function AfterOrder(cart: seq<Shop.Line>, storage: map<string, string>): (r: (seq<Shop.Line>, map<string, string>))
    ensures r.0 == []
    ensures "localCart" !in r.1
    ensures forall k :: k != "localCart" ==> (k in r.1 <==> k in storage)
    ensures forall k :: k in r.1 ==> r.1[k] == storage[k]
  {
    ([], storage - {"localCart"})
  }

  /** Corrected, a guest order leaves the cart as a signed-in order does. */
  lemma GuestOrderClearsLikeSignedIn(cart: seq<Shop.Line>, storage: map<string, string>)
    ensures AfterOrder(cart, storage).0 == PlaceOrderPage.CartAfterReply(cart, cart, PlaceOrderPage.Succeeded)
    ensures AfterOrder(cart, storage).1 == AfterOrderAsWritten(cart, storage).1
  {
  }
}

=== FILE: hero.dfy ===
/** The home page carousel (`Hero`): the fetched images, the two fallbacks
    shown when there are none, and the arrow and autoplay steps of the
    current index. */
module HeroCarousel {

  datatype HeroImage = HeroImage(imageUrl: string, altText: string)

  const Fallbacks: seq<HeroImage> := [
    HeroImage("https://images.unsplash.com/photo-1544947950-fa07a98d237f?w=600&h=400&fit=crop", "Book Collection"),
    HeroImage("https://images.unsplash.com/photo-1532012197267-da84d127e765?w=600&h=400&fit=crop", "Reading Books")
  ]

  /** `displayImages`: the fetched images, or the fallbacks when there are
      none. */
  function Display(fetched: seq<HeroImage>): (d: seq<HeroImage>)
    ensures |fetched| > 0 ==> d == fetched
    ensures |fetched| == 0 ==> d == Fallbacks
    ensures |d| > 0
  {
    if |fetched| > 0 then fetched else Fallbacks
  }

  /** The arrows are drawn when the display list has more than one image;
      autoplay runs only when more than one image was fetched. */
  predicate ShowsArrows(fetched: seq<HeroImage>) { |Display(fetched)| > 1 }

  predicate Autoplays(fetched: seq<HeroImage>) { |fetched| > 1 }

  /** With nothing fetched the arrows are still drawn, while the steps below
      divide by the number fetched. */
  lemma ArrowsWithoutImages()
    ensures ShowsArrows([]) && !Autoplays([])
  {
  }

  /** The index as JavaScript holds it: a whole number or NaN (the result of
      `x % 0`). */
  datatype Index = At(i: int) | NaN

  /** `goToNext` as written: `(i + 1) % heroImages.length`. */
  function NextAsWritten(i: Index, n: nat): (r: Index)
    ensures n == 0 || i.NaN? ==> r == NaN
    ensures n > 0 && i.At? && 0 <= i.i < n ==> r.At? && 0 <= r.i < n
  {
    match i
    case NaN => NaN
    case At(k) => if n == 0 then NaN else At(JsRemainder(k + 1, n))
  }

  /** `goToPrevious` as written: `i === 0 ? heroImages.length - 1 : i - 1`. */
  function PreviousAsWritten(i: Index, n: nat): (r: Index)
    ensures i.NaN? ==> r == NaN
    ensures n > 0 && i.At? && 0 <= i.i < n ==> r.At? && 0 <= r.i < n
  {
    match i
    case NaN => NaN
    case At(k) => if k == 0 then At(n - 1) else At(k - 1)
  }

  /** JavaScript's `%` on whole numbers: the sign follows the dividend. */
  function JsRemainder(a: int, n: int): (r: int)
    requires n > 0
    ensures a >= 0 ==> 0 <= r < n && r == a % n
  {
    if a >= 0 then a % n else -((-a) % n)
  }

  /** The image drawn: `displayImages[i]?.imageUrl || fallbackImages[0].imageUrl`. */
  function Shown(fetched: seq<HeroImage>, i: Index): (url: string)
    ensures i.At? && 0 <= i.i < |Display(fetched)| && Display(fetched)[i.i].imageUrl != ""
            ==> url == Display(fetched)[i.i].imageUrl
    ensures !(i.At? && 0 <= i.i < |Display(fetched)|) ==> url == Fallbacks[0].imageUrl
  {
    var d := Display(fetched);
    if i.At? && 0 <= i.i < |d| && d[i.i].imageUrl != "" then d[i.i].imageUrl else Fallbacks[0].imageUrl
  }

  /** With nothing fetched, one press of either arrow leaves the first
      fallback on screen: "next" turns the index into NaN, "previous" into
      -1, and "next" after "previous" gives NaN. */
  lemma SecondFallbackUnreachable()
    ensures NextAsWritten(At(0), 0) == NaN
    ensures PreviousAsWritten(At(0), 0) == At(-1)
    ensures Shown([], NextAsWritten(At(0), 0)) == Fallbacks[0].imageUrl
    ensures Shown([], PreviousAsWritten(At(0), 0)) == Fallbacks[0].imageUrl
    ensures NextAsWritten(PreviousAsWritten(At(0), 0), 0) == NaN
  {
  }

  /** An arrow press. */
  datatype Press = NextPress | PreviousPress

  /** The index after a run of arrow presses, with `n` images fetched. */
  function AfterPresses(i: Index, presses: seq<Press>, n: nat): Index
    decreases |presses|
  {
    if presses == [] then i
    else
      var j := if presses[0].NextPress? then NextAsWritten(i, n) else PreviousAsWritten(i, n);
      AfterPresses(j, presses[1..], n)
  }

  /** With nothing fetched, every index reached from the start is NaN or at
      most 0. */
  lemma {:induction false} PressesStayLow(i: Index, presses: seq<Press>)
    requires i.NaN? || i.i <= 0
    ensures AfterPresses(i, presses, 0).NaN? || AfterPresses(i, presses, 0).i <= 0
    decreases |presses|
  {
    if presses != [] {
      var j := if presses[0].NextPress? then NextAsWritten(i, 0) else PreviousAsWritten(i, 0);
      PressesStayLow(j, presses[1..]);
    }
  }

  /** With nothing fetched, no run of arrow presses from the first image ever
      shows the second fallback. */
  lemma {:induction false} FallbackAfterAnyPresses(presses: seq<Press>)
    ensures Shown([], AfterPresses(At(0), presses, 0)) == Fallbacks[0].imageUrl
    ensures Shown([], AfterPresses(At(0), presses, 0)) != Fallbacks[1].imageUrl
  {
    PressesStayLow(At(0), presses);
  }

  /** `goToNext` as intended: a step around the list on screen. */
  function Next(fetched: seq<HeroImage>, i: nat): (r: nat)
    ensures i < |Display(fetched)| ==> r < |Display(fetched)|
  {
    (i + 1) % |Display(fetched)|
  }

  /** `goToPrevious` as intended. */
  function Previous(fetched: seq<HeroImage>, i: nat): (r: nat)
    ensures i < |Display(fetched)| ==> r < |Display(fetched)|
  {
    if i == 0 then |Display(fetched)| - 1 else i - 1
  }

  /** Within range, the two arrows undo each other. */
  lemma NextPreviousInverse(fetched: seq<HeroImage>, i: nat)
    requires i < |Display(fetched)|
    ensures Previous(fetched, Next(fetched, i)) == i
    ensures Next(fetched, Previous(fetched, i)) == i
  {
    var n := |Display(fetched)|;
    StepAround(i, n);
    if i == 0 {
      StepAround(n - 1, n);
    } else {
      StepAround(i - 1, n);
    }
  }

  /** `(i + 1) % n` within range: the next index, or 0 after the last. */
  lemma StepAround(i: int, n: int)
    requires 0 <= i < n
    ensures (i + 1) % n == if i + 1 < n then i + 1 else 0
  {
  }

  /** With images fetched, the intended steps are those written. */
  lemma IntendedAgreesWhenFetched(fetched: seq<HeroImage>, i: nat)
    requires 0 < |fetched| && i < |fetched|
    ensures NextAsWritten(At(i), |fetched|) == At(Next(fetched, i))
    ensures PreviousAsWritten(At(i), |fetched|) == At(Previous(fetched, i))
  {
  }

  /** With nothing fetched, the intended arrows reach both fallbacks. */
  lemma IntendedReachesBothFallbacks()
    ensures Next([], 0) == 1 && Shown([], At(Next([], 0))) == Fallbacks[1].imageUrl
    ensures Next([], 1) == 0
  {
  }
}

=== FILE: history.dfy ===
/** The rider's history over a chosen date range (`History`): the date
    checks, the working days plotted and the income pie. */
module HistoryPage {
  import opened Wrappers
  import opened Rider
  import Seqs

  // ---------------------------------------------------------------------
  // The date range

  /** A date input: empty, text that is not a date (`new Date(s)` is an
      invalid date), or a calendar date. */
  datatype DateInput = Empty | Unparsable | Day(date: Date)

  /** Why a date is refused. */
  datatype DateError = Required | InvalidDate | BeforeCreation | InFuture | BeforeStart

  /** The error shown under each input, if any. */
  datatype Errors = Errors(start: Option<DateError>, end: Option<DateError>)

  /** A date strictly before / after the given day; an invalid date compares
      false either way, as NaN does. */
  predicate Before(x: DateInput, d: Date) { x.Day? && Key(x.date) < Key(d) }
  predicate After(x: DateInput, d: Date) { x.Day? && Key(x.date) > Key(d) }

  /** `validateDates()`. Without an account-creation date only emptiness is
      checked. Otherwise every later check overwrites the message of an
      earlier one for the same input, so the message shown is the one of
      the last check that fails. */
  function ValidateDates(start: DateInput, end: DateInput, created: Option<Date>, today: Date): (e: Errors)
    ensures start.Empty? ==> e.start == Some(Required)
    ensures end.Empty? ==> e.end == Some(Required)
    ensures created.None? ==> (e.start.Some? <==> start.Empty?) && (e.end.Some? <==> end.Empty?)
    ensures !end.Empty? && created.Some? && After(start, today) ==> e.start == Some(InFuture)
    ensures !start.Empty? && created.Some? && end.Day? && After(start, end.date) ==> e.end == Some(BeforeStart)
  {
    Errors(StartError(start, end, created, today), EndError(start, end, created, today))
  }

  function StartError(start: DateInput, end: DateInput, created: Option<Date>, today: Date): Option<DateError> {
    if start.Empty? then Some(Required)
    else if end.Empty? || created.None? then None
    else if After(start, today) then Some(InFuture)
    else if Before(start, created.value) then Some(BeforeCreation)
    else if start.Unparsable? then Some(InvalidDate)
    else None
  }

  function EndError(start: DateInput, end: DateInput, created: Option<Date>, today: Date): Option<DateError> {
    if end.Empty? then Some(Required)
    else if start.Empty? || created.None? then None
    else if end.Day? && After(start, end.date) then Some(BeforeStart)
    else if After(end, today) then Some(InFuture)
    else if Before(end, created.value) then Some(BeforeCreation)
    else if end.Unparsable? then Some(InvalidDate)
    else None
  }

  /** The range the checks accept, stated independently of their order:
      both dates given, and, once the account's creation date is known,
      both real dates with creation <= start <= end <= today. */
  predicate AcceptableRange(start: DateInput, end: DateInput, created: Option<Date>, today: Date) {
    && !start.Empty? && !end.Empty?
    && (created.Some? ==>
          && start.Day? && end.Day?
          && OnOrBefore(created.value, start.date) && OnOrBefore(start.date, end.date)
          && OnOrBefore(end.date, today))
  }

  lemma ValidateDatesIff(start: DateInput, end: DateInput, created: Option<Date>, today: Date)
    ensures ValidateDates(start, end, created, today) == Errors(None, None)
            <==> AcceptableRange(start, end, created, today)
  {
  }

  // ---------------------------------------------------------------------
  // Chart data

  predicate IsOn(r: DayRecord) { r.workStatus == "On" }

  /** `getWorkingDaysData()`: nothing until both dates are chosen, then the
      working days of the records fetched, in date order. */
  function WorkingDays(records: seq<DayRecord>, datesChosen: bool): (w: seq<DayRecord>)
    ensures !datesChosen ==> w == []
    ensures datesChosen ==> multiset(w) == multiset(Seqs.Filter(records, IsOn))
    ensures forall i :: 0 <= i < |w| ==> IsOn(w[i]) && w[i] in records
    ensures forall i, j :: 0 <= i < j < |w| ==> OnOrBefore(w[i].date, w[j].date)
  {
    if !datesChosen then []
    else
      var w := ByDate(Seqs.Filter(records, IsOn));
      assert forall i :: 0 <= i < |w| ==> w[i] in multiset(Seqs.Filter(records, IsOn));
      w
  }

  /** Every working day fetched is plotted. */
  lemma EveryWorkingDayPlotted(records: seq<DayRecord>, r: DayRecord)
    requires r in records && IsOn(r)
    ensures r in WorkingDays(records, true)
  {
    assert r in multiset(Seqs.Filter(records, IsOn));
  }

  /** The earnings line: a single 0 when there is nothing to plot. */
  function EarningsLine(records: seq<DayRecord>, datesChosen: bool): (p: seq<real>)
    ensures WorkingDays(records, datesChosen) == [] ==> p == [0.0]
    ensures WorkingDays(records, datesChosen) != [] ==> |p| == |WorkingDays(records, datesChosen)|
    ensures WorkingDays(records, datesChosen) != [] ==>
      forall i :: 0 <= i < |p| ==> p[i] == Earnings(WorkingDays(records, datesChosen)[i])
  {
    var w := WorkingDays(records, datesChosen);
    if w == [] then [0.0] else EarningsPoints(w)
  }

  datatype Filters = Filters(deliveries: bool, tips: bool)

  datatype FilterKey = DeliveriesKey | TipsKey

  function Get(f: Filters, k: FilterKey): bool {
    match k
    case DeliveriesKey => f.deliveries
    case TipsKey => f.tips
  }

  /** `handleFilterChange(name)`: exactly the named slice flips. */
  function FlipFilter(f: Filters, k: FilterKey): (r: Filters)
    ensures Get(r, k) == !Get(f, k)
    ensures forall j :: j != k ==> Get(r, j) == Get(f, j)
  {
    match k
    case DeliveriesKey => f.(deliveries := !f.deliveries)
    case TipsKey => f.(tips := !f.tips)
  }

  /** `resetFilters()` */
  function ResetFilters(): (r: Filters)
    ensures forall k :: Get(r, k)
  {
    Filters(true, true)
  }

  /** The pie: delivery income and tips of the working days, each 0 when
      its slice is switched off or there is nothing to plot. */
  function PieData(records: seq<DayRecord>, datesChosen: bool, f: Filters): (p: (real, real))
    ensures WorkingDays(records, datesChosen) == [] ==> p == (0.0, 0.0)
    ensures !f.deliveries ==> p.0 == 0.0
    ensures !f.tips ==> p.1 == 0.0
    ensures WorkingDays(records, datesChosen) != [] && f.deliveries ==>
      p.0 == DeliveriesIncome(WorkingDays(records, datesChosen))
    ensures WorkingDays(records, datesChosen) != [] && f.tips ==>
      p.1 == TipsTotal(WorkingDays(records, datesChosen))
  {
    var w := WorkingDays(records, datesChosen);
    if w == [] then (0.0, 0.0)
    else (if f.deliveries then DeliveriesIncome(w) else 0.0, if f.tips then TipsTotal(w) else 0.0)
  }

  /** With both slices on, the pie adds up to the earnings line. */
  lemma PieMatchesLine(records: seq<DayRecord>, datesChosen: bool)
    ensures var p := PieData(records, datesChosen, ResetFilters());
      p.0 + p.1 == Seqs.SumReal(EarningsLine(records, datesChosen))
  {
    var w := WorkingDays(records, datesChosen);
    if w != [] {
      IncomeSplits(w);
    } else {
      assert Seqs.SumReal([0.0]) == Seqs.SumReal([]) + 0.0;
    }
  }
}

=== FILE: js_text.dfy ===
/** The string primitives the storefront's handlers rely on, with the
    semantics of the browser's JavaScript: the `\s` class (which is also the
    set `String.prototype.trim` removes), `\d`, `\w`, substring search and the
    few anchored regular expressions the forms test. */
module JsText {

  /** A character matched by `\s`: the ECMAScript WhiteSpace and
      LineTerminator code points. */
  predicate IsSpace(c: char) {
    || c == ' ' || c == '\t' || c == '\n' || c == '\U{000B}' || c == '\U{000C}'
    || c == '\r' || c == '\U{00A0}' || c == '\U{1680}'
    || ('\U{2000}' <= c <= '\U{200A}')
    || c == '\U{2028}' || c == '\U{2029}' || c == '\U{202F}' || c == '\U{205F}'
    || c == '\U{3000}' || c == '\U{FEFF}'
  }

  /** `\d`: an ASCII digit. */
  predicate IsDigit(c: char) { '0' <= c <= '9' }

  predicate IsLower(c: char) { 'a' <= c <= 'z' }

  predicate IsUpper(c: char) { 'A' <= c <= 'Z' }

  /** `[a-zA-Z]` */
  predicate IsLetter(c: char) { IsLower(c) || IsUpper(c) }

  /** `\w`: `[A-Za-z0-9_]`. */
  predicate IsWordChar(c: char) { IsLetter(c) || IsDigit(c) || c == '_' }

  predicate AllSpace(s: string) {
    forall i :: 0 <= i < |s| ==> IsSpace(s[i])
  }

  /** Number of whitespace characters at the front of `s`. */
  function LeadingSpaces(s: string): (n: nat)
    ensures n <= |s|
    ensures forall k :: 0 <= k < n ==> IsSpace(s[k])
    ensures n < |s| ==> !IsSpace(s[n])
  {
    if s == [] || !IsSpace(s[0]) then 0 else 1 + LeadingSpaces(s[1..])
  }

  /** Number of whitespace characters at the back of `s`. */
  function TrailingSpaces(s: string): (n: nat)
    ensures n <= |s|
    ensures forall k :: |s| - n <= k < |s| ==> IsSpace(s[k])
    ensures n < |s| ==> !IsSpace(s[|s| - 1 - n])
  {
    if s == [] || !IsSpace(s[|s| - 1]) then 0 else 1 + TrailingSpaces(s[..|s| - 1])
  }

  /** `String.prototype.trim`. */
  function Trim(s: string): (r: string)
    ensures |r| <= |s|
    ensures r == [] <==> AllSpace(s)
    ensures r != [] ==> !IsSpace(r[0]) && !IsSpace(r[|r| - 1])
    ensures s != [] && !IsSpace(s[0]) && !IsSpace(s[|s| - 1]) ==> r == s
    ensures LeadingSpaces(s) + |r| <= |s|
    ensures AllSpace(s[LeadingSpaces(s) + |r|..])
  {
    var t := s[LeadingSpaces(s)..];
    var r := t[..|t| - TrailingSpaces(t)];
    assert s[LeadingSpaces(s) + |r|..] == t[|r|..];
    r
  }

  /** Character `k` of the trimmed string, found in the original after the
      leading whitespace. */
  lemma TrimAt(s: string, k: nat)
    requires k < |Trim(s)|
    ensures LeadingSpaces(s) + k < |s| && Trim(s)[k] == s[LeadingSpaces(s) + k]
  {
    var t := s[LeadingSpaces(s)..];
    assert Trim(s) == t[..|t| - TrailingSpaces(t)];
    assert t[k] == s[LeadingSpaces(s) + k];
  }

  /** Text with no whitespace at either end is its own trim. */
  lemma TrimNoSpace(s: string)
    requires s != [] && !IsSpace(s[0]) && !IsSpace(s[|s| - 1])
    ensures Trim(s) == s
  {
  }

  /** A string is blank when `s.trim()` is the empty (falsy) string. */
  predicate Blank(s: string) { Trim(s) == [] }

  lemma TrimIdempotent(s: string)
    ensures Trim(Trim(s)) == Trim(s)
  {
  }

  function LowerChar(c: char): char {
    if IsUpper(c) then (c as int + 32) as char else c
  }

  function UpperChar(c: char): char {
    if IsLower(c) then (c as int - 32) as char else c
  }

  /** Lower-casing leaves whitespace alone and is idempotent. */
  lemma LowerCharKeepsSpace(c: char)
    ensures IsSpace(LowerChar(c)) <==> IsSpace(c)
  {
  }

  lemma LowerCharIdempotent(c: char)
    ensures LowerChar(LowerChar(c)) == LowerChar(c)
  {
  }

  /** `toLowerCase`, restricted to the ASCII letters. */
  function ToLower(s: string): (r: string)
    ensures |r| == |s|
    ensures forall i :: 0 <= i < |s| ==> r[i] == LowerChar(s[i])
  {
    seq(|s|, i requires 0 <= i < |s| => LowerChar(s[i]))
  }

  /** Lower-casing twice is lower-casing once. */
  lemma ToLowerIdempotent(s: string)
    ensures ToLower(ToLower(s)) == ToLower(s)
  {
    forall i | 0 <= i < |s| ensures ToLower(ToLower(s))[i] == ToLower(s)[i] {
      LowerCharIdempotent(s[i]);
    }
  }

  /** Lower-casing a trimmed string leaves it trimmed. */
  lemma ToLowerKeepsTrimmed(t: string)
    requires Trim(t) == t
    ensures Trim(ToLower(t)) == ToLower(t)
  {
    var r := ToLower(t);
    if t != [] {
      assert !IsSpace(t[0]) && !IsSpace(t[|t| - 1]);
      LowerCharKeepsSpace(t[0]);
      LowerCharKeepsSpace(t[|t| - 1]);
      assert !IsSpace(r[0]) && !IsSpace(r[|r| - 1]);
    }
  }

  /** `toUpperCase`, restricted to the ASCII letters. */
  function ToUpper(s: string): (r: string)
    ensures |r| == |s|
    ensures forall i :: 0 <= i < |s| ==> r[i] == UpperChar(s[i])
  {
    seq(|s|, i requires 0 <= i < |s| => UpperChar(s[i]))
  }

  /** `s.includes(q)`, and equally an unanchored regular expression made of
      the literal `q`. */
  predicate Contains(s: string, q: string) {
    exists i :: 0 <= i <= |s| - |q| && OccursAt(s, q, i)
  }

  /** `q` occurs in `s` starting at index `i`. */
  predicate OccursAt(s: string, q: string, i: int) {
    0 <= i <= |s| - |q| && s[i..i + |q|] == q
  }

  /** `s.startsWith(p)` */
  predicate StartsWith(s: string, p: string) {
    |p| <= |s| && s[..|p|] == p
  }

  /** `s.replace(/x/g, y)` for single characters. */
  function ReplaceChar(s: string, x: char, y: char): (r: string)
    ensures |r| == |s|
    ensures forall i :: 0 <= i < |s| ==> r[i] == (if s[i] == x then y else s[i])
  {
    seq(|s|, i requires 0 <= i < |s| => if s[i] == x then y else s[i])
  }

  /** `/^\d{6}$/.test(s)` */
  predicate SixDigits(s: string) {
    |s| == 6 && forall i :: 0 <= i < 6 ==> IsDigit(s[i])
  }

  /** `/^\d?$/.test(s)`: empty, or a single digit. */
  predicate AtMostOneDigit(s: string) {
    s == [] || (|s| == 1 && IsDigit(s[0]))
  }

  /** The character class `[a-zA-Z\d!@#$%^&*]`. */
  predicate PasswordChar(c: char) {
    IsLetter(c) || IsDigit(c) || c in "!@#$%^&*"
  }

  /** `/^(?=.*[a-zA-Z])(?=.*\d)[a-zA-Z\d!@#$%^&*]*$/`: every character is in
      the allowed class, and there is at least one letter and one digit. */
  predicate PasswordRule(p: string) {
    && (forall i :: 0 <= i < |p| ==> PasswordChar(p[i]))
    && (exists i :: 0 <= i < |p| && IsLetter(p[i]))
    && (exists i :: 0 <= i < |p| && IsDigit(p[i]))
  }

  /** `/^[a-zA-Z0-9\s]+$/` */
  predicate NameRule(n: string) {
    |n| >= 1 && forall i :: 0 <= i < |n| ==> IsLetter(n[i]) || IsDigit(n[i]) || IsSpace(n[i])
  }

  /** The password rule admits no whitespace, so a password that passes it is
      never changed by trimming. */
  lemma PasswordRuleHasNoSpace(p: string)
    requires PasswordRule(p)
    ensures Trim(p) == p
  {
    var i :| 0 <= i < |p| && IsDigit(p[i]);
    PasswordCharNotSpace(p[0]);
    PasswordCharNotSpace(p[|p| - 1]);
  }

  lemma PasswordCharNotSpace(c: char)
    requires PasswordChar(c)
    ensures !IsSpace(c)
  {
    if c in "!@#$%^&*" {
      assert c == '!' || c == '@' || c == '#' || c == '$' || c == '%' || c == '^' || c == '&' || c == '*';
    }
  }
}

/** JavaScript's `Number(string)` on the decimal literals, with or without an
    exponent, that the forms' number inputs deliver. */
module JsNumber {
  import opened JsText
  import opened Wrappers

  datatype Num = NaN | Finite(value: real)

  /** Value of a run of ASCII digits. */
  function DigitsValue(s: string): (v: nat)
    requires forall i :: 0 <= i < |s| ==> IsDigit(s[i])
  {
    if s == [] then 0 else 10 * DigitsValue(s[..|s| - 1]) + DigitValue(s[|s| - 1])
  }

  function DigitValue(c: char): (d: nat)
    requires IsDigit(c)
    ensures d <= 9
  {
    c as int - '0' as int
  }

  function Pow10(k: nat): (p: nat)
    ensures p >= 1
  {
    if k == 0 then 1 else 10 * Pow10(k - 1)
  }

  predicate AllDigits(s: string) {
    forall i :: 0 <= i < |s| ==> IsDigit(s[i])
  }

  /** Value of the literal `whole.frac`: whole + frac / 10^|frac|. */
  function DecimalOf(whole: string, frac: string): (v: real)
    requires AllDigits(whole) && AllDigits(frac)
    ensures v >= 0.0
  {
    DigitsValue(whole) as real + DigitsValue(frac) as real / Pow10(|frac|) as real
  }

  /** Index of the first '.', or |s| when there is none. */
  function DotIndex(s: string): (k: nat)
    ensures k <= |s|
    ensures forall i :: 0 <= i < k ==> s[i] != '.'
    ensures k < |s| ==> s[k] == '.'
  {
    if s == [] || s[0] == '.' then 0 else 1 + DotIndex(s[1..])
  }

  /** An unsigned mantissa `digits`, `digits.`, `digits.digits` or `.digits`. */
  function Decimal(m: string): (n: Num)
    ensures n.Finite? ==> n.value >= 0.0
    ensures AllDigits(m) && m != [] ==> n == Finite(DigitsValue(m) as real)
  {
    var k := DotIndex(m);
    var whole := m[..k];
    var frac := if k < |m| then m[k + 1..] else [];
    assert AllDigits(m) ==> k == |m| && whole == m;
    if AllDigits(whole) && AllDigits(frac) && (whole != [] || frac != []) then
      Finite(DecimalOf(whole, frac))
    else
      NaN
  }

  /** The mark that starts an exponent. */
  predicate IsExpMark(c: char) { c == 'e' || c == 'E' }

  /** Index of the first exponent mark, or |s| when there is none. */
  function ExpIndex(s: string): (k: nat)
    ensures k <= |s|
    ensures forall i :: 0 <= i < k ==> !IsExpMark(s[i])
    ensures k < |s| ==> IsExpMark(s[k])
  {
    if s == [] || IsExpMark(s[0]) then 0 else 1 + ExpIndex(s[1..])
  }

  /** The exponent after the mark: an optionally signed, non-empty run of
      digits. */
  function Exponent(x: string): (e: Option<int>)
    ensures AllDigits(x) && x != [] ==> e == Some(DigitsValue(x))
    ensures |x| > 1 && x[0] == '-' && AllDigits(x[1..]) ==> e == Some(-(DigitsValue(x[1..]) as int))
  {
    if x != [] && (x[0] == '+' || x[0] == '-') then
      if |x| > 1 && AllDigits(x[1..]) then
        Some(if x[0] == '-' then -(DigitsValue(x[1..]) as int) else DigitsValue(x[1..]))
      else None
    else if x != [] && AllDigits(x) then Some(DigitsValue(x))
    else None
  }

  /** 10 to the power `e`, for an exponent of either sign. */
  function Scale(e: int): (r: real)
    ensures r > 0.0
    ensures e >= 0 ==> r == Pow10(e) as real
  {
    if e >= 0 then Pow10(e) as real else 1.0 / Pow10(-e) as real
  }

  /** An unsigned literal: a mantissa, then optionally `e` or `E` and an
      exponent. */
  function Unsigned(u: string): (n: Num)
    ensures n.Finite? ==> n.value >= 0.0
    ensures AllDigits(u) && u != [] ==> n == Finite(DigitsValue(u) as real)
  {
    var k := ExpIndex(u);
    assert AllDigits(u) ==> k == |u| && u[..k] == u;
    WithExponent(Decimal(u[..k]), k < |u|, if k < |u| then u[k + 1..] else [])
  }

  /** The mantissa's value, scaled when an exponent follows. */
  function WithExponent(m: Num, marked: bool, x: string): (n: Num)
    requires m.Finite? ==> m.value >= 0.0
    ensures n.Finite? ==> n.value >= 0.0
    ensures !marked ==> n == m
  {
    match m
    case NaN => NaN
    case Finite(v) =>
      if !marked then m
      else
        match Exponent(x)
        case None => NaN
        case Some(e) => Scaled(v, e)
  }

  /** The value `m * 10^e` of a literal with mantissa `m` and exponent `e`. */
  function ScientificOf(m: real, e: int): (v: real)
    ensures m >= 0.0 ==> v >= 0.0
  {
    var r := Scale(e);
    assert m >= 0.0 ==> m * r >= 0.0 by {
      if m > 0.0 {
        assert m * r > 0.0;
      }
    }
    m * r
  }

  function Scaled(v: real, e: int): (n: Num)
    requires v >= 0.0
    ensures n.Finite? && n.value >= 0.0
  {
    Finite(ScientificOf(v, e))
  }

  /** A decimal literal `w.f` reads as w + f / 10^|f|: for instance
      "12.5" is 12.5 and ".5" is 0.5. */
  lemma DecimalValue(s: string, w: string, f: string)
    requires Trim(s) == w + "." + f && AllDigits(w) && AllDigits(f) && (w != [] || f != [])
    ensures ToNumber(s) == Finite(DecimalOf(w, f))
  {
    var u := Trim(s);
    UnsignedDecimal(u, w, f);
    assert u[0] != '-' && u[0] != '+' by {
      if w != [] { assert u[0] == w[0]; } else { assert u[0] == '.'; }
    }
  }

  lemma UnsignedDecimal(u: string, w: string, f: string)
    requires u == w + "." + f && AllDigits(w) && AllDigits(f) && (w != [] || f != [])
    ensures Unsigned(u) == Finite(DecimalOf(w, f))
  {
    var k := |w|;
    assert u[k] == '.';
    assert u[..k] == w;
    assert u[k + 1..] == f;
    DotIndexIs(u, k);
    assert forall i :: 0 <= i < |u| ==> IsDigit(u[i]) || u[i] == '.';
    ExpIndexAbsent(u);
    assert u[..|u|] == u;
  }

  /** A literal with no exponent mark is all mantissa. */
  lemma {:induction false} ExpIndexAbsent(u: string)
    requires forall i :: 0 <= i < |u| ==> IsDigit(u[i]) || u[i] == '.'
    ensures ExpIndex(u) == |u|
  {
    if u != [] {
      ExpIndexAbsent(u[1..]);
    }
  }

  /** A literal `wex` reads as w * 10^x (see `ScientificWhole`): for
      instance "1e3" is 1000. */
  lemma ExponentValue(s: string, w: string, x: string)
    requires Trim(s) == w + "e" + x && AllDigits(w) && w != [] && AllDigits(x) && x != []
    ensures ToNumber(s) == Finite(ScientificOf(DigitsValue(w) as real, DigitsValue(x)))
  {
    var u := Trim(s);
    assert u[0] == w[0];
    UnsignedExponent(u, w, x);
  }

  lemma UnsignedExponent(u: string, w: string, x: string)
    requires u == w + "e" + x && AllDigits(w) && w != [] && AllDigits(x) && x != []
    ensures Unsigned(u) == Finite(ScientificOf(DigitsValue(w) as real, DigitsValue(x)))
  {
    var k := |w|;
    assert u[k] == 'e';
    assert u[..k] == w;
    assert u[k + 1..] == x;
    ExpIndexIs(u, k);
    assert Decimal(w) == Finite(DigitsValue(w) as real);
    assert Exponent(x) == Some(DigitsValue(x) as int);
    var v, e := DigitsValue(w) as real, DigitsValue(x);
    assert Unsigned(u) == WithExponent(Finite(v), true, x);
    WithExponentSome(v, x, e);
  }

  lemma WithExponentSome(v: real, x: string, e: int)
    requires v >= 0.0 && Exponent(x) == Some(e)
    ensures WithExponent(Finite(v), true, x) == Scaled(v, e)
  {
  }

  /** With a non-negative exponent the scale is a power of ten: for
      instance 2 * 10^3 is 2000. */
  lemma ScientificWhole(m: real, e: nat)
    ensures ScientificOf(m, e) == m * Pow10(e) as real
  {
  }

  lemma {:induction false} ExpIndexIs(u: string, k: nat)
    requires k < |u| && IsExpMark(u[k]) && AllDigits(u[..k])
    ensures ExpIndex(u) == k
  {
    if k > 0 {
      assert u[0] == u[..k][0];
      assert u[1..][..k - 1] == u[..k][1..];
      ExpIndexIs(u[1..], k - 1);
    }
  }

  /** A literal `-wex` reads as -(w * 10^x). */
  lemma NegativeExponentValue(s: string, w: string, x: string)
    requires Trim(s) == "-" + w + "e" + x && AllDigits(w) && w != [] && AllDigits(x) && x != []
    ensures ToNumber(s) == Finite(-ScientificOf(DigitsValue(w) as real, DigitsValue(x)))
  {
    var t := Trim(s);
    assert t[1..] == w + "e" + x;
    UnsignedExponent(t[1..], w, x);
  }

  /** The mantissa 1 and exponent 3 of "1e3" and "-1e3" give 1000. */
  lemma Thousand()
    ensures ScientificOf(DigitsValue("1") as real, DigitsValue("3")) == 1000.0
  {
    assert DigitsValue("1") == 1 && DigitsValue("3") == 3 by {
      assert "1"[..0] == [] && "3"[..0] == [];
    }
    ScientificWhole(1.0, 3);
    assert Pow10(3) == 1000;
  }

  /** The exponent forms a number input can hold: "1e3" is 1000. */
  lemma OneEThree()
    ensures ToNumber("1e3") == Finite(1000.0)
  {
    var u := "1e3";
    assert u[0] == '1' && u[2] == '3';
    TrimNoSpace(u);
    assert u == "1" + "e" + "3";
    ExponentValue(u, "1", "3");
    Thousand();
  }

  /** "-1e3" is -1000. */
  lemma MinusOneEThree()
    ensures ToNumber("-1e3") == Finite(-1000.0)
  {
    var m := "-1e3";
    assert m[0] == '-' && m[3] == '3';
    TrimNoSpace(m);
    assert m == "-" + "1" + "e" + "3";
    NegativeExponentValue(m, "1", "3");
    Thousand();
  }


  lemma {:induction false} DotIndexIs(u: string, k: nat)
    requires k < |u| && u[k] == '.' && AllDigits(u[..k])
    ensures DotIndex(u) == k
  {
    if k > 0 {
      assert u[0] == u[..k][0];
      assert u[1..][..k - 1] == u[..k][1..];
      DotIndexIs(u[1..], k - 1);
    }
  }

  /** `Number(s)`: surrounding whitespace is ignored, the empty string is 0,
      a signed decimal literal with an optional exponent is its value,
      anything else is NaN. */
  function ToNumber(s: string): (n: Num)
    ensures Blank(s) ==> n == Finite(0.0)
    ensures n.Finite? && n.value < 0.0 ==> Trim(s)[0] == '-'
    ensures AllDigits(Trim(s)) && Trim(s) != [] ==> n == Finite(DigitsValue(Trim(s)) as real)
    ensures |Trim(s)| > 1 && Trim(s)[0] == '-' && AllDigits(Trim(s)[1..]) ==>
      n == Finite(-(DigitsValue(Trim(s)[1..]) as real))
    ensures |Trim(s)| > 1 && Trim(s)[0] == '+' && AllDigits(Trim(s)[1..]) ==>
      n == Finite(DigitsValue(Trim(s)[1..]) as real)
  {
    var t := Trim(s);
    if t == [] then Finite(0.0)
    else if t[0] == '-' then
      (match Unsigned(t[1..]) case NaN => NaN case Finite(v) => Finite(-v))
    else if t[0] == '+' then Unsigned(t[1..])
    else Unsigned(t)
  }

  /** `Number(v) || 0`: NaN and zero both become 0, so a blank field or
      one holding a letter foreign to numbers reads as 0 and a run of
      digits as its value. */
  function NumberOrZero(s: string): (r: real)
    ensures ToNumber(s).Finite? ==> r == ToNumber(s).value
    ensures ToNumber(s).NaN? ==> r == 0.0
    ensures Blank(s) ==> r == 0.0
    ensures AllDigits(Trim(s)) && Trim(s) != [] ==> r == DigitsValue(Trim(s)) as real
    ensures (exists i :: 0 <= i < |Trim(s)| && ForeignLetter(Trim(s)[i])) ==> r == 0.0
  {
    assert (exists i :: 0 <= i < |Trim(s)| && ForeignLetter(Trim(s)[i])) ==> ToNumber(s) == NaN by {
      if exists i :: 0 <= i < |Trim(s)| && ForeignLetter(Trim(s)[i]) {
        LetterIsNaN(s);
      }
    }
    match ToNumber(s)
    case NaN => 0.0
    case Finite(v) => v
  }

  /** A letter that no numeric string of JavaScript contains: not a
      hexadecimal digit, not the `x` or `o` of a radix prefix (`b` is a
      hexadecimal digit), and not a letter of `Infinity`. */
  predicate ForeignLetter(c: char) {
    IsLetter(c) && c !in "abcdefABCDEFxXoOInity"
  }

  /** A string holding such a letter is not a number: for instance "hello"
      is NaN. */
  lemma LetterIsNaN(s: string)
    requires exists i :: 0 <= i < |Trim(s)| && ForeignLetter(Trim(s)[i])
    ensures ToNumber(s) == NaN
  {
    var t := Trim(s);
    var i :| 0 <= i < |t| && ForeignLetter(t[i]);
    if t[0] == '-' || t[0] == '+' {
      var u := t[1..];
      assert i >= 1 && u[i - 1] == t[i];
      UnsignedLetterIsNaN(u, i - 1);
    } else {
      UnsignedLetterIsNaN(t, i);
    }
  }

  lemma UnsignedLetterIsNaN(u: string, i: nat)
    requires i < |u| && IsLetter(u[i]) && !IsExpMark(u[i])
    ensures Unsigned(u) == NaN
  {
    var k := ExpIndex(u);
    if i < k {
      assert u[..k][i] == u[i];
      DecimalLetterIsNaN(u[..k], i);
    } else {
      assert i > k;
      var x := u[k + 1..];
      assert x[i - k - 1] == u[i];
      ExponentLetterIsNone(x, i - k - 1);
    }
  }

  lemma DecimalLetterIsNaN(m: string, i: nat)
    requires i < |m| && IsLetter(m[i])
    ensures Decimal(m) == NaN
  {
    var k := DotIndex(m);
    if i < k {
      assert m[..k][i] == m[i];
    } else if i > k {
      assert m[k + 1..][i - k - 1] == m[i];
    }
  }

  lemma ExponentLetterIsNone(x: string, j: nat)
    requires j < |x| && IsLetter(x[j])
    ensures Exponent(x) == None
  {
    if x[0] == '+' || x[0] == '-' {
      assert j >= 1 && x[1..][j - 1] == x[j];
    }
  }
}

=== FILE: login.dfy ===
/** The rider login page (`Login`): the sign-up check, the live field
    checks with their length caps, and the employment type sent at sign-up. */
module LoginPage {
  import opened Wrappers
  import opened JsText
  import opened FormRules

  datatype Mode = LoginMode | SignUpMode

  const NameTooLong: string := "Name must be 20 characters or less"
  const NameChars: string := "Name can only contain alphabets, numbers, or spaces"

  /** `validateForm()`: nothing is checked when logging in; signing up
      needs a name of at most twenty letters, digits or spaces and a
      well-formed password, checked in that order. */
  function ValidateForm(mode: Mode, name: string, password: string): (r: Verdict)
    ensures mode == LoginMode ==> r == Proceed
    ensures mode == SignUpMode ==> (r == Proceed <==> |name| <= 20 && NameRule(name) && PasswordFormat(password))
    ensures mode == SignUpMode && |name| > 20 ==> r == Refuse(NameTooLong)
  {
    if mode == LoginMode then Proceed
    else if |name| > 20 then Refuse(NameTooLong)
    else if !NameRule(name) then Refuse(NameChars)
    else if |password| < 8 then Refuse(TooShort)
    else if !PasswordRule(password) then Refuse(NeedsLetterAndDigit)
    else Proceed
  }

  datatype Form = Form(name: string, email: string, password: string, nameError: string, passwordError: string)

  const InitialForm: Form := Form("", "", "", "", "")

  datatype Field = NameField | EmailField | PasswordField

  /** The live message under the name field for a value of at most twenty
      characters. */
  function NameFieldError(value: string): (e: string)
    ensures e == "" <==> value == "" || NameRule(value)
  {
    if value != "" && !NameRule(value) then NameChars else ""
  }

  /** `handleInputChange`: a name over twenty or a password over fifty
      characters only sets that field's error and is not stored; any other
      edit is stored, with the field's error recomputed. */
  function InputChange(f: Form, field: Field, value: string): (r: Form)
    ensures field == NameField && |value| > 20 ==> r == f.(nameError := NameTooLong)
    ensures field == PasswordField && |value| > 50 ==> r == f.(passwordError := TooLong)
    ensures field == NameField && |value| <= 20 ==> r == f.(name := value, nameError := NameFieldError(value))
    ensures field == PasswordField && |value| <= 50 ==>
      r == f.(password := value, passwordError := PasswordFieldError(value))
    ensures field == EmailField ==> r == f.(email := value)
  {
    match field
    case NameField =>
      if |value| > 20 then f.(nameError := NameTooLong)
      else f.(name := value, nameError := NameFieldError(value))
    case PasswordField =>
      if |value| > 50 then f.(passwordError := TooLong)
      else f.(password := value, passwordError := PasswordFieldError(value))
    case EmailField => f.(email := value)
  }

  /** The stored values never exceed their caps. */
  predicate WithinCaps(f: Form) {
    |f.name| <= 20 && |f.password| <= 50
  }

  /** The messages shown agree with the stored values. */
  predicate ErrorsCurrent(f: Form) {
    f.nameError == NameFieldError(f.name) && f.passwordError == PasswordFieldError(f.password)
  }

  lemma InputChangeKeepsCaps(f: Form, field: Field, value: string)
    requires WithinCaps(f)
    ensures WithinCaps(InputChange(f, field, value))
  {
  }

  /** With both fields filled in and their messages current, the sign-up
      check passes exactly when neither field shows a message. */
  lemma CleanFieldsPass(f: Form)
    requires WithinCaps(f) && ErrorsCurrent(f)
    requires f.name != "" && f.password != ""
    ensures ValidateForm(SignUpMode, f.name, f.password) == Proceed <==>
      f.nameError == "" && f.passwordError == ""
  {
  }

  /** `riderType === "Part Timer" ? "PartTimer" : "FullTimer"` */
  function EmploymentType(riderType: string): (r: string)
    ensures r == "PartTimer" <==> riderType == "Part Timer"
    ensures r == "PartTimer" || r == "FullTimer"
  {
    if riderType == "Part Timer" then "PartTimer" else "FullTimer"
  }
}

=== FILE: manage_account.dfy ===
/** The rider account page (`ManageAccount`): the profile check and payload,
    the profile-picture gate, and the tab the page opens on. */
module ManageAccountPage {
  import opened Wrappers
  import opened JsText

  /** `validateProfileForm()`: a name of at most twenty characters, and a new
      password that is either left empty or at least eight characters. */
  function ValidateProfile(name: string, newPassword: string): (r: Verdict)
    ensures r == Proceed <==> |name| <= 20 && (newPassword == "" || |newPassword| >= 8)
    ensures |name| > 20 ==> r == Refuse("Name must be 20 characters or less")
  {
    if |name| > 20 then Refuse("Name must be 20 characters or less")
    else if newPassword != "" && |newPassword| < 8 then Refuse("Password must be at least 8 characters")
    else Proceed
  }

  datatype Profile = Profile(name: string, employmentType: string, oldPassword: string, newPassword: string)

  /** The update body: empty passwords are sent as `undefined`. */
  datatype Payload = Payload(name: string, employmentType: string,
                             oldPassword: Option<string>, newPassword: Option<string>)

  /** `value || undefined` */
  function OrUndefined(value: string): (r: Option<string>)
    ensures r.None? <==> value == ""
    ensures r.Some? ==> r.value == value
  {
    if value == "" then None else Some(value)
  }

  function ProfilePayload(p: Profile): (r: Payload)
    ensures r.name == p.name && r.employmentType == p.employmentType
    ensures r.oldPassword.None? <==> p.oldPassword == ""
    ensures r.newPassword.None? <==> p.newPassword == ""
  {
    Payload(p.name, p.employmentType, OrUndefined(p.oldPassword), OrUndefined(p.newPassword))
  }

  /** The profile can be recovered from what is sent, reading an absent
      password as empty. */
  lemma ProfilePayloadRoundTrip(p: Profile)
    ensures var r := ProfilePayload(p);
      Profile(r.name, r.employmentType, r.oldPassword.GetOr(""), r.newPassword.GetOr("")) == p
  {
  }

  /** A selected file: its MIME type and its size once compressed. The
      compression itself belongs to a library and is not modelled; its result
      size is an input. */
  datatype Picked = Picked(mimeType: string, compressedSize: nat)

  /** The picture state: the accepted (compressed) file and the message. */
  datatype Picture = Picture(accepted: Option<Picked>, error: string)

  const MaxCompressedBytes: nat := 1024 * 1024

  /** `handleProfilePictureChange`: no file changes nothing; a non-image
      type, or a compressed size over one MiB, only sets the message; any
      other file is accepted and the message cleared. */
  function PictureChange(s: Picture, file: Option<Picked>): (r: Picture)
    ensures file.None? ==> r == s
    ensures file.Some? && !StartsWith(file.value.mimeType, "image/") ==>
      r == s.(error := "Only valid image formats are allowed (e.g., JPEG, PNG, GIF, WEBP)")
    ensures r.accepted != s.accepted ==> r == Picture(file, "")
    ensures r.accepted != s.accepted <==>
      file.Some? && StartsWith(file.value.mimeType, "image/") && file.value.compressedSize <= MaxCompressedBytes
        && s.accepted != file
  {
    match file
    case None => s
    case Some(f) =>
      if !StartsWith(f.mimeType, "image/") then
        s.(error := "Only valid image formats are allowed (e.g., JPEG, PNG, GIF, WEBP)")
      else if f.compressedSize > MaxCompressedBytes then
        s.(error := "Image size must be 1MB or less after compression")
      else Picture(file, "")
  }

  /** An image of at most one MiB once compressed. */
  predicate Fits(p: Picked) {
    StartsWith(p.mimeType, "image/") && p.compressedSize <= MaxCompressedBytes
  }

  /** Every accepted picture fits. */
  lemma AcceptedPictureFits(s: Picture, file: Option<Picked>)
    requires s.accepted.Some? ==> Fits(s.accepted.value)
    ensures PictureChange(s, file).accepted.Some? ==> Fits(PictureChange(s, file).accepted.value)
  {
  }

  /** `new URLSearchParams(search).get("tab") || "updateProfile"`: a missing
      or empty parameter opens the profile tab. */
  function InitialTab(tab: Option<string>): (r: string)
    ensures tab.Some? && tab.value != "" ==> r == tab.value
    ensures tab.None? || tab == Some("") ==> r == "updateProfile"
    ensures r != ""
  {
    if tab.Some? && tab.value != "" then tab.value else "updateProfile"
  }
}

=== FILE: newsletter.dfy ===
/** The newsletter box (`NewsLetterBox`): its email test and what a
    submission does to the field. */
module NewsletterBox {
  import opened JsText

  /** Characters `from..to` of `s` are all non-whitespace (`\S`). */
  predicate NoSpaceIn(s: string, from: int, to: int)
    requires 0 <= from <= to <= |s|
  {
    forall k :: from <= k < to ==> !IsSpace(s[k])
  }

  /** `s[x..c]` reads `local@domain.tld` with each part non-empty and free of
      whitespace: the '@' at `a`, the '.' at `b`. */
  predicate SpanAt(s: string, x: int, a: int, b: int, c: int) {
    && 0 <= x < a && a + 1 < b && b + 1 < c <= |s|
    && s[a] == '@' && s[b] == '.'
    && NoSpaceIn(s, x, a) && NoSpaceIn(s, a + 1, b) && NoSpaceIn(s, b + 1, c)
  }

  /** `/\S+@\S+\.\S+/.test(s)`: the pattern has no anchors, so it matches
      when such a span occurs anywhere in `s`. */
  predicate Matches(s: string) {
    exists x, a, b, c | 0 <= x < a < b < c <= |s| :: SpanAt(s, x, a, b, c)
  }

  /** The acceptance test of `onSubmitHandler`. */
  predicate Accepts(email: string) {
    !Blank(email) && Matches(email)
  }

  /** The trim test adds nothing: a match already holds a character that is
      not whitespace, so whitespace-only input is refused by the pattern
      alone. */
  lemma MatchIsNotBlank(email: string)
    requires Matches(email)
    ensures !Blank(email)
    ensures Accepts(email)
  {
    var x, a, b, c :| 0 <= x < a < b < c <= |email| && SpanAt(email, x, a, b, c);
    assert !IsSpace(email[x]);
  }

  lemma BlankIsRefused(email: string)
    requires AllSpace(email)
    ensures !Accepts(email)
  {
  }

  /** The simplest accepted shape: one character on each side. */
  lemma ShortestAccepted(l: char, d: char, t: char)
    requires !IsSpace(l) && !IsSpace(d) && !IsSpace(t)
    ensures Accepts([l, '@', d, '.', t])
  {
    var s := [l, '@', d, '.', t];
    assert SpanAt(s, 0, 1, 3, 5);
    MatchIsNotBlank(s);
  }

  /** Without anchors the test also passes text around an address. */
  lemma SurroundingTextAccepted(pre: string, l: char, d: char, t: char, post: string)
    requires !IsSpace(l) && !IsSpace(d) && !IsSpace(t)
    ensures Accepts(pre + [l, '@', d, '.', t] + post)
  {
    var s := pre + [l, '@', d, '.', t] + post;
    var x := |pre|;
    assert s[x] == l && s[x + 1] == '@' && s[x + 2] == d && s[x + 3] == '.' && s[x + 4] == t;
    assert SpanAt(s, x, x + 1, x + 3, x + 5);
    MatchIsNotBlank(s);
  }

  /** `onSubmitHandler`: an accepted address clears the field, a refused one
      stays for correction. */
  function Submit(email: string): (r: (bool, string))
    ensures r.0 <==> Accepts(email)
    ensures r.0 ==> r.1 == ""
    ensures !r.0 ==> r.1 == email
  {
    if Accepts(email) then (true, "") else (false, email)
  }
}

=== FILE: order_info.dfy ===
/** The order lookups the account page and the orders page both define, in
    the same words: the status label, description and badge colour, the
    courier tracking details, the tracking dialog guard and the two-item
    preview of an order. */
module OrderInfo {
  import opened Wrappers
  import opened JsText
  import Seqs
  import Catalogue

  /** The order statuses the lookups know. */
  datatype Status =
    | Pending | Confirmed | Processing | ReadyForShipment | Shipped
    | OutForDelivery | Delivered | Cancelled | Refunded | PartiallyRefunded

  /** The status as the server writes it. */
  function Name(st: Status): string {
    match st
    case Pending => "pending"
    case Confirmed => "confirmed"
    case Processing => "processing"
    case ReadyForShipment => "ready_for_shipment"
    case Shipped => "shipped"
    case OutForDelivery => "out_for_delivery"
    case Delivered => "delivered"
    case Cancelled => "cancelled"
    case Refunded => "refunded"
    case PartiallyRefunded => "partially_refunded"
  }

  /** The `switch (status)` shared by the lookups: a known status, or `None`
      for the `default` branch. */
  function Parse(raw: string): (r: Option<Status>)
    ensures r.Some? ==> Name(r.value) == raw
  {
    if raw == "pending" then Some(Pending)
    else if raw == "confirmed" then Some(Confirmed)
    else if raw == "processing" then Some(Processing)
    else if raw == "ready_for_shipment" then Some(ReadyForShipment)
    else if raw == "shipped" then Some(Shipped)
    else if raw == "out_for_delivery" then Some(OutForDelivery)
    else if raw == "delivered" then Some(Delivered)
    else if raw == "cancelled" then Some(Cancelled)
    else if raw == "refunded" then Some(Refunded)
    else if raw == "partially_refunded" then Some(PartiallyRefunded)
    else None
  }

  /** Every known status is recognised by its own name. */
  lemma ParseName(st: Status)
    ensures Parse(Name(st)) == Some(st)
  {
  }

  /** `getStatusDescription(status)` */
  function Description(raw: string): (d: string)
    ensures Parse(raw).None? <==> d == "Your order status is unknown."
  {
    match Parse(raw)
    case None => "Your order status is unknown."
    case Some(st) =>
      match st
      case Pending => "Your order is pending confirmation."
      case Confirmed => "Your order has been confirmed."
      case Processing => "Your order is being processed."
      case ReadyForShipment => "Your order is ready for shipment."
      case Shipped => "Your order has been shipped."
      case OutForDelivery => "Your order is out for delivery."
      case Delivered => "Your order has been delivered."
      case Cancelled => "Your order has been cancelled."
      case Refunded => "Your order has been refunded."
      case PartiallyRefunded => "Your order has been partially refunded."
  }

  /** The colour family of a status badge: gray for an unknown status. */
  function Hue(raw: string): (h: string)
    ensures ' ' !in h
    ensures Parse(raw).None? ==> h == "gray"
  {
    match Parse(raw)
    case None => "gray"
    case Some(st) =>
      match st
      case Pending => "yellow"
      case Confirmed => "blue"
      case Processing => "indigo"
      case ReadyForShipment => "purple"
      case Shipped => "teal"
      case OutForDelivery => "orange"
      case Delivered => "green"
      case Cancelled => "red"
      case Refunded => "pink"
      case PartiallyRefunded => "pink"
  }

  /** The two classes of a status badge: its background and its text
      colour, both of the status's colour family. */
  function BadgeClasses(raw: string): (c: (string, string))
    ensures Parse(raw).None? ==> c == ("bg-gray-100", "text-gray-800")
    ensures StartsWith(c.0, "bg-") && StartsWith(c.1, "text-")
    ensures ' ' !in c.0 && ' ' !in c.1
  {
    var h := Hue(raw);
    var bg, text := "bg-" + h + "-100", "text-" + h + "-800";
    assert bg[..3] == "bg-" && text[..5] == "text-";
    if h == "gray" then GrayClasses(); (bg, text) else (bg, text)
  }

  lemma GrayClasses()
    ensures "bg-" + "gray" + "-100" == "bg-gray-100" && "text-" + "gray" + "-800" == "text-gray-800"
  {
  }

  /** `getStatusColor(status)`: the two classes joined by one space. */
  function Colour(raw: string): string {
    BadgeClasses(raw).0 + " " + BadgeClasses(raw).1
  }

  /** `s.split(" ")[1]` when `s` holds exactly one space. */
  function SecondToken(s: string): (t: string)
    requires ' ' in s
  {
    var i := SpaceIndex(s);
    s[i + 1..]
  }

  function SpaceIndex(s: string): (i: nat)
    requires ' ' in s
    ensures i < |s| && s[i] == ' ' && ' ' !in s[..i]
  {
    if s[0] == ' ' then 0
    else
      assert ' ' in s[1..];
      var j := SpaceIndex(s[1..]);
      assert s[..j + 1] == [s[0]] + s[1..][..j];
      j + 1
  }

  /** The status text on an order card takes the second class of the badge
      colour, which is always a text colour class. */
  lemma SecondTokenIsTextClass(raw: string)
    ensures ' ' in Colour(raw)
    ensures SecondToken(Colour(raw)) == BadgeClasses(raw).1
    ensures StartsWith(SecondToken(Colour(raw)), "text-")
  {
    var (bg, text) := BadgeClasses(raw);
    var s := bg + " " + text;
    assert s[|bg|] == ' ';
    assert s[|bg| + 1..] == text;
  }

  /** `status.replace(/_/g, " ").toUpperCase()`: the badge label. */
  function StatusLabel(raw: string): (r: string)
    ensures |r| == |raw|
    ensures '_' !in r
    ensures forall i :: 0 <= i < |raw| && raw[i] != '_' ==> r[i] == UpperChar(raw[i])
    ensures forall i :: 0 <= i < |raw| && raw[i] == '_' ==> r[i] == ' '
  {
    var r := ToUpper(ReplaceChar(raw, '_', ' '));
    assert forall i :: 0 <= i < |r| ==> r[i] != '_';
    r
  }

  // ---------------------------------------------------------------------
  // Couriers and the tracking dialog

  datatype Shipment = Shipment(name: string, link: string, guidance: string)

  /** The shipping methods the lookup knows: five couriers with a tracking
      page, and "other". */
  datatype Method = Tcs | Leopard | Trax | PostEx | PakistanPost | OtherMethod

  function MethodOf(raw: string): (r: Option<Method>) {
    if raw == "tcs" then Some(Tcs)
    else if raw == "leopard" then Some(Leopard)
    else if raw == "trax" then Some(Trax)
    else if raw == "postex" then Some(PostEx)
    else if raw == "pakistan_post" then Some(PakistanPost)
    else if raw == "other" then Some(OtherMethod)
    else None
  }

  /** A courier with a tracking page. */
  predicate HasTrackingPage(raw: string) {
    MethodOf(raw).Some? && MethodOf(raw).value != OtherMethod
  }

  /** `getShipmentInfo(method)`, where an absent method (`undefined`) takes
      the `default` branch like any unknown one. */
  function ShipmentInfo(courier: Option<string>): (r: Shipment)
    ensures r.link != "" <==> courier.Some? && HasTrackingPage(courier.value)
    ensures r.name == "Unknown" <==> courier.None? || MethodOf(courier.value).None?
  {
    MethodInfo(if courier.Some? then MethodOf(courier.value) else None)
  }

  function MethodInfo(m: Option<Method>): (r: Shipment)
    ensures r.link != "" <==> m.Some? && m.value != OtherMethod
    ensures r.name == "Unknown" <==> m.None?
  {
    match m
    case None => Shipment("Unknown", "", "No tracking information available. Please contact support.")
    case Some(c) => Shipment(CourierName(c), CourierLink(c), Guidance(c))
  }

  /** The name shown for a known method; none is "Unknown". */
  function CourierName(m: Method): (n: string)
    ensures n != "Unknown"
  {
    match m
    case Tcs => "TCS"
    case Leopard => "Leopard"
    case Trax => "Trax"
    case PostEx => "PostEx"
    case PakistanPost => "Pakistan Post"
    case OtherMethod => "Other"
  }

  /** The courier's tracking page; "other" has none. */
  function CourierLink(m: Method): (l: string)
    ensures l != "" <==> m != OtherMethod
  {
    match m
    case Tcs => "https://www.tcsexpress.com/track/"
    case Leopard => "https://www.leopardscourier.com/tracking"
    case Trax => "https://trax.pk/tracking/"
    case PostEx => "https://postex.pk/tracking"
    case PakistanPost => "https://ep.gov.pk/track.asp"
    case OtherMethod => ""
  }

  /** The advice under the tracking ID: the couriers' all follow one
      sentence pattern. */
  function Guidance(m: Method): string {
    if m == OtherMethod then "Contact support for tracking details as this shipment uses a custom method."
    else "Visit the " + CourierName(m) + " website and enter your tracking ID to monitor your shipment."
  }

  /** An item of a placed order, with the product snapshot the server may
      attach to it. */
  datatype OrderItem = OrderItem(productId: string, quantity: int, price: real, product: Option<ItemProduct>)

  /** The fields of a product the order cards read. */
  datatype ItemProduct = ItemProduct(id: string, name: string, image: Catalogue.Image)

  /** `Array.isArray(image) ? image[0] : image || placeholder`: the first URL
      of an array (`None`, JavaScript's `undefined`, for an empty one), a
      non-empty URL, or the placeholder. */
  function ImageSrc(image: Catalogue.Image, placeholder: string): (r: Option<string>)
    ensures r.None? <==> image == Catalogue.Urls([])
    ensures image.Url? && image.url != "" ==> r == Some(image.url)
    ensures image.NoImage? || image == Catalogue.Url("") ==> r == Some(placeholder)
  {
    match image
    case Urls(us) => if us == [] then None else Some(us[0])
    case Url(u) => if u != "" then Some(u) else Some(placeholder)
    case NoImage => Some(placeholder)
  }

  datatype Order = Order(id: string, status: string, trackingId: string, shippingMethod: string, items: seq<OrderItem>)

  /** `handleTrackOrderClick(order)`: the dialog opens on the order only when
      it has both a tracking id and a shipping method. */
  function TrackOrderClick(o: Order): (r: Option<Order>)
    ensures r.Some? <==> o.trackingId != "" && o.shippingMethod != ""
    ensures r.Some? ==> r.value == o
  {
    if o.trackingId != "" && o.shippingMethod != "" then Some(o) else None
  }

  /** An opened dialog always has a method to link to, though the link is
      empty for "other" and unknown couriers. */
  lemma OpenedDialogHasMethod(o: Order)
    requires TrackOrderClick(o).Some?
    ensures ShipmentInfo(Some(TrackOrderClick(o).value.shippingMethod)).link != ""
        <==> HasTrackingPage(o.shippingMethod)
  {
  }

  // ---------------------------------------------------------------------
  // Order preview

  /** The card preview: the first two items, and the count behind the
      "+n more items" note when there are more. */
  datatype Preview = Preview(shown: seq<OrderItem>, more: Option<nat>)

  function OrderPreview(items: seq<OrderItem>): (p: Preview)
    ensures |p.shown| <= 2 && |p.shown| <= |items| && p.shown == items[..|p.shown|]
    ensures |items| <= 2 ==> p.shown == items && p.more.None?
    ensures |items| > 2 ==> p.more == Some(|items| - 2)
  {
    if |items| > 2 then Preview(items[..2], Some(|items| - 2)) else Preview(items, None)
  }

  /** Items shown plus the count in the note is the number of items. */
  lemma PreviewAccountsForAll(items: seq<OrderItem>)
    ensures |OrderPreview(items).shown| + OrderPreview(items).more.GetOr(0) == |items|
  {
  }
}

=== FILE: orders.dfy ===
/** The orders page (`Orders`): how each previewed item of an order card is
    drawn. The status, courier and tracking lookups are those of
    `OrderInfo`. */
module OrdersPage {
  import opened Wrappers
  import opened Catalogue
  import opened OrderInfo

  const Placeholder: string := "/placeholder-image.jpg"

  /** One previewed item: not drawn, drawn with a name and an image source,
      or a render error. */
  datatype Row = Skipped | Drawn(name: string, image: Option<string>) | Throws

  /** The item row as written: the name comes from the catalogue product (or
      the item's own snapshot), but the image is always read from
      `item.product`, which throws when the item has no snapshot. */
  function ItemRow(products: seq<Product>, item: OrderItem): (r: Row)
    ensures !HasId(products, item.productId) && item.product.None? ==> r == Skipped
    ensures HasId(products, item.productId) && item.product.None? ==> r == Throws
    ensures r.Drawn? ==> item.product.Some? && r.image == ImageSrc(item.product.value.image, Placeholder)
    ensures r.Drawn? && HasId(products, item.productId) ==> r.name == Find(products, item.productId).value.name
  {
    var name := match Find(products, item.productId)
      case Some(p) => Some(p.name)
      case None => if item.product.Some? then Some(item.product.value.name) else None;
    if name.None? then Skipped
    else if item.product.None? then Throws
    else Drawn(name.value, ImageSrc(item.product.value.image, Placeholder))
  }

  /** The image does not depend on the catalogue: a product found there
      with a different image still shows the snapshot's. */
  lemma ImageIgnoresCatalogue(products: seq<Product>, others: seq<Product>, item: OrderItem)
    requires item.product.Some?
    ensures ItemRow(products, item).Drawn? && ItemRow(others, item).Drawn?
    ensures ItemRow(products, item).image == ItemRow(others, item).image
  {
  }

  /** The rows drawn for an order card: those of the previewed items. */
  function CardRows(products: seq<Product>, o: Order): (rows: seq<Row>)
    ensures |rows| <= 2 && |rows| == |OrderPreview(o.items).shown|
    ensures forall i :: 0 <= i < |rows| ==> rows[i] == ItemRow(products, o.items[i])
  {
    var shown := OrderPreview(o.items).shown;
    seq(|shown|, i requires 0 <= i < |shown| => ItemRow(products, shown[i]))
  }
}

=== FILE: otp.dfy ===
/** The six one-character boxes of a one-time code, shared by the register,
    email-verification and password-reset pages: typing into a box, pasting a
    whole code, and the check before the code is submitted. */
module Otp {
  import opened Wrappers
  import opened JsText

  /** The six boxes start empty. */
  const Empty: seq<string> := ["", "", "", "", "", ""]

  /** Six boxes, each empty or holding one digit: the shape every handler
      keeps. */
  predicate WellFormed(otp: seq<string>) {
    |otp| == 6 && forall i :: 0 <= i < 6 ==> AtMostOneDigit(otp[i])
  }

  /** `handleOtpChange(index, value)`: a value that is empty or one digit is
      stored in its box; anything else leaves the boxes as they were. */
  function Change(otp: seq<string>, index: nat, value: string): (r: seq<string>)
    requires index < |otp|
    ensures AtMostOneDigit(value) ==> r == otp[index := value]
    ensures !AtMostOneDigit(value) ==> r == otp
    ensures WellFormed(otp) ==> WellFormed(r)
  {
    if AtMostOneDigit(value) then otp[index := value] else otp
  }

  /** The box focused after a change: the next one, when a digit was stored
      and the box was not the last. */
  function FocusAfter(index: nat, value: string): (r: Option<nat>)
    ensures r.Some? <==> AtMostOneDigit(value) && value != "" && index < 5
    ensures r.Some? ==> r.value == index + 1 && r.value < 6
  {
    if AtMostOneDigit(value) && value != "" && index < 5 then Some(index + 1) else None
  }

  /** `text.split("")`: one box per character. */
  function Split(t: string): (r: seq<string>)
    ensures |r| == |t|
    ensures forall i :: 0 <= i < |t| ==> r[i] == [t[i]]
  {
    seq(|t|, i requires 0 <= i < |t| => [t[i]])
  }

  /** `otp.join("")` */
  function Joined(otp: seq<string>): string {
    if otp == [] then "" else otp[0] + Joined(otp[1..])
  }

  /** Splitting a string into boxes and joining them gives the string back. */
  lemma {:induction false} JoinedSplit(t: string)
    ensures Joined(Split(t)) == t
  {
    if t != [] {
      assert Split(t)[1..] == Split(t[1..]);
      JoinedSplit(t[1..]);
      assert t == [t[0]] + t[1..];
    }
  }

  /** `handlePaste`: the trimmed clipboard text replaces the boxes when it is
      exactly six digits; otherwise nothing changes. */
  function Paste(otp: seq<string>, text: string): (r: seq<string>)
    ensures SixDigits(Trim(text)) ==> WellFormed(r) && Joined(r) == Trim(text)
    ensures !SixDigits(Trim(text)) ==> r == otp
  {
    var t := Trim(text);
    if SixDigits(t) then
      JoinedSplit(t);
      assert Split(t)[..6] == Split(t);
      assert forall i :: 0 <= i < 6 ==> Split(t)[i] == [t[i]] && IsDigit(t[i]);
      Split(t)[..6]
    else otp
  }

  /** The check before a code is sent: the joined boxes must be six digits. */
  function SubmitCheck(otp: seq<string>): (r: Verdict)
    ensures r == Proceed <==> SixDigits(Joined(otp))
    ensures r != Proceed ==> r == Refuse("Please enter a valid 6-digit OTP")
  {
    var s := Joined(otp);
    if |s| != 6 || !SixDigits(s) then Refuse("Please enter a valid 6-digit OTP") else Proceed
  }

  /** Joining boxes of at most one digit each gives a string of digits, as
      long as the boxes are, exactly when none of them is empty. */
  lemma {:induction false} JoinedOfDigits(otp: seq<string>)
    requires forall i :: 0 <= i < |otp| ==> AtMostOneDigit(otp[i])
    ensures forall k :: 0 <= k < |Joined(otp)| ==> IsDigit(Joined(otp)[k])
    ensures |Joined(otp)| <= |otp|
    ensures |Joined(otp)| == |otp| <==> forall i :: 0 <= i < |otp| ==> otp[i] != ""
  {
    if otp != [] {
      JoinedOfDigits(otp[1..]);
      var rest := Joined(otp[1..]);
      assert Joined(otp) == otp[0] + rest;
      forall k | 0 <= k < |Joined(otp)| ensures IsDigit(Joined(otp)[k]) {
        if k >= |otp[0]| {
          assert Joined(otp)[k] == rest[k - |otp[0]|];
        }
      }
      if forall i :: 0 <= i < |otp[1..]| ==> otp[1..][i] != "" {
        assert forall i :: 1 <= i < |otp| ==> otp[i] != "" by {
          forall i | 1 <= i < |otp| ensures otp[i] != "" { assert otp[i] == otp[1..][i - 1]; }
        }
      } else {
        var i :| 0 <= i < |otp[1..]| && otp[1..][i] == "";
        assert otp[i + 1] == "";
      }
    }
  }

  /** On well-formed boxes the code may be submitted exactly when every box
      holds a digit. */
  lemma SubmitWhenFull(otp: seq<string>)
    requires WellFormed(otp)
    ensures SubmitCheck(otp) == Proceed <==> forall i :: 0 <= i < 6 ==> otp[i] != ""
  {
    JoinedOfDigits(otp);
  }

  /** A pasted code can be submitted at once. */
  lemma PasteThenSubmit(otp: seq<string>, text: string)
    requires SixDigits(Trim(text))
    ensures SubmitCheck(Paste(otp, text)) == Proceed
  {
  }
}

=== FILE: place_order.dfy ===
/** The signed-in checkout page (`PlaceOrder`): the payment-method
    transitions, the proof upload, the form validation, the guards in front
    of the checkout call, its payload and the cart rollback. */
module PlaceOrderPage {
  import opened Wrappers
  import opened JsText
  import opened Validators
  import opened Checkout
  import Shop

  datatype Form = Form(
    firstName: string, lastName: string, email: string, address: string,
    city: string, postCode: string, country: string, mobileNumber: string,
    payment: Payment)

  /** `handleChange` on the payment-method radio: the value is stored;
      "online" opens the modal, and "cod" closes it and clears the option
      and the proof. */
  function ChangeMethod(s: Payment, value: string): (r: Payment)
    ensures r.paymentMethod == value
    ensures value == "online" ==> r == s.(paymentMethod := value, modalOpen := true)
    ensures value == "cod" ==> r == CashOnDelivery
    ensures value != "online" && value != "cod" ==> r == s.(paymentMethod := value)
  {
    if value == "online" then s.(paymentMethod := value, modalOpen := true)
    else if value == "cod" then CashOnDelivery
    else s.(paymentMethod := value)
  }

  /** `handleOnlinePaymentModalClose(confirm)`: cancelling falls back to cash
      on delivery; confirming only closes the modal. */
  function CloseModal(s: Payment, confirm: bool): (r: Payment)
    ensures !r.modalOpen
    ensures confirm ==> r == s.(modalOpen := false)
    ensures !confirm ==> r == CashOnDelivery
  {
    if confirm then s.(modalOpen := false) else CashOnDelivery
  }

  /** `handleFileChange`: no file leaves the proof as it was; a refused file
      clears it; an accepted one replaces it. */
  function FileChange(s: Payment, picked: Option<FileInfo>): (r: Payment)
    ensures picked.None? ==> r == s
    ensures picked.Some? && ProofAcceptable(picked.value) ==> r == s.(proof := picked)
    ensures picked.Some? && !ProofAcceptable(picked.value) ==> r == s.(proof := None)
  {
    match picked
    case None => s
    case Some(f) => if ProofAcceptable(f) then s.(proof := picked) else s.(proof := None)
  }

  /** Whatever state the form was in, opening the modal and cancelling it
      ends in plain cash on delivery. */
  lemma CancelAfterOnlineIsCod(s: Payment)
    ensures CloseModal(ChangeMethod(s, "online"), false) == CashOnDelivery
  {
  }

  /** A proof kept in the form always passed the upload gate, as long as it
      did at the start. */
  lemma KeptProofWasAccepted(s: Payment, picked: Option<FileInfo>, value: string, confirm: bool)
    requires s.proof.Some? ==> ProofAcceptable(s.proof.value)
    ensures var r := FileChange(s, picked); r.proof.Some? ==> ProofAcceptable(r.proof.value)
    ensures var r := ChangeMethod(s, value); r.proof.Some? ==> ProofAcceptable(r.proof.value)
    ensures var r := CloseModal(s, confirm); r.proof.Some? ==> ProofAcceptable(r.proof.value)
  {
  }

  /** The fields `validateForm()` can record an error for. */
  datatype Field =
    | FirstName | LastName | Email | Address | City | MobileNumber
    | OnlinePaymentOption | PaymentProof

  /** The error recorded for each field. */
  function Message(k: Field): string {
    match k
    case FirstName => "First Name is required"
    case LastName => "Last Name is required"
    case Email => "Valid email is required"
    case Address => "Address is required"
    case City => "City is required"
    case MobileNumber => "Valid mobile number is required"
    case OnlinePaymentOption => "Please select a payment option"
    case PaymentProof => "Payment proof is required for online payments"
  }

  const AllFields: set<Field> :=
    {FirstName, LastName, Email, Address, City, MobileNumber, OnlinePaymentOption, PaymentProof}

  /** The test `validateForm()` applies to each field. Only `""` counts as
      missing here: nothing is trimmed. */
  predicate Fails(v: Validators, f: Form, k: Field) {
    match k
    case FirstName => f.firstName == ""
    case LastName => f.lastName == ""
    case Email => f.email == "" || !v.isEmail(f.email)
    case Address => f.address == ""
    case City => f.city == ""
    case MobileNumber => f.mobileNumber == "" || !v.isMobilePhone(f.mobileNumber)
    case OnlinePaymentOption => f.payment.paymentMethod == "online" && f.payment.option == ""
    case PaymentProof => f.payment.paymentMethod == "online" && f.payment.proof.None?
  }

  /** `validateForm()`: the fields in error, each shown with `Message`.
      postCode and country have no entry and are never checked. */
  function Validate(v: Validators, f: Form): (e: set<Field>)
    ensures forall k :: k in e <==> Fails(v, f, k)
    ensures f.payment.paymentMethod != "online" ==>
              e <= {FirstName, LastName, Email, Address, City, MobileNumber}
  {
    set k | k in AllFields && Fails(v, f, k)
  }

  /** The form passes exactly when every required field is present and
      valid and an online payment carries both an option and a proof. */
  predicate Complete(v: Validators, f: Form) {
    && f.firstName != "" && f.lastName != "" && f.address != "" && f.city != ""
    && f.email != "" && v.isEmail(f.email)
    && f.mobileNumber != "" && v.isMobilePhone(f.mobileNumber)
    && (f.payment.paymentMethod == "online" ==> f.payment.option != "" && f.payment.proof.Some?)
  }

  lemma ValidateIffComplete(v: Validators, f: Form)
    ensures Validate(v, f) == {} <==> Complete(v, f)
  {
    var e := Validate(v, f);
    if e != {} {
      var k :| k in e;
    } else {
      assert FirstName !in e && LastName !in e && Email !in e && Address !in e;
      assert City !in e && MobileNumber !in e && OnlinePaymentOption !in e && PaymentProof !in e;
    }
  }

  /** The postal code and the country never affect validation. */
  lemma PostCodeAndCountryIgnored(v: Validators, f: Form, postCode: string, country: string)
    ensures Validate(v, f.(postCode := postCode, country := country)) == Validate(v, f)
  {
  }

  /** The checkout payload: the form with its postal code trimmed (left out
      when blank), the items as (productId, quantity) pairs, and the totals
      the page holds. */
  datatype Payload = Payload(
    form: Form, postCode: Option<string>, items: seq<(string, int)>,
    taxes: real, shippingFee: real)

  /** `cartItems.map(item => ({ productId, quantity }))` */
  function Items(cart: seq<Shop.Line>): (items: seq<(string, int)>)
    ensures |items| == |cart|
    ensures forall i :: 0 <= i < |cart| ==> items[i] == (cart[i].productId, cart[i].quantity)
  {
    seq(|cart|, i requires 0 <= i < |cart| => (cart[i].productId, cart[i].quantity))
  }

  /** What `handleSubmit` does before any server call. */
  datatype Submission =
    | NeedsLogin
    | EmptyCart
    | Invalid(errors: set<Field>)
    | Send(payload: Payload)

  /** `handleSubmit`: no user id sends the visitor to log in, an empty cart
      to the collection, an invalid form shows its errors; only then is the
      payload built. `userId` is `""` when there is no user. */
  function Submit(v: Validators, userId: string, cart: seq<Shop.Line>, f: Form,
                  taxes: real, shippingFee: real): (r: Submission)
    ensures userId == "" <==> r == NeedsLogin
    ensures r == EmptyCart <==> userId != "" && cart == []
    ensures r.Invalid? <==> userId != "" && cart != [] && !Complete(v, f)
    ensures r.Invalid? ==> r.errors == Validate(v, f) && r.errors != {}
    ensures r.Send? <==> userId != "" && cart != [] && Complete(v, f)
    ensures r.Send? ==> r.payload.form == f && r.payload.postCode == TrimmedOrAbsent(f.postCode)
    ensures r.Send? ==> r.payload.items == Items(cart) && |r.payload.items| == |cart|
  {
    ValidateIffComplete(v, f);
    if userId == "" then NeedsLogin
    else if cart == [] then EmptyCart
    else if Validate(v, f) != {} then Invalid(Validate(v, f))
    else Send(Payload(f, TrimmedOrAbsent(f.postCode), Items(cart), taxes, shippingFee))
  }

  /** How the checkout call ended. */
  datatype Reply = Succeeded | Failed | Threw

  /** The cart once the reply is in: emptied on success, otherwise set back to
      the copy taken before the call, whatever it became in between. */
  function CartAfterReply(before: seq<Shop.Line>, during: seq<Shop.Line>, reply: Reply): (r: seq<Shop.Line>)
    ensures reply == Succeeded ==> r == []
    ensures reply != Succeeded ==> r == before
  {
    if reply == Succeeded then [] else before
  }

  /** A checkout that does not succeed leaves the cart as the visitor
      submitted it, so submitting again sends the same items. */
  lemma FailedCheckoutResubmits(v: Validators, userId: string, cart: seq<Shop.Line>, during: seq<Shop.Line>,
                                f: Form, taxes: real, shippingFee: real, reply: Reply)
    requires reply != Succeeded
    ensures Submit(v, userId, CartAfterReply(cart, during, reply), f, taxes, shippingFee)
         == Submit(v, userId, cart, f, taxes, shippingFee)
  {
  }
}

=== FILE: product_items.dfy ===
/** The product card (`ProductItems`): the format it starts with, the gate
    before its add-to-cart call, the original-price rule, and its local
    wishlist flag. */
module ProductCard {
  import opened Wrappers
  import opened Catalogue
  import Shop

  /** `sizes?.[0] || null`: the first format, unless there is none or it is
      the empty string. */
  function InitialFormat(sizes: seq<string>): (f: Option<string>)
    ensures f.Some? <==> sizes != [] && sizes[0] != ""
    ensures f.Some? ==> f.value == sizes[0]
  {
    if sizes != [] && sizes[0] != "" then Some(sizes[0]) else None
  }

  /** `handleAddToCart`: with formats on offer and none selected (or an
      empty one), the card refuses without calling the store; otherwise it
      adds one item in the selected format. */
  function AddToCart(products: seq<Product>, cart: seq<Shop.Line>, id: string,
                     sizes: seq<string>, selected: Option<string>): (r: (Verdict, seq<Shop.Line>))
    ensures |sizes| > 0 && (selected.None? || selected.value == "") ==>
      r == (Refuse("Please select a format"), cart)
    ensures !(|sizes| > 0 && (selected.None? || selected.value == "")) ==>
      r.0 == Proceed && r.1 == Shop.AddToCart(products, cart, id, selected, 1).state
  {
    if |sizes| > 0 && (selected.None? || selected.value == "") then
      (Refuse("Please select a format"), cart)
    else
      (Proceed, Shop.AddToCart(products, cart, id, selected, 1).state)
  }

  /** Straight after the card renders, adding needs no selection unless the
      first format is the empty string. */
  lemma InitialFormatPassesGate(products: seq<Product>, cart: seq<Shop.Line>, id: string, sizes: seq<string>)
    ensures AddToCart(products, cart, id, sizes, InitialFormat(sizes)).0 == Proceed
        <==> sizes == [] || sizes[0] != ""
  {
  }

  /** `originalPrice && originalPrice > price`: a missing or zero original
      price is never shown. */
  function ShowsOriginalPrice(price: real, originalPrice: Option<real>): (b: bool)
    ensures b ==> originalPrice.Some? && originalPrice.value > price
    ensures price >= 0.0 ==> (b <==> originalPrice.Some? && originalPrice.value > price)
  {
    originalPrice.Some? && originalPrice.value != 0.0 && originalPrice.value > price
  }

  /** `handleWishlistToggle`: the flag flips when the store reports success
      and stays when it does not. */
  function WishlistFlag(flag: bool, success: bool): (r: bool)
    ensures success ==> r == !flag
    ensures !success ==> r == flag
  {
    if success then !flag else flag
  }

  /** A flag that matched the guest wishlist before a toggle still matches
      it afterwards, whether the toggle succeeded or not. */
  lemma FlagTracksWishlist(products: seq<Product>, ids: seq<string>, id: string, flag: bool)
    requires flag == Shop.IsInWishlist(ids, id)
    ensures var o := Shop.ToggleGuestWishlist(products, ids, id);
      WishlistFlag(flag, o.ok) == Shop.IsInWishlist(o.state, id)
  {
    if Shop.ToggleGuestWishlist(products, ids, id).ok {
      Shop.ToggleFlipsMembership(products, ids, id);
    }
  }
}

=== FILE: product_page.dfy ===
/** The product page (`Product`): the quantity stepper, the format selected
    when the product loads, and the related-products strip. */
module ProductPage {
  import opened Catalogue
  import Seqs

  const MaxQuantity: int := 10

  /** `handleQuantityChange(value)`: the step is taken only when the result
      stays within 1..10. */
  function QuantityChange(q: int, delta: int): (r: int)
    ensures 1 <= q + delta <= MaxQuantity ==> r == q + delta
    ensures !(1 <= q + delta <= MaxQuantity) ==> r == q
    ensures 1 <= q <= MaxQuantity ==> 1 <= r <= MaxQuantity
  {
    if 1 <= q + delta <= MaxQuantity then q + delta else q
  }

  /** Any run of steps from the initial quantity 1 stays within 1..10. */
  function Steps(q: int, deltas: seq<int>): int
    decreases |deltas|
  {
    if deltas == [] then q else Steps(QuantityChange(q, deltas[0]), deltas[1..])
  }

  lemma {:induction false} StepsStayInRange(q: int, deltas: seq<int>)
    requires 1 <= q <= MaxQuantity
    ensures 1 <= Steps(q, deltas) <= MaxQuantity
    decreases |deltas|
  {
    if deltas != [] {
      StepsStayInRange(QuantityChange(q, deltas[0]), deltas[1..]);
    }
  }

  /** The note under the stepper. */
  function QuantityNote(q: int): (s: string)
    ensures s == "Max quantity reached" <==> q == MaxQuantity
  {
    if q == MaxQuantity then "Max quantity reached" else "Max 10 per order"
  }

  /** `data.product.sizes?.[0] || ""` */
  function InitialFormat(sizes: seq<string>): (f: string)
    ensures sizes == [] ==> f == ""
    ensures sizes != [] ==> f == sizes[0]
    ensures f == "" || f in sizes
  {
    if sizes == [] then "" else sizes[0]
  }

  /** Another product of the same category. */
  predicate RelatedTo(p: Product, item: Product) {
    item.category == p.category && item.id != p.id
  }

  function RelatedFilter(p: Product): Product -> bool {
    (item: Product) => RelatedTo(p, item)
  }

  /** The related strip: the first five catalogue products of the same
      category with another id, in catalogue order. */
  function Related(products: seq<Product>, p: Product): (r: seq<Product>)
    ensures |r| <= 5
    ensures Seqs.IsSubseq(r, products)
    ensures forall x :: x in r ==> RelatedTo(p, x)
    ensures |r| < 5 ==> forall x :: x in products && RelatedTo(p, x) ==> x in r
    ensures Seqs.FirstMatching(r, products, RelatedFilter(p), 5)
  {
    var all := Seqs.Filter(products, RelatedFilter(p));
    var r := Seqs.Take(all, 5);
    Seqs.SubseqTransitive(r, all, products);
    Seqs.SubseqLength(r, all);
    Seqs.TakeFilterFirst(products, RelatedFilter(p), 5);
    r
  }

  /** The product itself is never among its related products. */
  lemma NotRelatedToItself(products: seq<Product>, p: Product)
    ensures p !in Related(products, p)
  {
  }
}

=== FILE: register.dfy ===
/** The registration page (`Register`): the form check it runs before calling
    the context's `register`, the switch to the verification step, and the
    resend timer. The code boxes are the shared `Otp` model. */
module RegisterPage {
  import opened Wrappers
  import opened JsText
  import opened Validators
  import AppContext
  import FormRules

  /** `validator.isLength(n, { max: 20 })` and `/^[a-zA-Z0-9\s]+$/`. */
  predicate NameOk(n: string) {
    |n| <= 20 && NameRule(n)
  }

  /** `validator.isStrongPassword(p, { minLength: 8, minLowercase: 1,
      minUppercase: 0, minNumbers: 1, minSymbols: 0 })`: at least eight
      characters, one of them a lower-case letter and one a digit. */
  predicate StrongPassword(p: string) {
    && |p| >= 8
    && (exists i :: 0 <= i < |p| && IsLower(p[i]))
    && (exists i :: 0 <= i < |p| && IsDigit(p[i]))
  }

  datatype Form = Form(name: string, lastName: string, email: string, password: string, confirm: string)

  const FirstNameMessage := "First name must be 20 characters or less and contain only letters, numbers, or spaces"
  const LastNameMessage := "Last name must be 20 characters or less and contain only letters, numbers, or spaces"
  const EmailMessage := "Invalid email format"
  const MismatchMessage := "Passwords do not match"
  const StrengthMessage := "Password must be at least 8 characters long and contain at least one letter and one number"

  /** `handleSubmit` up to the call: first name, last name (only when given),
      email, match, strength, the first failure reported. */
  function SubmitCheck(v: Validators, f: Form): (r: Verdict)
    ensures r == Proceed <==>
      NameOk(f.name) && (f.lastName == "" || NameOk(f.lastName)) && v.isEmail(f.email)
      && f.password == f.confirm && StrongPassword(f.password)
    ensures !NameOk(f.name) ==> r == Refuse(FirstNameMessage)
    ensures NameOk(f.name) && f.lastName != "" && !NameOk(f.lastName) ==> r == Refuse(LastNameMessage)
    ensures NameOk(f.name) && (f.lastName == "" || NameOk(f.lastName)) && !v.isEmail(f.email) ==>
      r == Refuse(EmailMessage)
    ensures (NameOk(f.name) && (f.lastName == "" || NameOk(f.lastName)) && v.isEmail(f.email)
      && f.password != f.confirm) ==> r == Refuse(MismatchMessage)
    ensures (NameOk(f.name) && (f.lastName == "" || NameOk(f.lastName)) && v.isEmail(f.email)
      && f.password == f.confirm && !StrongPassword(f.password)) ==> r == Refuse(StrengthMessage)
  {
    if !NameOk(f.name) then Refuse(FirstNameMessage)
    else if f.lastName != "" && !NameOk(f.lastName) then Refuse(LastNameMessage)
    else if !v.isEmail(f.email) then Refuse(EmailMessage)
    else if f.password != f.confirm then Refuse(MismatchMessage)
    else if !StrongPassword(f.password) then Refuse(StrengthMessage)
    else Proceed
  }

  /** The strength rule asks for a lower-case letter, so a password of
      capitals and digits is refused although its message asks only for "one
      letter and one number". */
  lemma UpperCasePasswordRefused(v: Validators)
    requires v.isEmail("a@b.co")
    ensures SubmitCheck(v, Form("Ali", "", "a@b.co", "ABCDEFG1", "ABCDEFG1")).Refuse?
  {
    var p := "ABCDEFG1";
    forall i | 0 <= i < |p| ensures !IsLower(p[i]) { }
  }

  /** A form the page lets through also passes the context's own check as
      long as the password keeps to the context's character rule; the page
      never lets through an empty name. */
  lemma PageThenContext(v: Validators, f: Form)
    requires RejectsEmpty(v)
    requires SubmitCheck(v, f) == Proceed
    requires PasswordRule(f.password)
    ensures AppContext.RegisterCheck(v, f.name, f.lastName, f.email, f.password, f.confirm) == Proceed
  {
  }

  /** The two checks differ on characters: a password with a space passes the
      page's strength rule and is refused by the context. */
  lemma PageAndContextDiffer()
    ensures StrongPassword("abcdefg1 ")
    ensures !FormRules.PasswordFormat("abcdefg1 ")
  {
    var p := "abcdefg1 ";
    assert IsLower(p[0]) && IsDigit(p[7]);
    assert !PasswordChar(p[8]);
  }

  // ---------------------------------------------------------------------
  // Steps and the resend timer

  datatype Step = RegisterStep | VerifyStep

  /** The page state beyond the form: the step, the user id the server sent
      back, and the seconds left before a new code may be requested. */
  datatype State = State(step: Step, userId: Option<string>, timer: nat)

  const Initial: State := State(RegisterStep, None, 0)

  /** The seconds a user waits before asking for a new code. */
  const ResendWait: nat := 60

  /** The server's answer to `register`: success with the new user's id, or
      a failure message, with a user id when the server sent one. */
  datatype Reply = Registered(id: string) | Failed(message: string, user: Option<string>)

  /** The state after the server answers `register`: success, and a failure
      saying the account exists unverified, both move to the verification
      step with a full timer; any other answer changes nothing. (A message
      mentioning "unverified" without a user throws and is reported, leaving
      the state as it was.) */
  function AfterRegister(s: State, reply: Reply): (r: State)
    ensures reply.Registered? ==> r == State(VerifyStep, Some(reply.id), ResendWait)
    ensures reply.Failed? && Contains(reply.message, "unverified") && reply.user.Some? ==>
      r == State(VerifyStep, reply.user, ResendWait)
    ensures reply.Failed? && !Contains(reply.message, "unverified") ==> r == s
  {
    match reply
    case Registered(id) => State(VerifyStep, Some(id), ResendWait)
    case Failed(message, user) =>
      if Contains(message, "unverified") && user.Some? then State(VerifyStep, user, ResendWait)
      else s
  }

  /** `handleResendOtp` may call the server. */
  predicate CanResend(s: State) {
    s.timer == 0 && s.userId.Some? && s.userId.value != ""
  }

  /** The state after a resend attempt whose reply was `ok`: nothing happens
      while the timer runs or without a user id; a successful resend refills
      the timer. */
  function AfterResend(s: State, ok: bool): (r: State)
    ensures !CanResend(s) ==> r == s
    ensures CanResend(s) && ok ==> r == s.(timer := ResendWait)
    ensures CanResend(s) && !ok ==> r == s
  {
    if CanResend(s) && ok then s.(timer := ResendWait) else s
  }

  /** One second of the countdown effect. */
  function Tick(s: State): (r: State)
    ensures r == s.(timer := if s.timer > 0 then s.timer - 1 else 0)
  {
    if s.timer > 0 then s.(timer := s.timer - 1) else s
  }

  /** `k` seconds of countdown. */
  function Ticks(s: State, k: nat): State {
    if k == 0 then s else Tick(Ticks(s, k - 1))
  }

  lemma {:induction false} TicksCount(s: State, k: nat)
    ensures Ticks(s, k) == s.(timer := if s.timer >= k then s.timer - k else 0)
  {
    if k > 0 {
      TicksCount(s, k - 1);
    }
  }

  /** After a registration, a new code can be requested exactly once sixty
      seconds have passed. */
  lemma ResendAfterSixty(s: State, id: string, k: nat)
    requires id != ""
    ensures CanResend(Ticks(AfterRegister(s, Registered(id)), k)) <==> k >= ResendWait
  {
    TicksCount(AfterRegister(s, Registered(id)), k);
  }
}

=== FILE: reset_password.dfy ===
/** The password-reset page (`ResetPassword`): the email → code → password
    step machine, the live checks on the two password fields, and the check
    before the new password is sent. The code boxes are the shared `Otp`
    model. */
module ResetPasswordPage {
  import opened Wrappers
  import opened JsText
  import AppContext
  import opened FormRules
  import Validators

  datatype Step = EmailStep | OtpStep | PasswordStep

  function Rank(s: Step): nat {
    match s
    case EmailStep => 0
    case OtpStep => 1
    case PasswordStep => 2
  }

  /** A server reply to one of the three forms. */
  datatype Reply = EmailReply(ok: bool) | OtpReply(ok: bool) | ResetReply(ok: bool)

  /** The step whose form sends the request the reply answers: each form is
      on screen only in its own step. */
  function FormOf(e: Reply): Step {
    match e
    case EmailReply(_) => EmailStep
    case OtpReply(_) => OtpStep
    case ResetReply(_) => PasswordStep
  }

  /** The step after a reply: a successful email reply moves to the code,
      a successful code reply to the password; a successful reset leaves the
      page, and every failure keeps the step. */
  function Next(s: Step, e: Reply): (r: Step)
    ensures Rank(r) == Rank(s) || Rank(r) == Rank(s) + 1
    ensures Rank(r) == Rank(s) + 1 <==> FormOf(e) == s && e.ok && !e.ResetReply?
  {
    if FormOf(e) != s then s
    else
      match e
      case EmailReply(ok) => if ok then OtpStep else s
      case OtpReply(ok) => if ok then PasswordStep else s
      case ResetReply(_) => s
  }

  /** The steps after a run of replies from the start. */
  function Run(s: Step, replies: seq<Reply>): Step
    decreases |replies|
  {
    if replies == [] then s else Run(Next(s, replies[0]), replies[1..])
  }

  /** No reply skips a step or goes back one: the password form is reached
      only from the code step by a successful code reply. */
  lemma NoSkipping(s: Step, e: Reply)
    ensures Next(s, e) == PasswordStep && s != PasswordStep ==> s == OtpStep && e == OtpReply(true)
    ensures Next(s, e) == OtpStep && s != OtpStep ==> s == EmailStep && e == EmailReply(true)
  {
  }

  /** Over any run of replies the step never goes back, and it moves at most
      one step per reply. */
  lemma {:induction false} RunMonotone(s: Step, replies: seq<Reply>)
    ensures Rank(s) <= Rank(Run(s, replies)) <= Rank(s) + |replies|
    decreases |replies|
  {
    if replies != [] {
      RunMonotone(Next(s, replies[0]), replies[1..]);
    }
  }

  // ---------------------------------------------------------------------
  // The password fields

  const Mismatch: string := "Passwords do not match"

  datatype Fields = Fields(newPassword: string, confirm: string, newError: string, confirmError: string)

  const InitialFields: Fields := Fields("", "", "", "")

  /** `handlePasswordChange` on the new-password field. Over fifty
      characters only the error changes; otherwise the value is stored, its
      error recomputed and, when a confirmation is typed, the mismatch error
      refreshed. */
  function ChangeNew(f: Fields, value: string): (r: Fields)
    ensures |value| > 50 ==> r == f.(newError := TooLong)
    ensures |value| <= 50 ==> r.newPassword == value && r.confirm == f.confirm
    ensures |value| <= 50 ==> (r.newError == "" <==> value == "" || PasswordFormat(value))
    ensures |value| <= 50 && f.confirm != "" ==> (r.confirmError == Mismatch <==> f.confirm != value)
  {
    if |value| > 50 then f.(newError := TooLong)
    else
      var confirmError :=
        if f.confirm != "" && value != f.confirm then Mismatch
        else if f.confirm != "" then ""
        else f.confirmError;
      Fields(value, f.confirm, PasswordFieldError(value), confirmError)
  }

  /** `handlePasswordChange` on the confirmation field. */
  function ChangeConfirm(f: Fields, value: string): (r: Fields)
    ensures |value| > 50 ==> r == f.(confirmError := TooLong)
    ensures |value| <= 50 ==> r.confirm == value && r.newPassword == f.newPassword && r.newError == f.newError
    ensures |value| <= 50 ==> (r.confirmError == Mismatch <==> value != "" && value != f.newPassword)
  {
    if |value| > 50 then f.(confirmError := TooLong)
    else
      Fields(f.newPassword, value, f.newError, if value != "" && value != f.newPassword then Mismatch else "")
  }

  /** The mismatch message is shown only when a confirmation is typed and
      differs from the new password. */
  predicate MismatchSound(f: Fields) {
    f.confirmError == Mismatch ==> f.confirm != "" && f.confirm != f.newPassword
  }

  /** Every edit keeps the mismatch message honest. (The converse does not
      hold throughout: an over-long confirmation edit replaces a standing
      mismatch message with the length message.) */
  lemma EditsKeepMismatchSound(f: Fields, value: string)
    requires MismatchSound(f)
    ensures MismatchSound(ChangeNew(f, value))
    ensures MismatchSound(ChangeConfirm(f, value))
  {
  }

  /** An over-long confirmation edit hides a mismatch that still exists. */
  lemma LengthMessageHidesMismatch()
    ensures var f := ChangeConfirm(Fields("abcdefg1", "x", "", Mismatch), seq(51, i => 'a'));
      f.confirm != f.newPassword && f.confirmError != Mismatch
  {
    var f := ChangeConfirm(Fields("abcdefg1", "x", "", Mismatch), seq(51, i => 'a'));
    assert f.confirmError == TooLong;
    assert TooLong[8] != Mismatch[8];
  }

  /** `handlePasswordSubmit` up to the request: length first, then the
      character rule, then equality. */
  function SubmitCheck(newPassword: string, confirm: string): (r: Verdict)
    ensures r == Proceed <==> PasswordFormat(newPassword) && newPassword == confirm
    ensures |newPassword| < 8 ==> r == Refuse(TooShort)
    ensures |newPassword| >= 8 && !PasswordRule(newPassword) ==> r == Refuse(NeedsLetterAndDigit)
    ensures PasswordFormat(newPassword) && newPassword != confirm ==> r == Refuse(Mismatch)
  {
    if |newPassword| < 8 then Refuse(TooShort)
    else if !PasswordRule(newPassword) then Refuse(NeedsLetterAndDigit)
    else if newPassword != confirm then Refuse(Mismatch)
    else Proceed
  }

  /** What the page lets through, the context's reset check accepts as far
      as the password goes: the two agree on the password fields. */
  lemma PageAgreesWithContext(v: Validators.Validators, email: string, otp: string,
                              newPassword: string, confirm: string)
    requires email != "" && v.isEmail(email) && SixDigits(otp)
    ensures SubmitCheck(newPassword, confirm) == Proceed <==>
      AppContext.ResetPasswordCheck(v, email, otp, newPassword, confirm) == Proceed
  {
  }
}

=== FILE: review.dfy ===
/** The product review box (`Review`): the guards before a review is sent,
    what a successful submission resets, and the paged review list. */
module ReviewBox {
  import opened Wrappers

  /** `handleSubmitReview` before the server call: signed in, a rating from
      1 to 5 (0, "no rating", is refused with the rest), then a user id. */
  function SubmitCheck(isAuthenticated: bool, rating: int, userId: string): (r: Verdict)
    ensures r == Proceed <==> isAuthenticated && 1 <= rating <= 5 && userId != ""
    ensures !isAuthenticated ==> r == Refuse("Please log in to submit a review")
    ensures isAuthenticated && !(1 <= rating <= 5) ==> r == Refuse("Please select a rating between 1 and 5")
    ensures isAuthenticated && 1 <= rating <= 5 && userId == "" ==> r == Refuse("User ID not found. Please log in again.")
  {
    if !isAuthenticated then Refuse("Please log in to submit a review")
    else if rating == 0 || rating < 1 || rating > 5 then Refuse("Please select a rating between 1 and 5")
    else if userId == "" then Refuse("User ID not found. Please log in again.")
    else Proceed
  }

  /** The box's state; reviews are opaque values of type `R`. */
  datatype State<R> = State(rating: int, comment: string, reviews: seq<R>, page: int, hasMore: bool)

  function Initial<R>(): State<R> {
    State(0, "", [], 1, false)
  }

  /** A successful `fetchReviews(pageNum, append)`: the reply's reviews are
      appended or replace the list, and more pages remain when the page
      fetched is before the last. */
  function Fetched<R>(s: State<R>, pageNum: int, append: bool, reply: seq<R>, pages: int): (r: State<R>)
    ensures append ==> r.reviews == s.reviews + reply
    ensures !append ==> r.reviews == reply
    ensures r.hasMore <==> pageNum < pages
    ensures r.rating == s.rating && r.comment == s.comment && r.page == s.page
  {
    s.(reviews := if append then s.reviews + reply else reply, hasMore := pageNum < pages)
  }

  /** `handleLoadMore` with its reply: the next page, appended. */
  function LoadMore<R>(s: State<R>, reply: seq<R>, pages: int): (r: State<R>)
    ensures r.page == s.page + 1
    ensures |r.reviews| == |s.reviews| + |reply|
    ensures r.reviews[..|s.reviews|] == s.reviews && r.reviews[|s.reviews|..] == reply
    ensures r.hasMore <==> s.page + 1 < pages
  {
    Fetched(s.(page := s.page + 1), s.page + 1, true, reply, pages)
  }

  /** A successful submission with the reloaded first page: rating and
      comment cleared, the list replaced by page 1. */
  function Submitted<R>(s: State<R>, firstPage: seq<R>, pages: int): (r: State<R>)
    ensures r.rating == 0 && r.comment == ""
    ensures r.reviews == firstPage
    ensures r.hasMore <==> 1 < pages
  {
    Fetched(s.(rating := 0, comment := ""), 1, false, firstPage, pages)
  }

  /** A submission after the refreshed rating is refused until a new rating
      is picked. */
  lemma SubmittedNeedsNewRating<R>(s: State<R>, firstPage: seq<R>, pages: int, userId: string)
    ensures SubmitCheck(true, Submitted(s, firstPage, pages).rating, userId)
         == Refuse("Please select a rating between 1 and 5")
  {
  }

  /** Submitting does not reset the page counter: after one "load more" and
      a submission, the next "load more" asks for page 3 although the list
      holds page 1 only. */
  lemma SubmitKeepsPageCounter<R>(s: State<R>, p2: seq<R>, p1: seq<R>, p3: seq<R>, pages: int)
    requires s.page == 1
    ensures LoadMore(Submitted(LoadMore(s, p2, pages), p1, pages), p3, pages).page == 3
    ensures LoadMore(Submitted(LoadMore(s, p2, pages), p1, pages), p3, pages).reviews == p1 + p3
  {
  }

  /** Loading page after page builds the list in page order. */
  function LoadPages<R>(s: State<R>, replies: seq<seq<R>>, pages: int): State<R>
    decreases |replies|
  {
    if replies == [] then s else LoadPages(LoadMore(s, replies[0], pages), replies[1..], pages)
  }

  function Concat<R>(replies: seq<seq<R>>): seq<R>
    decreases |replies|
  {
    if replies == [] then [] else replies[0] + Concat(replies[1..])
  }

  lemma {:induction false} LoadPagesAppends<R>(s: State<R>, replies: seq<seq<R>>, pages: int)
    ensures LoadPages(s, replies, pages).reviews == s.reviews + Concat(replies)
    ensures LoadPages(s, replies, pages).page == s.page + |replies|
    decreases |replies|
  {
    if replies != [] {
      var t := LoadMore(s, replies[0], pages);
      LoadPagesAppends(t, replies[1..], pages);
      assert t.reviews == s.reviews + replies[0];
      assert s.reviews + replies[0] + Concat(replies[1..]) == s.reviews + (replies[0] + Concat(replies[1..]));
    }
  }
}

=== FILE: rider.dfy ===
/** What the rider-expense pages (`Dashboard`, `DailyRecords`, `History`)
    share: calendar dates, the 21st-to-20th billing cycle, the daily record
    and the earnings of a working day. */
module Rider {
  import opened Wrappers
  import Seqs

  /** A calendar date at day level: the month counts from 0 (January), as
      JavaScript's `Date` does. */
  datatype Date = Date(year: int, month: int, day: int)

  /** A date whose month is 0..11 and whose day is 1..31. */
  predicate Valid(d: Date) {
    0 <= d.month < 12 && 1 <= d.day <= 31
  }

  /** Months since year 0: consecutive months have consecutive indices. */
  function MonthIndex(d: Date): int {
    d.year * 12 + d.month
  }

  /** `new Date(year, month, day)` for a day every month has: a month outside
      0..11 rolls over into the neighbouring year. */
  function MakeDate(year: int, month: int, day: int): (d: Date)
    ensures MonthIndex(d) == year * 12 + month
    ensures 0 <= d.month < 12 && d.day == day
  {
    var k := year * 12 + month;
    Date(k / 12, k % 12, day)
  }

  /** Day-level order: the position of a valid date in the calendar. */
  function Key(d: Date): int {
    MonthIndex(d) * 32 + d.day
  }

  predicate OnOrBefore(a: Date, b: Date) { Key(a) <= Key(b) }

  /** On valid dates the key orders by year, then month, then day. */
  lemma KeyIsCalendarOrder(a: Date, b: Date)
    requires Valid(a) && Valid(b)
    ensures OnOrBefore(a, b) <==>
      (a.year < b.year
       || (a.year == b.year && a.month < b.month)
       || (a.year == b.year && a.month == b.month && a.day <= b.day))
  {
  }

  /** `getBillingCycle()` at day level: from the 21st of this month to the
      20th of the next when today is the 21st or later, else from the 21st
      of last month to the 20th of this one. */
  function BillingCycle(today: Date): (c: (Date, Date))
    requires Valid(today)
    ensures c.0.day == 21 && c.1.day == 20
    ensures MonthIndex(c.1) == MonthIndex(c.0) + 1
    ensures OnOrBefore(c.0, today) && OnOrBefore(today, c.1)
  {
    if today.day >= 21 then
      (MakeDate(today.year, today.month, 21), MakeDate(today.year, today.month + 1, 20))
    else
      (MakeDate(today.year, today.month - 1, 21), MakeDate(today.year, today.month, 20))
  }

  /** Every valid day of a cycle belongs to that same cycle: the cycles
      partition the calendar. */
  lemma CycleOfDayInCycle(today: Date, d: Date)
    requires Valid(today) && Valid(d)
    requires OnOrBefore(BillingCycle(today).0, d) && OnOrBefore(d, BillingCycle(today).1)
    ensures BillingCycle(d) == BillingCycle(today)
  {
    var (s, e) := BillingCycle(today);
    var k := MonthIndex(s);
    assert k * 32 + 21 <= MonthIndex(d) * 32 + d.day <= (k + 1) * 32 + 20;
    assert MonthIndex(d) == k || MonthIndex(d) == k + 1;
    var (s2, e2) := BillingCycle(d);
    assert MonthIndex(s2) == k && MonthIndex(e2) == k + 1;
    DateOfIndex(s, s2);
    DateOfIndex(e, e2);
  }

  /** Two dates in a normalised month with the same index and day are the
      same date. */
  lemma DateOfIndex(a: Date, b: Date)
    requires 0 <= a.month < 12 && 0 <= b.month < 12
    requires MonthIndex(a) == MonthIndex(b) && a.day == b.day
    ensures a == b
  {
  }

  /** The six day-quality ratings. */
  const Qualities: seq<string> := ["Excellent", "VeryGood", "Good", "Average", "Bad", "VeryBad"]

  /** One day's record: "On" or "Off", the counts of the day, and its
      rating (`null` on days off). */
  datatype DayRecord = DayRecord(
    date: Date, workStatus: string, deliveries: real, tips: real,
    expenses: real, dayQuality: Option<string>)

  /** Rupees paid per delivery. */
  const RatePerDelivery: real := 45.0

  /** `r.deliveries * 45 + r.tips` */
  function Earnings(r: DayRecord): real {
    r.deliveries * RatePerDelivery + r.tips
  }

  function DateKey(r: DayRecord): real {
    Key(r.date) as real
  }

  /** `[...records].sort((a, b) => new Date(a.date) - new Date(b.date))` */
  function ByDate(records: seq<DayRecord>): (r: seq<DayRecord>)
    ensures multiset(r) == multiset(records) && |r| == |records|
    ensures forall i, j :: 0 <= i < j < |r| ==> OnOrBefore(r[i].date, r[j].date)
  {
    var r := Seqs.SortBy(records, DateKey);
    assert forall i, j :: 0 <= i < j < |r| ==> DateKey(r[i]) <= DateKey(r[j]);
    r
  }

  /** The earnings series of a chart: one point per record, in order. */
  function EarningsPoints(records: seq<DayRecord>): (p: seq<real>)
    ensures |p| == |records|
    ensures forall i :: 0 <= i < |records| ==> p[i] == Earnings(records[i])
  {
    seq(|records|, i requires 0 <= i < |records| => Earnings(records[i]))
  }

  /** `records.reduce((s, r) => s + r.deliveries * 45, 0)` */
  function DeliveriesIncome(records: seq<DayRecord>): real
    decreases |records|
  {
    if records == [] then 0.0
    else DeliveriesIncome(records[..|records| - 1]) + records[|records| - 1].deliveries * RatePerDelivery
  }

  /** `records.reduce((s, r) => s + r.tips, 0)` */
  function TipsTotal(records: seq<DayRecord>): real
    decreases |records|
  {
    if records == [] then 0.0 else TipsTotal(records[..|records| - 1]) + records[|records| - 1].tips
  }

  /** The delivery income and the tips together are the sum of the daily
      earnings plotted. */
  lemma {:induction false} IncomeSplits(records: seq<DayRecord>)
    ensures DeliveriesIncome(records) + TipsTotal(records) == Seqs.SumReal(EarningsPoints(records))
    decreases |records|
  {
    if records != [] {
      var init := records[..|records| - 1];
      IncomeSplits(init);
      assert EarningsPoints(records)[..|records| - 1] == EarningsPoints(init);
    }
  }
}

=== FILE: seqs.dfy ===
/** The array operations the pages chain together — `filter`, `slice(0, n)`,
    `reduce` with `+` and the stable `Array.prototype.sort` — as functions on
    sequences, with the facts the page models are built on. */
module Seqs {

  /** `a` is obtained from `b` by deleting elements: the order-preserving
      selection that `filter` produces. */
  predicate IsSubseq<T(==)>(a: seq<T>, b: seq<T>)
    decreases |b|
  {
    if a == [] then true
    else if b == [] then false
    else (a[0] == b[0] && IsSubseq(a[1..], b[1..])) || IsSubseq(a, b[1..])
  }

  lemma {:induction false} SubseqRefl<T>(s: seq<T>)
    ensures IsSubseq(s, s)
  {
    if s != [] {
      SubseqRefl(s[1..]);
    }
  }

  lemma {:induction false} SubseqLength<T>(a: seq<T>, b: seq<T>)
    requires IsSubseq(a, b)
    ensures |a| <= |b|
    ensures forall x :: x in a ==> x in b
    decreases |b|
  {
    if a != [] {
      assert a == [a[0]] + a[1..] && b == [b[0]] + b[1..];
      if a[0] == b[0] && IsSubseq(a[1..], b[1..]) {
        SubseqLength(a[1..], b[1..]);
      } else {
        SubseqLength(a, b[1..]);
      }
    }
  }

  lemma {:induction false} SubseqTransitive<T>(a: seq<T>, b: seq<T>, c: seq<T>)
    requires IsSubseq(a, b) && IsSubseq(b, c)
    ensures IsSubseq(a, c)
    decreases |c|
  {
    if a != [] {
      assert b != [] && c != [];
      if b[0] == c[0] && IsSubseq(b[1..], c[1..]) {
        if a[0] == b[0] && IsSubseq(a[1..], b[1..]) {
          SubseqTransitive(a[1..], b[1..], c[1..]);
        } else {
          SubseqTransitive(a, b[1..], c[1..]);
        }
      } else {
        SubseqTransitive(a, b, c[1..]);
      }
    }
  }

  /** `s.filter(p)`. */
  function Filter<T(==,!new)>(s: seq<T>, p: T -> bool): (r: seq<T>)
    ensures forall x :: x in r <==> x in s && p(x)
    ensures IsSubseq(r, s)
    ensures |r| <= |s|
  {
    if s == [] then []
    else if p(s[0]) then [s[0]] + Filter(s[1..], p)
    else Filter(s[1..], p)
  }

  lemma {:induction false} FilterAll<T(!new)>(s: seq<T>, p: T -> bool)
    requires forall x :: x in s ==> p(x)
    ensures Filter(s, p) == s
  {
    if s != [] {
      FilterAll(s[1..], p);
    }
  }

  lemma {:induction false} FilterAppend<T(!new)>(a: seq<T>, b: seq<T>, p: T -> bool)
    ensures Filter(a + b, p) == Filter(a, p) + Filter(b, p)
  {
    if a == [] {
      assert a + b == b;
    } else {
      assert (a + b)[1..] == a[1..] + b;
      FilterAppend(a[1..], b, p);
    }
  }

  /** Filtering by `p` and then by `q` is filtering once by their
      conjunction `pq`. */
  lemma {:induction false} FilterFilter<T(!new)>(s: seq<T>, p: T -> bool, q: T -> bool, pq: T -> bool)
    requires forall x :: pq(x) == (p(x) && q(x))
    ensures Filter(Filter(s, p), q) == Filter(s, pq)
  {
    if s != [] {
      FilterFilter(s[1..], p, q, pq);
      if p(s[0]) {
        var t := Filter(s, p);
        assert t == [s[0]] + Filter(s[1..], p);
        assert t[0] == s[0] && t[1..] == Filter(s[1..], p);
      }
    }
  }

  /** Two tests that agree everywhere filter alike. */
  lemma {:induction false} FilterSame<T(!new)>(s: seq<T>, p: T -> bool, q: T -> bool)
    requires forall x :: p(x) == q(x)
    ensures Filter(s, p) == Filter(s, q)
  {
    if s != [] {
      FilterSame(s[1..], p, q);
    }
  }

  /** `s.slice(0, n)`. */
  function Take<T>(s: seq<T>, n: nat): (r: seq<T>)
    ensures |r| <= n && |r| <= |s|
    ensures |r| == if |s| <= n then |s| else n
    ensures r == s[..|r|]
    ensures |s| <= n ==> r == s
    ensures |r| < n ==> r == s
    ensures IsSubseq(r, s)
  {
    PrefixIsSubseq(s, n);
    assert s[..|s|] == s;
    if |s| <= n then s else s[..n]
  }

  /** `r` holds the first `n` elements of `s` that satisfy `p`, in order:
      exactly the matching elements of some prefix of `s`, and of all of
      `s` when fewer than `n` match. */
  ghost predicate FirstMatching<T(!new)>(r: seq<T>, s: seq<T>, p: T -> bool, n: nat) {
    |r| <= n && exists k :: 0 <= k <= |s| && r == Filter(s[..k], p) && (|r| < n ==> k == |s|)
  }

  /** `s.filter(p).slice(0, n)` keeps the first `n` matches. */
  lemma TakeFilterFirst<T(!new)>(s: seq<T>, p: T -> bool, n: nat)
    ensures FirstMatching(Take(Filter(s, p), n), s, p, n)
  {
    var k := TakeFilterPrefix(s, p, n);
  }

  lemma {:induction false} TakeFilterPrefix<T(!new)>(s: seq<T>, p: T -> bool, n: nat) returns (k: nat)
    ensures k <= |s| && Take(Filter(s, p), n) == Filter(s[..k], p)
    ensures |Take(Filter(s, p), n)| < n ==> k == |s|
  {
    if s == [] || n == 0 {
      k := 0;
      assert s[..0] == [];
    } else {
      var t := s[1..];
      var m := if p(s[0]) then n - 1 else n;
      var k' := TakeFilterPrefix(t, p, m);
      k := k' + 1;
      assert s[..k][0] == s[0] && s[..k][1..] == t[..k'];
      assert t[..|t|] == t && s[..|s|] == s;
      if p(s[0]) {
        assert Filter(s, p) == [s[0]] + Filter(t, p);
        assert Take(Filter(s, p), n) == [s[0]] + Take(Filter(t, p), m);
      }
    }
  }

  lemma {:induction false} PrefixIsSubseq<T>(s: seq<T>, n: nat)
    ensures IsSubseq(s[..if n <= |s| then n else |s|], s)
  {
    var k := if n <= |s| then n else |s|;
    if k > 0 {
      PrefixIsSubseq(s[1..], n - 1);
      assert s[..k][1..] == s[1..][..k - 1];
    }
  }

  /** An index at which `x` occurs. */
  lemma Position<T>(s: seq<T>, x: T) returns (i: nat)
    requires x in s
    ensures i < |s| && s[i] == x
  {
    i :| 0 <= i < |s| && s[i] == x;
  }

  /** No value occurs twice. */
  predicate Distinct<T(==)>(s: seq<T>) {
    forall i, j :: 0 <= i < j < |s| ==> s[i] != s[j]
  }

  /** The index of the first occurrence of `x`: `s.indexOf(x)`. */
  function FirstIndex<T(==)>(s: seq<T>, x: T): (i: nat)
    requires x in s
    ensures i < |s| && s[i] == x
    ensures forall j :: 0 <= j < i ==> s[j] != x
  {
    if s[0] == x then 0 else 1 + FirstIndex(s[1..], x)
  }

  /** A value that occurs in a prefix has its first occurrence there. */
  lemma {:induction false} FirstIndexPrefix<T>(s: seq<T>, k: nat, x: T)
    requires k <= |s| && x in s[..k]
    ensures x in s && FirstIndex(s, x) == FirstIndex(s[..k], x)
  {
    var i := FirstIndex(s[..k], x);
    assert s[i] == x;
    var j := FirstIndex(s, x);
    assert j <= i;
    assert s[..k][j] == x;
  }

  /** The values of `s` once each, first occurrences kept in order: iterating
      `new Set(s)`. */
  function Dedupe<T(==,!new)>(s: seq<T>): (r: seq<T>)
    ensures Distinct(r)
    ensures forall x :: x in r <==> x in s
    ensures |r| <= |s|
    ensures forall i, j :: 0 <= i < j < |r| ==> FirstIndex(s, r[i]) < FirstIndex(s, r[j])
  {
    if s == [] then []
    else
      var init := s[..|s| - 1];
      var rest := Dedupe(init);
      assert s == init + [s[|s| - 1]];
      DedupeStep(init, s[|s| - 1], rest);
      if s[|s| - 1] in rest then rest else rest + [s[|s| - 1]]
  }

  /** The order facts behind one step of `Dedupe`: first occurrences in the
      prefix stay where they were, and a new last value comes after them. */
  lemma DedupeStep<T>(init: seq<T>, last: T, rest: seq<T>)
    requires forall x :: x in rest <==> x in init
    requires forall i, j :: 0 <= i < j < |rest| ==> FirstIndex(init, rest[i]) < FirstIndex(init, rest[j])
    ensures forall x :: x in rest ==> x in init + [last]
    ensures forall i, j :: 0 <= i < j < |rest| ==>
      FirstIndex(init + [last], rest[i]) < FirstIndex(init + [last], rest[j])
    ensures last !in rest ==> FirstIndex(init + [last], last) == |init|
    ensures last !in rest ==> forall i :: 0 <= i < |rest| ==> FirstIndex(init + [last], rest[i]) < |init|
  {
    var s := init + [last];
    assert s[..|init|] == init;
    forall x | x in init ensures x in s && FirstIndex(s, x) == FirstIndex(init, x) {
      FirstIndexPrefix(s, |init|, x);
    }
    if last !in rest {
      forall j | 0 <= j < |init| ensures s[j] != last {
        assert s[j] == init[j];
      }
    }
  }

  /** Cutting a list kept in first-occurrence order keeps the earliest values:
      whatever is kept first occurs before whatever is cut. */
  lemma TakeKeepsEarliest<T(!new)>(s: seq<T>, n: nat)
    ensures forall x, y :: x in Take(Dedupe(s), n) && y in s && y !in Take(Dedupe(s), n) ==>
      FirstIndex(s, x) < FirstIndex(s, y)
  {
    var d := Dedupe(s);
    var r := Take(d, n);
    forall x, y | x in r && y in s && y !in r ensures FirstIndex(s, x) < FirstIndex(s, y) {
      var i := Position(r, x);
      var j := Position(d, y);
      assert r == d[..|r|];
      assert d[i] == x;
      assert j >= |r|;
    }
  }

  lemma {:induction false} DistinctFilter<T(!new)>(s: seq<T>, p: T -> bool)
    requires Distinct(s)
    ensures Distinct(Filter(s, p))
  {
    if s != [] {
      DistinctFilter(s[1..], p);
    }
  }

  /** A prefix of a sequence without repeats has none either. */
  lemma TakeDistinct<T>(s: seq<T>, n: nat)
    requires Distinct(s)
    ensures Distinct(Take(s, n))
  {
    if n < |s| {
      assert forall i :: 0 <= i < n ==> Take(s, n)[i] == s[i];
    }
  }

  /** Elements listed in non-decreasing order of `key`. */
  predicate SortedBy<T>(s: seq<T>, key: T -> real) {
    forall i, j :: 0 <= i < j < |s| ==> key(s[i]) <= key(s[j])
  }

  /** Puts `x` after every element whose key is not greater than its own. */
  function Insert<T>(x: T, s: seq<T>, key: T -> real): (r: seq<T>)
    ensures multiset(r) == multiset(s) + multiset{x}
    ensures |r| == |s| + 1
  {
    if s == [] then [x]
    else if key(x) < key(s[0]) then [x] + s
    else
      assert s == [s[0]] + s[1..];
      [s[0]] + Insert(x, s[1..], key)
  }

  lemma {:induction false} InsertSorted<T>(x: T, s: seq<T>, key: T -> real)
    requires SortedBy(s, key)
    ensures SortedBy(Insert(x, s, key), key)
  {
    if s != [] && key(x) >= key(s[0]) {
      InsertSorted(x, s[1..], key);
      InsertLowerBound(x, s[1..], key, key(s[0]));
      assert Insert(x, s, key) == [s[0]] + Insert(x, s[1..], key);
    }
  }

  /** A lower bound of `x` and of every element of `s` bounds the result. */
  lemma {:induction false} InsertLowerBound<T>(x: T, s: seq<T>, key: T -> real, b: real)
    requires b <= key(x)
    requires forall i :: 0 <= i < |s| ==> b <= key(s[i])
    ensures forall i :: 0 <= i < |Insert(x, s, key)| ==> b <= key(Insert(x, s, key)[i])
  {
    if s != [] && key(x) >= key(s[0]) {
      InsertLowerBound(x, s[1..], key, b);
      assert Insert(x, s, key) == [s[0]] + Insert(x, s[1..], key);
    }
  }

  /** The stable ascending sort `s.sort((a, b) => key(a) - key(b))`. */
  function SortBy<T>(s: seq<T>, key: T -> real): (r: seq<T>)
    ensures multiset(r) == multiset(s)
    ensures |r| == |s|
    ensures SortedBy(r, key)
  {
    if s == [] then []
    else
      var init := s[..|s| - 1];
      assert s == init + [s[|s| - 1]];
      InsertSorted(s[|s| - 1], SortBy(init, key), key);
      Insert(s[|s| - 1], SortBy(init, key), key)
  }

  lemma {:induction false} InsertLast<T>(x: T, s: seq<T>, key: T -> real)
    requires forall i :: 0 <= i < |s| ==> key(s[i]) <= key(x)
    ensures Insert(x, s, key) == s + [x]
  {
    if s != [] {
      InsertLast(x, s[1..], key);
    }
  }

  /** The sort is stable: input already in key order is returned as it
      was. In particular a comparator that never orders two elements apart
      (every key the same) leaves the input unchanged. */
  lemma {:induction false} SortBySorted<T>(s: seq<T>, key: T -> real)
    requires SortedBy(s, key)
    ensures SortBy(s, key) == s
  {
    if s != [] {
      var init, last := s[..|s| - 1], s[|s| - 1];
      forall i, j | 0 <= i < j < |init| ensures key(init[i]) <= key(init[j]) {
        assert init[i] == s[i] && init[j] == s[j];
      }
      SortBySorted(init, key);
      forall i | 0 <= i < |init| ensures key(init[i]) <= key(last) {
        assert init[i] == s[i];
      }
      InsertLast(last, init, key);
      calc {
        SortBy(s, key);
        Insert(last, SortBy(init, key), key);
        Insert(last, init, key);
        init + [last];
        s;
      }
    }
  }

  /** `s.reduce((t, v) => t + v, 0)` on whole numbers. */
  function Sum(s: seq<int>): int {
    if s == [] then 0 else Sum(s[..|s| - 1]) + s[|s| - 1]
  }

  /** `s.reduce((t, v) => t + v, 0)` on amounts. */
  function SumReal(s: seq<real>): real {
    if s == [] then 0.0 else SumReal(s[..|s| - 1]) + s[|s| - 1]
  }

  lemma {:induction false} SumAppend(a: seq<int>, b: seq<int>)
    ensures Sum(a + b) == Sum(a) + Sum(b)
    decreases |b|
  {
    if b != [] {
      assert (a + b)[..|a + b| - 1] == a + b[..|b| - 1];
      SumAppend(a, b[..|b| - 1]);
    } else {
      assert a + b == a;
    }
  }

  lemma {:induction false} SumRealAppend(a: seq<real>, b: seq<real>)
    ensures SumReal(a + b) == SumReal(a) + SumReal(b)
    decreases |b|
  {
    if b != [] {
      assert (a + b)[..|a + b| - 1] == a + b[..|b| - 1];
      SumRealAppend(a, b[..|b| - 1]);
    } else {
      assert a + b == a;
    }
  }

  /** Changing one entry by `d` changes the sum by `d`. */
  lemma {:induction false} SumUpdate(s: seq<int>, i: nat, v: int)
    requires i < |s|
    ensures Sum(s[i := v]) == Sum(s) + v - s[i]
  {
    assert s == s[..i] + [s[i]] + s[i + 1..];
    assert s[i := v] == s[..i] + [v] + s[i + 1..];
    SumAppend(s[..i] + [s[i]], s[i + 1..]);
    SumAppend(s[..i] + [v], s[i + 1..]);
    SumAppend(s[..i], [s[i]]);
    SumAppend(s[..i], [v]);
  }

  lemma {:induction false} SumRealUpdate(s: seq<real>, i: nat, v: real)
    requires i < |s|
    ensures SumReal(s[i := v]) == SumReal(s) + v - s[i]
  {
    assert s == s[..i] + [s[i]] + s[i + 1..];
    assert s[i := v] == s[..i] + [v] + s[i + 1..];
    SumRealAppend(s[..i] + [s[i]], s[i + 1..]);
    SumRealAppend(s[..i] + [v], s[i + 1..]);
    SumRealAppend(s[..i], [s[i]]);
    SumRealAppend(s[..i], [v]);
  }
}

=== FILE: shop.dfy ===
/** The cart and wishlist store (`ShopContext`). The guest branch (cart kept
    in the browser) and the signed-in branch (optimistic update before the
    server call) apply the same transformation to the cart, so each cart
    operation is one function here; the wishlist differs between the two
    branches and has one function for each. */
module Shop {
  import opened Wrappers
  import opened Catalogue
  import Seqs

  const TaxRate: real := 0.0
  const ShippingFee: real := 99.0

  /** The most ids a guest wishlist holds. */
  const GuestWishlistCap: nat := 10

  /** A cart line: the key (productId, format), the quantity and the snapshot
      of the product taken when the line was created. `format` is `null`
      (`None`) when the product has no format chosen. */
  datatype Line = Line(
    productId: string,
    format: Option<string>,
    quantity: int,
    name: string,
    price: Option<real>,
    originalPrice: Option<real>,
    image: Image,
    category: Option<string>
  )

  /** The outcome of a store operation: its boolean return and the new state. */
  datatype Outcome<T> = Outcome(ok: bool, state: T)

  /** `item.productId === productId && item.format === format` */
  predicate Matches(l: Line, id: string, format: Option<string>) {
    l.productId == id && l.format == format
  }

  /** The store's invariant: at most one line per (productId, format). */
  predicate UniqueKeys(cart: seq<Line>) {
    forall i, j :: 0 <= i < j < |cart| ==>
      !Matches(cart[j], cart[i].productId, cart[i].format)
  }

  /** `cart.findIndex(...)`, with `|cart|` standing for -1. */
  function FindLine(cart: seq<Line>, id: string, format: Option<string>): (k: nat)
    ensures k <= |cart|
    ensures forall j :: 0 <= j < k ==> !Matches(cart[j], id, format)
    ensures k < |cart| ==> Matches(cart[k], id, format)
  {
    if cart == [] || Matches(cart[0], id, format) then 0
    else 1 + FindLine(cart[1..], id, format)
  }

  /** The line appended for a product not yet in the cart. */
  function Snapshot(p: Product, format: Option<string>, quantity: int): Line {
    Line(p.id, format, quantity, p.name, Some(p.price), p.originalPrice, p.image, Some(p.category))
  }

  /** `addToCart(productId, format, quantity)`: refused when the product is
      not in the catalogue; otherwise the quantity is added to the line with
      the same key, or a new line is appended. The merged quantity is not
      capped. */
  function AddToCart(products: seq<Product>, cart: seq<Line>, id: string,
                     format: Option<string>, quantity: int): (r: Outcome<seq<Line>>)
    ensures r.ok <==> HasId(products, id)
    ensures !r.ok ==> r.state == cart
    ensures r.ok && FindLine(cart, id, format) < |cart| ==>
      var k := FindLine(cart, id, format);
      && |r.state| == |cart|
      && r.state[k] == cart[k].(quantity := cart[k].quantity + quantity)
      && forall j :: 0 <= j < |cart| && j != k ==> r.state[j] == cart[j]
    ensures r.ok && FindLine(cart, id, format) == |cart| ==>
      r.state == cart + [Snapshot(Find(products, id).value, format, quantity)]
  {
    match Find(products, id)
    case None => Outcome(false, cart)
    case Some(p) =>
      var k := FindLine(cart, id, format);
      if k < |cart| then
        Outcome(true, cart[k := cart[k].(quantity := cart[k].quantity + quantity)])
      else
        Outcome(true, cart + [Snapshot(p, format, quantity)])
  }

  /** Adding keeps at most one line per key. */
  lemma AddToCartKeepsKeysUnique(products: seq<Product>, cart: seq<Line>, id: string,
                                 format: Option<string>, quantity: int)
    requires UniqueKeys(cart)
    ensures UniqueKeys(AddToCart(products, cart, id, format, quantity).state)
  {
    var r := AddToCart(products, cart, id, format, quantity).state;
    var k := FindLine(cart, id, format);
    if HasId(products, id) && k == |cart| {
      forall i, j | 0 <= i < j < |r| ensures !Matches(r[j], r[i].productId, r[i].format) {
        if j == |cart| {
          assert r[i] == cart[i];
        }
      }
    }
  }

  /** `removeFromCart(productId, format)`: drops exactly the lines with that
      key, the others keeping their order. */
  function RemoveFromCart(cart: seq<Line>, id: string, format: Option<string>): (r: seq<Line>)
    ensures Seqs.IsSubseq(r, cart)
    ensures forall l :: l in r <==> l in cart && !Matches(l, id, format)
  {
    Seqs.Filter(cart, l => !Matches(l, id, format))
  }

  /** `updateCart(productId, format, quantity)`: sets the quantity of the
      lines with that key and of no other. */
  function UpdateCart(cart: seq<Line>, id: string, format: Option<string>, quantity: int): (r: seq<Line>)
    ensures |r| == |cart|
    ensures forall i :: 0 <= i < |cart| && Matches(cart[i], id, format) ==>
      r[i] == cart[i].(quantity := quantity)
    ensures forall i :: 0 <= i < |cart| && !Matches(cart[i], id, format) ==> r[i] == cart[i]
  {
    seq(|cart|, i requires 0 <= i < |cart| =>
      if Matches(cart[i], id, format) then cart[i].(quantity := quantity) else cart[i])
  }

  /** Updating changes no key, so it keeps the keys unique. */
  lemma UpdateCartKeepsKeysUnique(cart: seq<Line>, id: string, format: Option<string>, quantity: int)
    requires UniqueKeys(cart)
    ensures UniqueKeys(UpdateCart(cart, id, format, quantity))
  {
  }

  function Quantities(cart: seq<Line>): (q: seq<int>)
    ensures |q| == |cart| && forall i :: 0 <= i < |cart| ==> q[i] == cart[i].quantity
  {
    seq(|cart|, i requires 0 <= i < |cart| => cart[i].quantity)
  }

  /** `getCartCount()`: the total number of items across the lines. */
  function CartCount(cart: seq<Line>): int {
    Seqs.Sum(Quantities(cart))
  }

  /** Adding a product in the catalogue raises the item count by exactly the
      quantity added, whether the line is merged or appended. */
  lemma {:induction false} AddToCartCount(products: seq<Product>, cart: seq<Line>, id: string,
                                          format: Option<string>, quantity: int)
    requires HasId(products, id)
    ensures CartCount(AddToCart(products, cart, id, format, quantity).state) == CartCount(cart) + quantity
  {
    var r := AddToCart(products, cart, id, format, quantity).state;
    var k := FindLine(cart, id, format);
    if k < |cart| {
      assert Quantities(r) == Quantities(cart)[k := cart[k].quantity + quantity];
      Seqs.SumUpdate(Quantities(cart), k, cart[k].quantity + quantity);
    } else {
      assert Quantities(r) == Quantities(cart) + [quantity];
      Seqs.SumAppend(Quantities(cart), [quantity]);
    }
  }

  /** The price `getCartTotal` charges for a line: the catalogue price when the
      product is still listed, else the line's own price, else 0. */
  function LinePrice(products: seq<Product>, l: Line): (price: real)
    ensures HasId(products, l.productId) ==> price == Find(products, l.productId).value.price
    ensures !HasId(products, l.productId) ==> price == l.price.GetOr(0.0)
  {
    match Find(products, l.productId)
    case Some(p) => p.price
    case None => l.price.GetOr(0.0)
  }

  /** What a line adds to the subtotal: `price * item.quantity`. */
  function Amount(products: seq<Product>, l: Line): real {
    LinePrice(products, l) * l.quantity as real
  }

  function LineAmounts(products: seq<Product>, cart: seq<Line>): (a: seq<real>)
    ensures |a| == |cart|
    ensures forall i :: 0 <= i < |cart| ==> a[i] == Amount(products, cart[i])
  {
    seq(|cart|, i requires 0 <= i < |cart| => Amount(products, cart[i]))
  }

  function Subtotal(products: seq<Product>, cart: seq<Line>): real {
    Seqs.SumReal(LineAmounts(products, cart))
  }

  /** `getCartTotal()` before formatting: subtotal, tax, and the shipping fee,
      which is charged even on an empty cart. */
  function CartTotal(products: seq<Product>, cart: seq<Line>): (total: real)
    ensures total == Subtotal(products, cart) * (1.0 + TaxRate) + ShippingFee
    ensures cart == [] ==> total == 99.0
  {
    var subtotal := Subtotal(products, cart);
    subtotal + subtotal * TaxRate + ShippingFee
  }

  lemma SubtotalAppend(products: seq<Product>, cart: seq<Line>, l: Line)
    ensures Subtotal(products, cart + [l]) == Subtotal(products, cart) + Amount(products, l)
  {
    var a := LineAmounts(products, cart);
    forall i | 0 <= i < |cart| + 1 ensures LineAmounts(products, cart + [l])[i] == (a + [Amount(products, l)])[i] {
      if i < |cart| { assert (cart + [l])[i] == cart[i]; }
    }
    assert LineAmounts(products, cart + [l]) == a + [Amount(products, l)];
    Seqs.SumRealAppend(LineAmounts(products, cart), [Amount(products, l)]);
  }

  lemma SubtotalReplace(products: seq<Product>, cart: seq<Line>, k: nat, l: Line)
    requires k < |cart|
    ensures Subtotal(products, cart[k := l])
         == Subtotal(products, cart) - Amount(products, cart[k]) + Amount(products, l)
  {
    var a := LineAmounts(products, cart);
    var b := LineAmounts(products, cart[k := l]);
    forall i | 0 <= i < |cart| ensures b[i] == a[k := Amount(products, l)][i] {
    }
    assert b == a[k := Amount(products, l)];
    Seqs.SumRealUpdate(a, k, Amount(products, l));
  }

  lemma MergedAmount(products: seq<Product>, l: Line, quantity: int, p: Product)
    requires Find(products, l.productId) == Some(p)
    ensures Amount(products, l.(quantity := l.quantity + quantity))
         == Amount(products, l) + p.price * quantity as real
  {
    var before, added := l.quantity as real, quantity as real;
    assert (l.quantity + quantity) as real == before + added;
    assert p.price * (before + added) == p.price * before + p.price * added;
  }

  /** Adding `quantity` of a listed product raises the subtotal by its
      catalogue price times `quantity`. */
  lemma AddToCartSubtotal(products: seq<Product>, cart: seq<Line>, id: string,
                          format: Option<string>, quantity: int)
    requires HasId(products, id)
    ensures Subtotal(products, AddToCart(products, cart, id, format, quantity).state)
         == Subtotal(products, cart) + Find(products, id).value.price * quantity as real
  {
    if FindLine(cart, id, format) < |cart| {
      MergeBranchSubtotal(products, cart, id, format, quantity);
    } else {
      AppendBranchSubtotal(products, cart, id, format, quantity);
    }
  }

  lemma MergeBranchSubtotal(products: seq<Product>, cart: seq<Line>, id: string,
                            format: Option<string>, quantity: int)
    requires HasId(products, id) && FindLine(cart, id, format) < |cart|
    ensures Subtotal(products, AddToCart(products, cart, id, format, quantity).state)
         == Subtotal(products, cart) + Find(products, id).value.price * quantity as real
  {
    MergedState(products, cart, id, format, quantity);
    MergeSubtotal(products, cart, FindLine(cart, id, format), quantity, Find(products, id).value,
                  AddToCart(products, cart, id, format, quantity).state);
  }

  lemma MergedState(products: seq<Product>, cart: seq<Line>, id: string,
                    format: Option<string>, quantity: int)
    requires HasId(products, id) && FindLine(cart, id, format) < |cart|
    ensures var k := FindLine(cart, id, format);
      && Find(products, cart[k].productId) == Find(products, id)
      && AddToCart(products, cart, id, format, quantity).state
         == cart[k := cart[k].(quantity := cart[k].quantity + quantity)]
  {
  }

  lemma AppendBranchSubtotal(products: seq<Product>, cart: seq<Line>, id: string,
                             format: Option<string>, quantity: int)
    requires HasId(products, id) && FindLine(cart, id, format) == |cart|
    ensures Subtotal(products, AddToCart(products, cart, id, format, quantity).state)
         == Subtotal(products, cart) + Find(products, id).value.price * quantity as real
  {
    AppendSubtotal(products, cart, id, Find(products, id).value, format, quantity,
                   AddToCart(products, cart, id, format, quantity).state);
  }

  lemma AppendSubtotal(products: seq<Product>, cart: seq<Line>, id: string, p: Product,
                       format: Option<string>, quantity: int, appended: seq<Line>)
    requires Find(products, id) == Some(p)
    requires appended == cart + [Snapshot(p, format, quantity)]
    ensures Subtotal(products, appended) == Subtotal(products, cart) + p.price * quantity as real
  {
    var l := Snapshot(p, format, quantity);
    assert l.productId == id;
    SubtotalAppend(products, cart, l);
  }

  lemma MergeSubtotal(products: seq<Product>, cart: seq<Line>, k: nat, quantity: int, p: Product,
                      merged: seq<Line>)
    requires k < |cart| && Find(products, cart[k].productId) == Some(p)
    requires merged == cart[k := cart[k].(quantity := cart[k].quantity + quantity)]
    ensures Subtotal(products, merged) == Subtotal(products, cart) + p.price * quantity as real
  {
    var l := cart[k].(quantity := cart[k].quantity + quantity);
    MergedAmount(products, cart[k], quantity, p);
    SubtotalReplace(products, cart, k, l);
  }

  /** Guest `toggleWishlistItem(productId)`: refused for an unknown product;
      a listed id is removed; a new id is appended unless the list is full. */
  function ToggleGuestWishlist(products: seq<Product>, ids: seq<string>, id: string): (r: Outcome<seq<string>>)
    ensures !HasId(products, id) ==> r == Outcome(false, ids)
    ensures HasId(products, id) && id in ids ==> r.ok && r.state == Seqs.Filter(ids, x => x != id)
    ensures HasId(products, id) && id !in ids && |ids| >= GuestWishlistCap ==> r == Outcome(false, ids)
    ensures HasId(products, id) && id !in ids && |ids| < GuestWishlistCap ==> r == Outcome(true, ids + [id])
    ensures |ids| <= GuestWishlistCap ==> |r.state| <= GuestWishlistCap
  {
    if !HasId(products, id) then Outcome(false, ids)
    else if id in ids then Outcome(true, Seqs.Filter(ids, x => x != id))
    else if |ids| >= GuestWishlistCap then Outcome(false, ids)
    else Outcome(true, ids + [id])
  }

  /** Toggling a listed id that is not in a non-full guest wishlist twice
      gives back the original list. */
  lemma ToggleGuestWishlistTwice(products: seq<Product>, ids: seq<string>, id: string)
    requires HasId(products, id) && id !in ids && |ids| < GuestWishlistCap
    ensures ToggleGuestWishlist(products, ToggleGuestWishlist(products, ids, id).state, id).state == ids
  {
    Seqs.FilterAppend(ids, [id], x => x != id);
    Seqs.FilterAll(ids, x => x != id);
  }

  /** Signed-in `toggleWishlistItem(productId)`: like the guest list but
      with no capacity. */
  function ToggleWishlist(products: seq<Product>, ids: seq<string>, id: string): (r: Outcome<seq<string>>)
    ensures !HasId(products, id) ==> r == Outcome(false, ids)
    ensures HasId(products, id) ==> r.ok && (id in r.state <==> id !in ids)
    ensures HasId(products, id) && id !in ids ==> r.state == ids + [id]
    ensures forall x :: x != id ==> (x in r.state <==> x in ids)
  {
    if !HasId(products, id) then Outcome(false, ids)
    else if id in ids then Outcome(true, Seqs.Filter(ids, x => x != id))
    else Outcome(true, ids + [id])
  }

  /** The signed-in list grows past the guest capacity: a full list still
      accepts a new listed id. */
  lemma ToggleWishlistHasNoCap(products: seq<Product>, ids: seq<string>, id: string)
    requires HasId(products, id) && id !in ids && |ids| >= GuestWishlistCap
    ensures ToggleWishlist(products, ids, id).ok
    ensures !ToggleGuestWishlist(products, ids, id).ok
    ensures |ToggleWishlist(products, ids, id).state| == |ids| + 1
  {
  }

  /** `removeFromWishlist(productId)` */
  function RemoveFromWishlist(ids: seq<string>, id: string): (r: seq<string>)
    ensures id !in r
    ensures forall x :: x != id ==> (x in r <==> x in ids)
    ensures Seqs.IsSubseq(r, ids)
  {
    Seqs.Filter(ids, x => x != id)
  }

  /** `isInWishlist(productId)` */
  predicate IsInWishlist(ids: seq<string>, id: string) {
    exists i :: 0 <= i < |ids| && ids[i] == id
  }

  /** After a successful toggle the id is in the list exactly when it was
      not before. */
  lemma ToggleFlipsMembership(products: seq<Product>, ids: seq<string>, id: string)
    requires ToggleGuestWishlist(products, ids, id).ok
    ensures IsInWishlist(ToggleGuestWishlist(products, ids, id).state, id) <==> !IsInWishlist(ids, id)
  {
    var r := ToggleGuestWishlist(products, ids, id).state;
    if IsInWishlist(r, id) {
      var i :| 0 <= i < |r| && r[i] == id;
      assert id in r;
    }
    if IsInWishlist(ids, id) {
      var i :| 0 <= i < |ids| && ids[i] == id;
      assert id in ids;
    }
    if id !in ids {
      assert r[|ids|] == id;
    }
  }
}

=== FILE: validators.dfy ===
/** The third-party checks the forms call (`validator.isEmail`,
    `validator.isMobilePhone`). Their rules live outside this code, so every
    model that needs them takes them as a parameter. The one hypothesis
    about them is `RejectsEmpty`, that both refuse the empty string. */
module Validators {

  datatype Validators = Validators(
    isEmail: string -> bool,
    isMobilePhone: string -> bool
  )

  /** The one fact about the library the models rely on: it accepts no empty
      address and no empty number. */
  predicate RejectsEmpty(v: Validators) {
    !v.isEmail("") && !v.isMobilePhone("")
  }
}

=== FILE: wishlist_page.dfy ===
/** The wishlist page (`Wishlist`): which catalogue products it lists, when
    it shows the empty state, and what its add-to-cart button passes. */
module WishlistPage {
  import opened Wrappers
  import opened Catalogue
  import Seqs
  import Shop

  /** `wishlistProducts`: the catalogue products whose id is wished for, in
      catalogue order. */
  function WishlistProducts(products: seq<Product>, ids: seq<string>): (r: seq<Product>)
    ensures Seqs.IsSubseq(r, products)
    ensures forall p :: p in r <==> p in products && p.id in ids
  {
    Seqs.Filter(products, (p: Product) => p.id in ids)
  }

  /** A catalogue without repeats gives a list without repeats, however often
      an id is wished for. */
  lemma WishlistProductsDistinct(products: seq<Product>, ids: seq<string>)
    requires Seqs.Distinct(products)
    ensures Seqs.Distinct(WishlistProducts(products, ids))
  {
    Seqs.DistinctFilter(products, (p: Product) => p.id in ids);
  }

  /** The empty state is chosen from the raw wishlist count. */
  function ShowsEmptyState(ids: seq<string>): (b: bool)
    ensures b <==> |ids| == 0
  {
    |ids| == 0
  }

  /** Wished-for ids that are no longer in the catalogue give neither the
      empty state nor any product: an empty grid. */
  lemma StaleIdsGiveEmptyGrid(products: seq<Product>, ids: seq<string>)
    requires ids != []
    requires forall i :: 0 <= i < |ids| ==> !HasId(products, ids[i])
    ensures !ShowsEmptyState(ids)
    ensures WishlistProducts(products, ids) == []
  {
  }

  /** `handleAddToCart(productId)`: always no format and one item. */
  function AddToCart(products: seq<Product>, cart: seq<Shop.Line>, id: string): (r: Shop.Outcome<seq<Shop.Line>>)
    ensures r.ok <==> HasId(products, id)
    ensures r.ok ==> Shop.CartCount(r.state) == Shop.CartCount(cart) + 1
  {
    var r := Shop.AddToCart(products, cart, id, None, 1);
    if r.ok then
      Shop.AddToCartCount(products, cart, id, None, 1);
      r
    else r
  }
}

=== FILE: wrappers.dfy ===
/** Small failure-carrying datatypes shared by every page model. */
module Wrappers {

  /** A value that may be absent: JavaScript's `null` / `undefined`. */
  datatype Option<+T> = None | Some(value: T) {
    function GetOr(default: T): T {
      match this
      case Some(v) => v
      case None => default
    }
  }

  /** The outcome of a client-side form check: either the request may go to
      the server, or it is refused locally with the message shown to the user. */
  datatype Verdict = Proceed | Refuse(message: string)
}
